=== FILE: README.md ===
# Skill inventory and project staffing, in Dafny

This project models the decision rules of a skill-inventory and project-staffing web application. The application has an Express/Mongoose back end and a React front end.

- **Accounts.** Employees, HR staff, verifiers and admins hold accounts. Employee and HR accounts start `pending` and a verifier approves or rejects them.
- **Skill claims.** Employees record skill claims, with certificates and project links, which HR or a verifier approves or rejects.
- **Projects.** HR creates projects and staffs them from employees whose approved skills cover the project's required skills.

There is no algorithmic centre. The model lifts the small, ordered decision chains out of handlers, middleware and components into pure Dafny functions over immutable records, and proves what each one promises.

**Modelling conventions**
- A collection is a `seq` in stored order, so `findOne` and `findById` return the first match.
- A handler is a function from a store and a request to a reply (status code and message) and the new store.
- The clock is an integer parameter.
- `Number(...)` and `new Date(...)` are not re-implemented. A request carries their result: `NumberValue` is `NaN` or an integer, and a date is an optional time stamp.
- A string is a sequence of Unicode characters. Where a rule reads JavaScript's `length` of a text (the password length check), it is counted in UTF-16 code units, two for a character beyond U+FFFF (`Text.Utf16Length`).
- bcrypt is an ideal symbolic hash (`Hashed(plain)`).
- JWT verification is a function parameter `decode`. A token is accepted iff `decode` yields it and the current second is before its `exp`.

**Modules**

| file | module | what it holds |
|---|---|---|
| js.dfy | Js | JavaScript value conventions: `Option`, `Given` (a non-empty text), `NumberValue`, `x \|\| d` on numbers, `Math.max` |
| text.dfy | Text | strings as `seq<char>`: ASCII `toLowerCase`, `trim`, `split`/`join`, `includes`, `path`-style last-index, UTF-16 `length`, decimal printing and parsing, and a lexicographic order |
| collections.dfy | Collections | stable `filter`, `find`, `map`, subsequences, and a stable insertion sort with its permutation and order proofs |
| schema.dfy | Schema | the three Mongoose models: enums with their parsers, accounts, skill claims, projects, the store and its lookups |
| gate.dfy | Gate | `protect` and `authorizeRoles` (authMiddleware.js), token signing and the bearer header |
| auth.dfy | Auth | `loginUser` and `resetPassword` (authController.js) |
| accounts.dfy | Accounts | registration, approval, update and the account listings (employeeController.js) |
| skills.dfy | Skills | the skill-claim lifecycle (skillController.js) |
| projects.dfy | Projects | project creation, assignment, removal, update and deletion (projectController.js) |
| upload.dfy | Upload | the certificate upload's stored name, type filter and size limit (upload.js) |
| routes.dfy | Routes | the three API routers as permission tables, with Express's first-match routing |
| password.dfy | PasswordPolicy | the six password checks shared by the sign-up and reset forms |
| register.dfy | RegisterForm | the sign-up form's per-field validation, validity and submission |
| forgot.dfy | ForgotPassword | the reset card's validation, button flag and reset guard |
| guard.dfy | ClientGuard | the client-side route guard and the page routes it protects |
| skillform.dfy | SkillForm | the employee's skill form: experience clamp, link editing, file pre-check, submit checks, status chip |
| staffing.dfy | Staffing | the project dialog's matcher and selection, and the HR dashboard's skill options, filters, sorts and pre-create checks |
| projectview.dfy | ProjectView | the client's project payload, list normalisation, status labels and colours |

**How the proofs are stated**

Each operation's contract states its outcomes: the error cases with their status codes and messages, the stored result on success, and that a failure writes nothing. Each operation also has a partner:
- an inverse or round trip (`Staffing.SelectionShownBack`, `Upload.StoredNameTimestamp`, `Schema.EnumRoundTrips`);
- an invariant kept over any sequence of edits (`RegisterForm.ApplyTracksFields`, `ForgotPassword.ApplyTracksNewPassword`, `SkillForm.ApplyReachable`);
- idempotence (`Projects.RemoveIdempotent`, `Upload.SanitizeIdempotent`, `ProjectView.NormaliseIdempotent`);
- or an independent definition it must agree with (`Routes.ServeIff` against the permission table, `ClientGuard.GuardAgreesWithServer` against `jwt.verify`).

## Model

| member | source | states |
|---|---|---|
| Gate.Sign | backend/controllers/authController.js:42-50 | The signed token carries exactly the given claims, is issued now and expires 86400 seconds (24 hours) later |
| Gate.VerifyToken | backend/middleware/authMiddleware.js:15-16 | Verification succeeds iff the signature checks out and the current second is before `exp`; it then yields the signed claims |
| Gate.BearerToken | backend/middleware/authMiddleware.js:6-8 | The token is the second space-separated piece of the header; no header, a header without a space or an empty second piece gives no token; a token is never empty and has no space |
| Gate.BearerTokenIgnoresScheme | backend/middleware/authMiddleware.js:6 | Any first word followed by a space and a token yields that token: the scheme word "Bearer" is never checked |
| Gate.BearerTokenIgnoresTail | backend/middleware/authMiddleware.js:6 | Pieces after the second are ignored |
| Gate.Protect | backend/middleware/authMiddleware.js:4-26 | No token gives 401 "Access Denied: No Token Provided"; a token that fails verification gives 401 "Invalid Token"; the request is admitted iff there is a token that verifies, and then `req.user` is its claims |
| Gate.AuthorizeRoles | backend/middleware/authMiddleware.js:28-46 | No user gives 401 "User not authenticated"; a user passes iff its role names one of the allowed roles; otherwise 403 with a message naming the role |
| Gate.UnknownRoleRefused | backend/middleware/authMiddleware.js:38-43 | A claim whose role names no known role is refused with 403 by every role list |
| Gate.AuthorizeMonotone | backend/middleware/authMiddleware.js:38 | Adding roles to the allowed list never turns away a user who was admitted |
| Auth.Login | backend/controllers/authController.js:7-63 | Missing email or password gives 400 with no lookup. A granted login matches a stored account by email and password, and the account is allowed in. The token claims are exactly {id, role, name} and last 24 hours. Every refusal is 400, 401, 403 or 404, and it carries the account id exactly when it is a 403 |
| Auth.FindByEmailUnique | backend/models/employeeModel.js:9-13 | With unique emails, the account holding an email is the one `findOne` returns |
| Auth.LoginUnknownEmail | backend/controllers/authController.js:16-19 | An email that no account holds gives 404 "User not found" |
| Auth.LoginChain | backend/controllers/authController.js:20-50 | For a stored account: a wrong password gives 401 before any status check. A rejected employee or hr account gives 403 with the rejection message and its id. A pending one gives 403 with the distinct pending message and its id. An account allowed in gets a token for its own claims |
| Auth.LoginGrantedIff | backend/controllers/authController.js:11-50 | Login succeeds iff the email and password are non-empty, an account holds the email and matches the password, and the account is a verifier or admin or is approved |
| Auth.WithPassword | backend/controllers/authController.js:94-105 | The stored credential matches the new password, and nothing else changes except `updatedAt` |
| Auth.ResetPassword | backend/controllers/authController.js:75-119 | A missing email or new password gives 400. An email that no account holds gives 404 with no `message` text, because of the misspelt key. The reset succeeds iff an account holds the email, and then only the first such account gets the new password. Failures leave the store unchanged |
| Auth.ResetKeepsKeys | backend/controllers/authController.js:105 | A reset keeps every id and every email, in order |
| Auth.ResetThenLogin | backend/controllers/authController.js:20-105 | After a reset, the new password logs in to an account that is allowed in, and a different old password gets 401 |
| Auth.ClaimsAuthorized | backend/middleware/authMiddleware.js:38 | The claims signed for a role pass a role list exactly when the list holds that role |
| Auth.SignedTokenAdmitted | backend/middleware/authMiddleware.js:6-18 | A signed token sent as `Bearer <text>` before it expires is admitted with its claims |
| Auth.IssuedTokenAdmitted | backend/controllers/authController.js:42-50 | A token issued at login and sent before it expires is admitted with the account's claims, and a role list then admits it iff the list holds the account's role |
| Schema.ParseRole | backend/models/employeeModel.js:18-22 | The role validator accepts exactly the four role names; an accepted text names the role it yields |
| Schema.ParseApproval | backend/models/employeeModel.js:32-36 | The status validator accepts exactly pending, approved and rejected |
| Schema.ParseProficiency | backend/models/skillsModel.js:15-19 | The proficiency validator accepts exactly Beginner, Intermediate and Expert |
| Schema.ParseProjectStatus | backend/models/project.js:21-25 | The project status validator accepts exactly Not Started, In Progress, Completed and On Hold |
| Schema.EnumRoundTrips | backend/models/employeeModel.js:18-36 | Each enum value's stored name is read back as that value |
| Schema.FindAccount | backend/controllers/employeeController.js:122-123 | `findById` finds the account carrying the id, or reports that none does |
| Schema.FindByEmail | backend/controllers/authController.js:16 | `findOne({email})` finds the first account holding the email, or reports that none does |
| Schema.FindSkill | backend/controllers/skillController.js:59 | `findById` on skill claims finds the claim carrying the id, or reports that none does |
| Schema.FindProject | backend/controllers/projectController.js:237 | `findById` on projects finds the project carrying the id, or reports that none does |
| Schema.FindAccountUnique | backend/controllers/employeeController.js:122 | With unique ids, the account found by id is the one carrying it |
| Accounts.FindByEmailQuery | backend/controllers/employeeController.js:95 | The duplicate check finds an account exactly when one holds the request's email |
| Accounts.InitialStatus | backend/controllers/employeeController.js:99-102 | A new account is approved iff its role is verifier or admin, otherwise pending |
| Accounts.NewAccount | backend/controllers/employeeController.js:104 | The new document keeps name, email and role, stores the password hashed, has no skills, has experience `Number(x) \|\| 0` and has the initial status for its role |
| Accounts.CreateEmployee | backend/controllers/employeeController.js:91-111 | An existing email gives 400 and no record. Otherwise it succeeds iff the schema accepts the body, and appends exactly one account. That account has the new id, the sent name and email, the sent role, a stored password that is a hash matching the sent one (the pre-save hook), no skills, the stored experience (`Number(experience) || 0`), the role's initial status, and both time stamps set to now. Failures are 400 and change nothing |
| Accounts.CreateKeepsValid | backend/models/employeeModel.js:9-13 | Registration keeps account ids and emails unique |
| Accounts.VerifyTarget | backend/controllers/employeeController.js:118 | Only "approved" and "rejected" are accepted targets |
| Accounts.VerifyUser | backend/controllers/employeeController.js:114-129 | A bad target gives 400 before any lookup, and an unknown id gives 404; both change nothing. Otherwise it succeeds, and the account's status is overwritten whatever it was before; nothing else changes |
| Accounts.VerifyIdempotent | backend/controllers/employeeController.js:125-126 | Verifying twice with the same target leaves what one call leaves |
| Accounts.VerifyKeepsValid | backend/controllers/employeeController.js:125-126 | Verification keeps ids and emails unique |
| Accounts.SavedPassword | backend/models/employeeModel.js:42-46 | The save hook hashes a password set since loading and keeps an untouched one |
| Accounts.Patched | backend/controllers/employeeController.js:58-69 | Role and status change only when given and non-empty. The other given fields overwrite, the skill-id list included. A new password is stored hashed. Id and createdAt are kept |
| Accounts.UpdateEmployee | backend/controllers/employeeController.js:47-76 | An unknown id gives 404. It succeeds iff the patch passes the schema and the unique email index, and then exactly the found account is replaced by the patched one. Failures change nothing |
| Accounts.UpdateOverwritesSkills | backend/controllers/employeeController.js:49-68 | A valid patch carrying a skill-id list succeeds and the account then lists exactly those ids |
| Accounts.UpdateKeepsValid | backend/controllers/employeeController.js:68-69 | An update keeps ids and emails unique |
| Accounts.SortByName | backend/controllers/employeeController.js:15 | The result is a permutation ordered by name |
| Accounts.RegularEmployees | backend/controllers/employeeController.js:5-27 | The listing holds exactly the approved employee accounts, as a permutation, ordered by name |
| Accounts.RegularEmployeesSecondFilterRedundant | backend/controllers/employeeController.js:21 | The second role filter never drops anything |
| Accounts.RegularEmployeesMembers | backend/controllers/employeeController.js:10-13 | An account is listed iff it is stored, has role employee and is approved |
| Accounts.PendingUsers | backend/controllers/employeeController.js:132-138 | The pending listing is the stored-order subsequence of pending accounts that are not verifiers, and holds every such account |
| Accounts.ApprovedUsers | backend/controllers/employeeController.js:218-223 | The approved listing is the stored-order subsequence of approved accounts of any role, and holds every such account |
| Accounts.ApproveMovesBetweenLists | backend/controllers/employeeController.js:125-137 | Approving a pending user takes it off the pending list and puts the updated account on the approved list |
| Accounts.ApprovedSkillsOf | backend/controllers/employeeController.js:159-162 | One account's approved claims, in stored order, all of them |
| Accounts.EmployeesWithApprovedSkills | backend/controllers/employeeController.js:145-170 | Every approved employee, in stored order, is paired with exactly its approved claims: the stored-order subsequence of the claims that it owns and that are approved |
| Accounts.EmployeeApprovedSkills | backend/controllers/employeeController.js:191-210 | An unknown id gives 404; otherwise the account is paired with exactly its approved claims, in stored order |
| Accounts.ListingAgreesWithLookup | backend/controllers/employeeController.js:145-210 | With unique account ids, every entry of the approved-employees listing is exactly what the single-employee lookup answers for that account |
| Skills.UploadUrl | backend/controllers/skillController.js:28 | The certificate URL is "/uploads/" followed by the stored file name |
| Skills.CertificateUrl | backend/controllers/skillController.js:27-28 | There is a URL exactly when a file is attached, and it is the file's upload URL; otherwise null |
| Skills.PushSkill | backend/controllers/skillController.js:43 | The owner's list gets the new id at its end; an unknown owner changes nothing; ids and emails are kept |
| Skills.PullSkill | backend/controllers/skillController.js:132-134 | Every occurrence of the id leaves the owner's list, and the rest stays in order; other accounts are untouched |
| Skills.AddSkill | backend/controllers/skillController.js:16-50 | It succeeds (201) iff the schema accepts the claim, and then exactly one claim is appended. That claim is pending whatever the request says, and has the sent owner, name, description (absent stays absent), the proficiency level named in the request, the sent experience, the certificate URL for the attached file and the parsed links, and its id is pushed onto the owner's list. Empty or malformed links text and an empty experience text give 500. Every failure is 500 and changes nothing |
| Skills.Edited | backend/controllers/skillController.js:77-99 | An edit writes name, level, experience, description (default "") and lastUpdated. The certificate URL and the links are replaced only when supplied. Id, owner and status are never touched |
| Skills.UpdateSkill | backend/controllers/skillController.js:54-119 | An unknown id gives 404 before the field check. A missing name or level, or an undefined experience, gives 400; malformed links text gives 400 "Invalid project links format". It succeeds (200) iff the claim exists, name and level are given, experience is sent and converts to a number, the links parse and the level is an enum value. A success stores exactly the edited claim at the found position and leaves every other claim as it was. No outcome ever changes an id, an owner or a status, and failures change nothing |
| Skills.BlankFieldsReadByHandler | backend/controllers/skillController.js:30-99 | The same empty experience and empty links text are refused with 500 by an addition and accepted by an edit, which stores experience 0 and keeps the links |
| Skills.DeleteSkill | backend/controllers/skillController.js:122-141 | An unknown id gives 404. Otherwise the claim is removed, the rest keep their order, and its id is pulled from its owner's list |
| Skills.DeleteSkillRemoves | backend/controllers/skillController.js:126-134 | With unique ids, the deleted claim can no longer be found, ids stay unique, and the owner no longer lists it |
| Skills.SetSkillStatus | backend/controllers/skillController.js:173-190 | An unknown id gives 404; otherwise only the found claim's status and lastUpdated change |
| Skills.ApproveSkill | backend/controllers/skillController.js:169-197 | Approval succeeds iff the claim exists, and sets it approved from any prior status; every other claim is unchanged |
| Skills.RejectSkill | backend/controllers/skillController.js:200-228 | Rejection succeeds iff the claim exists, and sets it rejected from any prior status; every other claim is unchanged |
| Skills.LastDecisionWins | backend/controllers/skillController.js:169-208 | A second decision overwrites the first: deciding twice equals deciding once with the second outcome |
| Skills.SkillsOf | backend/controllers/skillController.js:5-9 | One employee's claims, of every status, in stored order |
| Skills.PendingSkills | backend/controllers/skillController.js:152-157 | Exactly the pending claims, as a permutation, most recently updated first |
| Skills.PendingSkillsMembers | backend/controllers/skillController.js:152 | A claim is listed iff it is stored and pending |
| Skills.AddedSkillAwaitsReview | backend/controllers/skillController.js:152-177 | A new claim appears on the pending list, and approving it takes it off |
| Projects.MissingFields | backend/controllers/projectController.js:13-17 | The missing-field names come in the handler's order. A field is listed iff it is absent or empty: name and description by falsiness, and a date when it is not sent or is the empty string |
| Projects.ToAssignments | backend/models/project.js:26-40 | One stored assignment per request entry, in order, with the entry's employee id and role; `assignedDate` defaults to now |
| Projects.ToRequiredSkills | backend/models/project.js:41-51 | One stored required skill per entry, in order. Each keeps its name, and its proficiency reads back as the sent enum text |
| Projects.CreatePrecheck | backend/controllers/projectController.js:12-61 | The checks run in order: missing fields (400 naming them, joined by ", "), date format, end before start, and the assignment array with each entry's employeeId and role. Proceeding guarantees both dates parse with start <= end, and complete entries taken from the request ([] when none was sent) |
| Projects.DateOrderRule | backend/controllers/projectController.js:36-41 | With valid fields, the request is refused with "End date cannot be before start date" iff end < start; an end equal to the start proceeds |
| Projects.CreateProject | backend/controllers/projectController.js:5-99 | A pre-check refusal is 400 with its message and writes nothing. Any other failure is 500 and writes nothing. Success is 201 iff the pre-check passes and the schema's validators hold. It appends exactly one project carrying the fresh id, the trimmed name, the description, the parsed dates, status Not Started, the requester as creator, both time stamps now, the request's entries as assignments (id and role in order, dated now), and the sent required skills with their names and levels in order |
| Projects.CreateDoesNotCheckEmployees | backend/controllers/projectController.js:43-72 | Creation never looks employees up: a project can be stored naming an employee id that no account carries |
| Projects.FirstUnknownEmployee | backend/controllers/projectController.js:247-256 | Finds the first entry whose employee no account carries, all before it being known; none iff every entry's employee exists |
| Projects.AssignEmployees | backend/controllers/projectController.js:214-283 | A missing or non-array list gives 400. An incomplete entry gives 400. An unknown project gives 404. An unknown employee gives 404 naming the first such id. Every failure writes nothing. Success is 200 iff all checks pass, and then only that project changes: its assignments are replaced by the request's entries, in order |
| Projects.EmptyAssignmentClears | backend/controllers/projectController.js:219-260 | An empty array passes every check despite the "non-empty" message and clears the project's assignments |
| Projects.AssignReplaces | backend/controllers/projectController.js:259 | The resulting project does not depend on its previous assignment list: assignment replaces, never merges |
| Projects.RemoveEmployee | backend/controllers/projectController.js:286-316 | An unknown project gives 404 and writes nothing. Otherwise only that project changes: every assignment of the employee goes and the others stay in order, so the kept and the removed assignments together count the original ones |
| Projects.RemoveIdempotent | backend/controllers/projectController.js:298-300 | Removing the same employee twice leaves the same store as removing it once |
| Projects.EmployeeProjects | backend/controllers/projectController.js:319-338 | Exactly the projects with an assignment for the employee, in stored order |
| Projects.RemovedNotListed | backend/controllers/projectController.js:298-322 | After a removal, the project no longer staffs that employee, so the employee's project listing omits it |
| Projects.ProjectById | backend/controllers/projectController.js:122-146 | 404 "Project not found" iff no project carries the id; otherwise a stored project with that id |
| Projects.UpdateProject | backend/controllers/projectController.js:149-186 | An unknown id gives 404 and writes nothing. Otherwise only that project changes: each of description, start and end date, status and required skills is overwritten when present and kept when absent; a sent name is stored trimmed (the cast runs the schema's `trim` setter) and an absent one is kept; assignments and creator are untouched, and `updatedAt` is now |
| Projects.UpdateProjectIdempotent | backend/controllers/projectController.js:153-165 | Applying the same patch twice leaves the same store as applying it once |
| Projects.UpdateProjectNameTrimmed | backend/models/project.js:4-8 | A name written by an update has no white space at either end, as the schema's `trim` setter leaves it |
| Projects.DeleteProject | backend/controllers/projectController.js:189-211 | An unknown id gives 404 and writes nothing; otherwise exactly one project goes and the rest keep their order |
| Projects.DeleteProjectRemoves | backend/controllers/projectController.js:191 | With unique ids, the deleted project can no longer be found, the ids stay unique, and every other project is still stored |
| Upload.SanitizeName | backend/middleware/upload.js:20 | Same length as the original name, with no spaces: each space becomes '-' and every other character is lower-cased |
| Upload.SanitizeIdempotent | backend/middleware/upload.js:20 | Sanitising a sanitised name changes nothing |
| Upload.StoredName | backend/middleware/upload.js:18-22 | The stored name is the millisecond time stamp, '-', then the sanitised name; it contains no spaces |
| Upload.StoredNameTimestamp | backend/middleware/upload.js:21 | The time stamp is read back from the stored name as the digits before its first '-' |
| Upload.ExtName | backend/middleware/upload.js:29 | The extension is a suffix of the name starting with a '.' and holding no other '.', so it starts at the last dot. It is empty when no dot follows the first character (no dot, or ".bashrc") and for ".."; otherwise it is non-empty |
| Upload.ReceiveFile | backend/middleware/upload.js:27-45 | No file is not an error. A file is stored under its stored name iff the lower-cased extension and the mimetype both pass the type test and the size is at most 5 MiB. A failed type test gives the type error; a file of an accepted type above the limit gives the size error, and the size error arises only above the limit |
| Upload.UpperCaseExtensionAccepted | backend/middleware/upload.js:29-32 | "Scan 1.PDF" with mimetype application/pdf is accepted: the extension is lower-cased before the test |
| Upload.SubstringExtensionAccepted | backend/middleware/upload.js:28-32 | "notes.pngx" is accepted: the pattern is unanchored, so an extension that merely contains an allowed word passes |
| Upload.NoExtensionRefused | backend/middleware/upload.js:29-36 | A name with no dot is refused whatever mimetype the client declares |
| Routes.FindRoute | backend/routes/projectRoutes.js:16-27 | Declaration order: the first matching route, or none iff no route matches |
| Routes.Params | backend/routes/projectRoutes.js:24 | The path parameters are segments of the request path, at most one per segment |
| Routes.Serve | backend/routes/employeeRoutes.js:17-30 | A leading `router.use(protect)` answers a bad token before matching. A dispatched request found a route and reaches that route's handler. Behind protect it carries the token's claims, and behind a role list a role that the list holds |
| Routes.EmployeeRouterFollowsTable | backend/routes/employeeRoutes.js:17-30 | Every employee route is behind protect, carries the permission table's role list, and is no account write |
| Routes.SkillRouterFollowsTable | backend/routes/skillRoutes.js:21-31 | Every skill route is behind protect and carries the permission table's role list |
| Routes.ProjectRouterFollowsTable | backend/routes/projectRoutes.js:16-27 | Every project route is behind protect and carries the permission table's role list |
| Routes.ServeIff | backend/routes/skillRoutes.js:8-31 | A request reaches a controller iff a route matches, the token verifies, the table admits its role and no upload error stops it; the controller then sees the token's claims |
| Routes.NoTokenNoHandler | backend/routes/projectRoutes.js:16-27 | Without a valid token no request reaches a controller. The answer is 401, or 404 for an unmatched path, and a matched path gets protect's own reply |
| Routes.EmployeeRouterAlwaysGuarded | backend/routes/employeeRoutes.js:17 | Without a valid token every employee-router request gets protect's 401, even on a path no route has |
| Routes.UnknownPathNotGuarded | backend/routes/skillRoutes.js:21-31 | In the skill and project routers protect is per route, so an unmatched path is a plain 404 |
| Routes.NoAccountWriteRoute | backend/routes/employeeRoutes.js:20-30 | No routed request reaches account creation or account update |
| Routes.PendingRouteFirst | backend/routes/skillRoutes.js:20-21 | `GET /pending`, in any letter case, is the pending listing because it is declared before `/:employeeId` |
| Routes.EmployeeSkillsRoute | backend/routes/skillRoutes.js:28 | Any other single non-empty segment reaches one employee's skills, with that segment as the parameter |
| Routes.EmployeeProjectsRoute | backend/routes/projectRoutes.js:27 | `GET /employee/:employeeId` reaches the employee-projects handler with the id as its only parameter; `GET /:id` does not take it |
| Routes.FirstMatch | backend/routes/projectRoutes.js:16-27 | A matching route with no matching route before it is the one dispatched to |
| Routes.RefusedUploadStopsAddSkill | backend/routes/skillRoutes.js:8-18 | A refused file on `POST /` answers 400 with the filter's message, before the controller, even for a valid token |
| Routes.ListProjectsOpen | backend/routes/projectRoutes.js:17 | Listing projects dispatches for any valid token, whatever its role |
| Routes.VerifyRouteFound | backend/routes/employeeRoutes.js:27 | `PUT /verify/:id` matches the sixth employee route and none before it |
| Routes.ServeVerifyRoute | backend/routes/employeeRoutes.js:17-27 | With a valid token, `PUT /verify/:id` runs that route's middleware |
| Routes.OnlyVerifierVerifies | backend/routes/employeeRoutes.js:27 | A verifier token dispatches to verifyUser with the id; any other role gets 403 naming the role |
| PasswordPolicy.Listed | frontend/src/components/Auth/RegisterForm.jsx:52-57 | The six checks are all run |
| PasswordPolicy.Failed | frontend/src/components/Auth/RegisterForm.jsx:51-58 | The failed checks, in the forms' order: a check is reported iff the password fails it |
| PasswordPolicy.PasswordErrors | frontend/src/components/Auth/RegisterForm.jsx:50-59 | No messages iff the password is strong (8+ UTF-16 code units, a capital, a small letter, a digit and one of @$!%*?&); otherwise at most six, and each check's message appears iff that check fails |
| PasswordPolicy.NoneFailedIffStrong | frontend/src/components/Auth/ForgotPassword.jsx:61-67 | No check fails iff the password is strong, which is when the reset card marks the field valid |
| PasswordPolicy.MessagesDistinct | frontend/src/components/Auth/RegisterForm.jsx:52-57 | The six messages differ, so each shown message names one check |
| PasswordPolicy.EmptyPasswordFailsAll | frontend/src/components/Auth/RegisterForm.jsx:52-57 | An empty password gets all six messages, in order |
| PasswordPolicy.AllFailed | frontend/src/components/Auth/RegisterForm.jsx:51-57 | When every check fails, every check is reported, in order |
| PasswordPolicy.EmptyFailsEveryCheck | frontend/src/components/Auth/ForgotPassword.jsx:36-60 | The empty password fails every check of the reset card |
| PasswordPolicy.RequiredNeverAlone | frontend/src/components/Auth/RegisterForm.jsx:52-53 | "Field required" is always accompanied by the length message |
| PasswordPolicy.StrongExamples | frontend/src/components/Auth/RegisterForm.jsx:53-57 | "Secret1!" and "Secret2!" pass every check |
| PasswordPolicy.SurrogatePairsCountTwice | frontend/src/components/Auth/RegisterForm.jsx:53 | The length check counts `value.length`: "Aa1!" followed by two emoji is six characters, eight code units, and strong |
| Text.Utf16Length | frontend/src/components/Auth/ForgotPassword.jsx:41 | `length` lies between the character count and twice it, and equals the character count iff no character lies beyond U+FFFF |
| RegisterForm.NameError | frontend/src/components/Auth/RegisterForm.jsx:40-44 | No error iff the name is three or more ASCII letters or spaces; an empty name is "Name is required" |
| RegisterForm.EmailShapeIff | frontend/src/components/Auth/RegisterForm.jsx:47 | The accepted addresses are exactly a non-empty local part without white space or '@', followed by "@infosys.com" |
| RegisterForm.EmailError | frontend/src/components/Auth/RegisterForm.jsx:45-49 | No error iff the address is a local part followed by "@infosys.com"; an empty address is "Email is required" |
| RegisterForm.ConfirmError | frontend/src/components/Auth/RegisterForm.jsx:60-64 | No error iff the confirmation is filled and equals the password it is checked against. Empty gives "Confirm password" and a mismatch gives "Passwords must match" |
| RegisterForm.RoleError | frontend/src/components/Auth/RegisterForm.jsx:65-68 | No error iff a role is chosen |
| RegisterForm.ExperienceError | frontend/src/components/Auth/RegisterForm.jsx:69-74 | No error iff the experience is given, numeric and within 0-50 inclusive; a non-number is "Must be a number" |
| RegisterForm.Change | frontend/src/components/Auth/RegisterForm.jsx:30-80 | A change re-validates only its own field. The confirmation is compared with the password as it stands, and editing any other field leaves the confirmation and its error alone |
| RegisterForm.ApplyTracksFields | frontend/src/components/Auth/RegisterForm.jsx:30-80 | After any edits, the stored errors of name, email, password, role and experience are those of their current texts, or the field is untouched |
| RegisterForm.ValidFormFieldsPass | frontend/src/components/Auth/RegisterForm.jsx:82-91 | Whatever the edits, a form that reports itself valid has a well-formed name and email, a strong password, a role, and an experience of 0-50 |
| RegisterForm.FillIn | frontend/src/components/Auth/RegisterForm.jsx:30-34 | The fields are typed one change event each, six in all |
| RegisterForm.ApplyFillIn | frontend/src/components/Auth/RegisterForm.jsx:30-80 | Typing the six fields in order leaves each with its own validator's error |
| RegisterForm.FilledFormValidIff | frontend/src/components/Auth/RegisterForm.jsx:36-91 | Typed in order, the form is valid iff every field is well formed and the confirmation equals the password |
| RegisterForm.StaleConfirmation | frontend/src/components/Auth/RegisterForm.jsx:50-62 | The confirmation error is not refreshed when the password changes. A valid form given a different strong password stays valid with mismatched fields |
| RegisterForm.ExampleFormValid | frontend/src/components/Auth/RegisterForm.jsx:82-91 | A concrete filled-in form is valid |
| RegisterForm.StaleConfirmationExample | frontend/src/components/Auth/RegisterForm.jsx:30-91 | A concrete run: "Secret1!" typed and confirmed, then the password changed to "Secret2!", and the form still reports valid |
| RegisterForm.ApplyConcat | frontend/src/components/Auth/RegisterForm.jsx:30-34 | Applying two edit runs in turn is applying their concatenation |
| RegisterForm.ChangeChecked | frontend/src/components/Auth/RegisterForm.jsx:50-64 | The corrected handler re-checks a filled confirmation against the new password and otherwise acts as written |
| RegisterForm.ApplyCheckedTracks | frontend/src/components/Auth/RegisterForm.jsx:36-80 | With re-checking, every stored error, the confirmation's included, stays that of the current texts |
| RegisterForm.CheckedValidFormMatches | frontend/src/components/Auth/RegisterForm.jsx:82-91 | With re-checking, a valid form always has its confirmation equal to its password |
| RegisterForm.Submission | frontend/src/components/Auth/RegisterForm.jsx:93-102 | A body is sent iff the form is valid. It carries the name, email, password and role as typed, and the experience as a number, without the confirmation |
| RegisterForm.SubmissionAcceptedByServer | frontend/src/components/Auth/RegisterForm.jsx:93-102 | With a role from the drop-down, a submitted body passes the server's required-field and role checks, and its experience is the typed number, within 0-50 |
| ForgotPassword.ConfirmMessage | frontend/src/components/Auth/ForgotPassword.jsx:69-80 | No message iff the confirmation is filled and equals the new password it is compared with |
| ForgotPassword.Change | frontend/src/components/Auth/ForgotPassword.jsx:31-93 | The button flag is always the conjunction of the two field flags. A new password's flag holds iff it is strong, with the policy's messages. A confirmation's flag holds iff it equals the current new password. Editing the new password leaves the confirmation and its flag as they were |
| ForgotPassword.HandleReset | frontend/src/components/Auth/ForgotPassword.jsx:105-110 | A request is sent iff the button flag is on, carrying the card's email and the new password |
| ForgotPassword.ApplyTracksNewPassword | frontend/src/components/Auth/ForgotPassword.jsx:31-93 | After any edits, the button flag is the conjunction of the field flags, and the new-password flag and messages describe the current new password |
| ForgotPassword.SentPasswordStrong | frontend/src/components/Auth/ForgotPassword.jsx:105-110 | Whatever was typed, a sent request has a strong password and the card's email, with a filled confirmation |
| ForgotPassword.StaleConfirmation | frontend/src/components/Auth/ForgotPassword.jsx:35-84 | The confirmation is not re-checked when the new password changes: another strong password keeps the button on, and the request carries an unconfirmed password |
| ForgotPassword.StaleConfirmationRun | frontend/src/components/Auth/ForgotPassword.jsx:88-110 | A run: one password typed and confirmed, then a different strong one typed, and the reset sends the second |
| ForgotPassword.ChangeChecked | frontend/src/components/Auth/ForgotPassword.jsx:69-84 | The corrected handler re-checks a filled confirmation when the new password changes, keeping the button flag the conjunction of the two flags |
| ForgotPassword.ApplyCheckedTracks | frontend/src/components/Auth/ForgotPassword.jsx:31-93 | With re-checking, the confirmation flag holds exactly when the two inputs agree, after any edits |
| ForgotPassword.CheckedSendsConfirmed | frontend/src/components/Auth/ForgotPassword.jsx:105-110 | With re-checking, a request is sent iff the new password is strong and equals its confirmation |
| ClientGuard.FloorSecondBefore | frontend/src/routes/ProtectedRoutes.jsx:10-11 | Comparing the expiry with the floored current second is comparing it with the current millisecond |
| ClientGuard.IsTokenValid | frontend/src/routes/ProtectedRoutes.jsx:5-16 | A token passes iff it is stored, its payload yields an `exp`, and the current millisecond is before `exp` seconds |
| ClientGuard.GuardAgreesWithServer | frontend/src/routes/ProtectedRoutes.jsx:5-16 | For a server-signed token, the guard admits it iff the server's verification would at the same second |
| ClientGuard.UnsignedTokenPassesGuard | frontend/src/routes/ProtectedRoutes.jsx:8-11 | The signature is never checked: a token that the server refuses still passes the guard when its payload has a future `exp` |
| ClientGuard.RoleHome | frontend/src/routes/ProtectedRoutes.jsx:39-45 | Exactly the four roles have a redirect target, `/<role>/dashboard`, without an id |
| ClientGuard.Decide | frontend/src/routes/ProtectedRoutes.jsx:19-49 | The page renders iff the token passes, a user with a role is stored, and the page asks for no role or that role. A bad token or a missing role clears storage and goes to login. A role mismatch goes to the role's dashboard, or login for an unknown role |
| ClientGuard.RoleRedirectUnrouted | frontend/src/routes/AppRoutes.jsx:83-118 | The role redirect's target matches no page route, because every dashboard route needs an id segment |
| ClientGuard.RoleHomeOf | frontend/src/components/Auth/loginForm.jsx:37-46 | The dashboard path with the user's id appended, for exactly the four roles |
| ClientGuard.DecideWithId | frontend/src/routes/ProtectedRoutes.jsx:36-45 | The corrected guard renders and clears storage exactly when the written one does; its role redirect goes to the user's own dashboard with the id |
| ClientGuard.DashboardRouted | frontend/src/routes/AppRoutes.jsx:86-117 | A lower-case role's dashboard route matches that role's dashboard path for any id |
| ClientGuard.RedirectWithIdLands | frontend/src/routes/AppRoutes.jsx:83-118 | With the id in the path, a role redirect goes to login for an unknown role. Otherwise it lands on a page route asking for the user's own role, where the guard renders with no second redirect |
| SkillForm.ClampExperience | frontend/src/pages/employee/dashboard.jsx:239-241 | The experience kept is never negative: a non-negative number stays, and a negative or non-numeric input becomes 0 |
| SkillForm.ClampIdempotent | frontend/src/pages/employee/dashboard.jsx:240 | A clamped value typed back in comes out unchanged |
| SkillForm.UpdateLink | frontend/src/pages/employee/dashboard.jsx:268-272 | Only the edited link changes, and only in the edited field |
| SkillForm.AddLink | frontend/src/pages/employee/dashboard.jsx:274-279 | The old links stay in order, followed by one blank link |
| SkillForm.RemoveLink | frontend/src/pages/employee/dashboard.jsx:281-284 | The link at the index goes and the others keep their order; an index past the end changes nothing |
| SkillForm.RemoveUndoesAdd | frontend/src/pages/employee/dashboard.jsx:274-284 | Removing the link just added gives back the list it was added to |
| SkillForm.ClientFileCheck | frontend/src/pages/employee/dashboard.jsx:247-266 | The browser accepts a file iff it is at most 5 MiB and its declared type is JPEG, PNG or PDF. Size is checked first, with its own message |
| SkillForm.ClientPassedStoredIff | frontend/src/pages/employee/dashboard.jsx:256-263 | A file the browser accepts is stored by the server iff its name's lower-cased extension passes the server's type test: the browser checks the type only |
| SkillForm.ExtensionlessCertificateRefused | frontend/src/pages/employee/dashboard.jsx:256-263 | A PNG named "certificate" passes the browser and is refused by the server's filter |
| SkillForm.Change | frontend/src/pages/employee/dashboard.jsx:236-284 | The experience changes only by clamping. A file the browser refuses leaves the form as it was, and an accepted file is the only change |
| SkillForm.SubmitCheck | frontend/src/pages/employee/dashboard.jsx:339-347 | The submit checks pass iff the trimmed name is non-empty, a level is chosen and the experience is not negative; a blank name is reported first |
| SkillForm.ApplyReachable | frontend/src/pages/employee/dashboard.jsx:236-284 | After any edits, the experience is non-negative and any chosen file is one the browser accepted |
| SkillForm.ExperienceCheckNeverFires | frontend/src/pages/employee/dashboard.jsx:345-347 | The negative-experience check can never fire on a form the page built |
| SkillForm.ValidLinks | frontend/src/pages/employee/dashboard.jsx:349-351 | The kept links are those with both a non-blank label and a non-blank URL, in order |
| SkillForm.LinksField | frontend/src/services/SkillService.js:37-40 | The link list is sent, as parsable JSON, iff it is non-empty |
| SkillForm.AddRequest | frontend/src/services/SkillService.js:21-40 | The request goes out iff the submit checks pass. It sends the raw form: the untrimmed name, the experience as a number, and all links, blank ones included |
| SkillForm.BlankLinkStored | frontend/src/pages/employee/dashboard.jsx:204-211 | A fresh form with only a name and a level is accepted by the server, and the stored claim carries the form's initial blank link |
| SkillForm.AddRequestFiltered | frontend/src/pages/employee/dashboard.jsx:349-365 | The corrected request sends the trimmed name and only the filled links |
| SkillForm.FilteredLinksStoredFilled | frontend/src/pages/employee/dashboard.jsx:349-365 | With the filtered links sent, every link of a stored claim has a non-blank label and URL |
| SkillForm.StatusLabel | frontend/src/pages/employee/dashboard.jsx:153-176 | The chip reads "Verified" iff the status is approved and "Rejected" iff rejected; anything else reads as pending |
| SkillForm.ControlsIffNotVerified | frontend/src/pages/employee/dashboard.jsx:885 | Edit and delete are offered exactly for claims whose chip does not read "Verified", that is, claims not approved |
| Staffing.SkillNames | frontend/src/components/ProjectAssignmentDialog.jsx:88 | An employee's approved skill names, one per approved skill, in order |
| Staffing.AvailableEmployees | frontend/src/components/ProjectAssignmentDialog.jsx:82-95 | With no required skill, the whole pool. Otherwise a subsequence of the pool holding every employee whose approved skills cover all required skills, and only those |
| Staffing.AvailableIsCoverFilter | frontend/src/components/ProjectAssignmentDialog.jsx:83-94 | The empty-list shortcut agrees with the filter: the matcher is exactly the cover filter |
| Staffing.Select | frontend/src/components/ProjectAssignmentDialog.jsx:99-113 | A cleared selection changes nothing. Otherwise the list becomes one member per chosen employee, in order, with its id, name and the role "Team Member" |
| Staffing.AssignAll | frontend/src/components/ProjectAssignmentDialog.jsx:282-294 | "Assign All" sets the list to what selecting every available employee would |
| Staffing.AssignAllThenDisabled | frontend/src/components/ProjectAssignmentDialog.jsx:295 | Once pressed, the "Assign All" button is disabled |
| Staffing.FindById | frontend/src/components/ProjectAssignmentDialog.jsx:306 | The first employee carrying the id, or none iff no employee does |
| Staffing.FindByIdMember | frontend/src/components/ProjectAssignmentDialog.jsx:306 | With unique ids, looking a pool member up by its id finds that member |
| Staffing.ShownSelection | frontend/src/components/ProjectAssignmentDialog.jsx:305-307 | The picker shows at most one available employee per member, and only available employees |
| Staffing.SelectionShownBack | frontend/src/components/ProjectAssignmentDialog.jsx:99-113 | Round trip: picking available employees shows exactly those employees as selected, in order |
| Staffing.ClampTeamSize | frontend/src/components/ProjectAssignmentDialog.jsx:249 | The team size is at least 1: a number of 1 or more stays, anything else becomes 1 |
| Staffing.AssignAllEnablesCreate | frontend/src/components/ProjectAssignmentDialog.jsx:279-380 | With the fields filled and skills required, pressing "Assign All" enables Create iff someone matches and the matches fit the team size; when the button is shown, iff the matches fit the team size |
| Staffing.AllSkillNames | frontend/src/pages/hr/Dashboard.jsx:219-228 | The collected skill names are never empty |
| Staffing.AllSkillNamesMembers | frontend/src/pages/hr/Dashboard.jsx:219-228 | A name is collected iff it is non-empty and some employee has it approved |
| Staffing.FirstIndex | frontend/src/pages/hr/Dashboard.jsx:219-229 | The position of a name's first occurrence: it holds the name and no earlier position does |
| Staffing.UniqueInOrder | frontend/src/pages/hr/Dashboard.jsx:219-229 | Adding names to a Set and listing it gives each name once, exactly the names given, in order of first occurrence |
| Staffing.SkillOptions | frontend/src/pages/hr/Dashboard.jsx:219-229 | The skill filter's options are distinct and are exactly the non-empty approved skill names, in first-seen order |
| Staffing.FilterEmployees | frontend/src/pages/hr/Dashboard.jsx:265-302 | The listed employees are a subsequence of the list. An employee is listed iff it has role employee, matches the search in name or email ignoring case, covers the selected skills, has the chosen proficiency and has a skill with the minimum experience |
| Staffing.RestingFiltersShowEveryEmployee | frontend/src/pages/hr/Dashboard.jsx:130-133 | With the controls at their initial values, the list is every account whose role is employee |
| Staffing.FilteredAreAvailable | frontend/src/components/ProjectAssignmentDialog.jsx:82-95 | Anyone the dashboard lists for a skill selection, the dialog offers for those required skills |
| Staffing.ComparatorTotal | frontend/src/pages/hr/Dashboard.jsx:303-323 | Each comparator orders any two employees one way or the other |
| Staffing.SortEmployees | frontend/src/pages/hr/Dashboard.jsx:303-323 | The sorted list is a permutation of the filtered one. It is ordered by name or by skill count, ascending or descending as chosen, and is unchanged when no sort key applies |
| Staffing.SkillCountOrdered | frontend/src/pages/hr/Dashboard.jsx:317-320 | Sorted by ascending skill count, any earlier employee has no more skills than any later one |
| Staffing.MissingSkills | frontend/src/pages/hr/Dashboard.jsx:380-381 | Nothing is missing iff the employee covers the required skills; a skill is missing iff it is required and not approved |
| Staffing.CoveredHasNoneMissing | frontend/src/pages/hr/Dashboard.jsx:381 | An employee with a missing required skill does not cover the requirement |
| Staffing.LackLine | frontend/src/pages/hr/Dashboard.jsx:378-384 | A member gets a line iff its employee is in the list and misses a required skill; the line is the employee's name, " lacks skills: " and the missing skills joined by ", " |
| Staffing.LackLines | frontend/src/pages/hr/Dashboard.jsx:376-386 | No line iff every team member found among the employees covers the required skills; at most one line per member, and every member's line is among them |
| Staffing.LackLinesOnlyLacks | frontend/src/pages/hr/Dashboard.jsx:376-386 | Every line is the line of some team member |
| Staffing.FieldErrors | frontend/src/pages/hr/Dashboard.jsx:355-360 | No field message iff the name and description are not blank, both dates are given and a skill is required. A blank name's message comes first |
| Staffing.MessageIf | frontend/src/pages/hr/Dashboard.jsx:356-360 | A failed test contributes exactly its message; a passed one contributes nothing |
| Staffing.AssignCheck | frontend/src/pages/hr/Dashboard.jsx:344-391 | No team comes first. Then the field messages, joined by ", ". Then "End date must be after start date" when the end is not after the start. Then the lack lines, joined by newlines. Creation proceeds iff there is a team, no field message, an end after the start, and no lack line |
| Staffing.UnknownMembersSkipped | frontend/src/pages/hr/Dashboard.jsx:378-379 | Members not among the employees are skipped by the skill check |
| Staffing.OfferedTeamHasNoLacks | frontend/src/pages/hr/Dashboard.jsx:376-386 | A team picked from the dialog's offer for the required skills passes the skill check |
| ProjectView.ClientCheck | frontend/src/services/projectService.js:8-27 | The request may go iff the name is given, both dates are given and at least one employee is assigned. The name message comes first, then the dates message; no other message is possible |
| ProjectView.FormatPayload | frontend/src/services/projectService.js:30-48 | The payload has the trimmed name and the description or "". Dates are sent as text, ISO for Date objects. Priority defaults to Medium, team size to 1, and status is Active. There is one Intermediate skill per entry in order, and one assignment per member in order, keeping its id and any role set, and "Team Member" for an unset role |
| ProjectView.CreateProjectClient | frontend/src/services/projectService.js:3-48 | Refused without a request iff a client check fails, with that check's message; otherwise the formatted payload is sent |
| ProjectView.AsRequest | frontend/src/services/projectService.js:44-47 | The server receives the assignments as an array with one entry per assignment sent |
| ProjectView.SentFieldsAtServer | frontend/src/services/projectService.js:8-34 | Of a payload the client lets through, the server finds the name missing iff it was blank, the description missing iff none was given, and never a date. A blank name or a missing description is therefore refused by the server after the client accepted it |
| ProjectView.SentEntriesComplete | frontend/src/services/projectService.js:44-47 | With non-empty employee ids, every assignment the client sends passes the server's entry check |
| ProjectView.OrText | frontend/src/services/projectService.js:134-140 | A given text is kept; a missing or empty one becomes the fallback |
| ProjectView.NormaliseSkill | frontend/src/services/projectService.js:141-146 | A bare name or an object's skillName becomes the name; the level is the object's when set, otherwise Intermediate |
| ProjectView.NormaliseMember | frontend/src/services/projectService.js:147-153 | The id is unwrapped from a populated account and absent iff the reference is. The name is the account's, else the entry's, else "Unknown Employee". The role defaults to "Team Member" |
| ProjectView.Normalise | frontend/src/services/projectService.js:132-154 | Id and dates are kept. A set name, description, priority or status is kept, otherwise "Unnamed Project", "", Medium or Active. A non-zero team size is kept, 0 becomes 1. Lists that are not arrays become empty; each skill and each member is normalised in order |
| ProjectView.NormaliseIdempotent | frontend/src/services/projectService.js:132-154 | Normalising an already normalised project changes nothing |
| ProjectView.CurrentTeamCount | frontend/src/services/projectService.js:309 | The employee list's team count equals the number of members the normalised project lists |
| ProjectView.ProjectStatus | frontend/src/services/projectService.js:336-344 | "Upcoming" (info) iff now is before a valid start. "Completed" (success) iff not upcoming and after a valid end. "In Progress" (warning) otherwise |
| ProjectView.CalculateStatus | frontend/src/components/ProjectAssignmentsTable.jsx:66-78 | One of Pending, Completed or Active: Pending iff before a valid start, Completed iff not pending and after a valid end |
| ProjectView.StatusNamesAgree | frontend/src/components/ProjectAssignmentsTable.jsx:66-78 | The HR table and the employee list split time identically under different names |
| ProjectView.ActiveIffWithin | frontend/src/components/ProjectAssignmentsTable.jsx:66-78 | With valid dates, Active iff the start <= now <= the end |
| ProjectView.CompletedIffPastEnd | frontend/src/components/ProjectAssignmentsTable.jsx:66-78 | For ordered dates, Completed iff past the end. Dates out of order show Pending between the end and the start |
| ProjectView.UndatedStaysActive | frontend/src/components/ProjectAssignmentsTable.jsx:66-78 | Without valid dates a project is always Active |
| ProjectView.StatusMovesForward | frontend/src/components/ProjectAssignmentsTable.jsx:66-78 | For ordered dates the status only moves forward in time: Pending, then Active, then Completed |
| ProjectView.StatusColor | frontend/src/components/ProjectAssignmentsTable.jsx:80-107 | Ignoring case, active is green, pending orange and completed blue. The grey default is used iff the status is missing or another word |
| ProjectView.StatusColorIgnoresCase | frontend/src/components/ProjectAssignmentsTable.jsx:81 | The colour does not depend on the status's letter case |
| ProjectView.ComputedStatusColoured | frontend/src/components/ProjectAssignmentsTable.jsx:413-418 | Every computed status gets a colour, never the grey default |
| ProjectView.MemberWord | frontend/src/components/ProjectAssignmentsTable.jsx:316 | "member" iff exactly one member, else "members" |

## Left out

- **Persistence.** Mongoose persistence, `populate`, `lean` and the `Promise.all` fan-out are replaced by operations on sequences.
  - A populated reference is read as the id it holds, and a populated account's `_id` is taken to be non-empty (`ProjectView.EmployeeRef`).
  - Schema validation is modelled where a handler creates a document or calls `save()` on one it changed (`Accounts.CreateEmployee`, `Accounts.UpdateEmployee`, `Skills.AddSkill`, `Projects.CreateProject`). `save()` failures for other reasons (a lost connection) are not modelled.
- Projects.UpdateProject: the patch carries a status from the enum, proficiencies from the enum and dates as time stamps. `findByIdAndUpdate` runs no validators, so the handler would also store any status text, an empty name or any proficiency text. A later `save()` of that project by `assignEmployees` or `removeEmployee` would then fail validation and answer 500. A date text that cannot be cast gives 500. None of these paths is modelled.
- **Malformed ids.** Every id in a request or a path is taken to be a well-formed ObjectId, so a lookup either finds a record or finds none. A malformed id makes Mongoose throw a cast error instead. The handler's catch then answers 500, or 400 in `updateEmployee`. `verifyUser` has no try/catch, so the request fails without a reply from the handler. `assignEmployees` answers 500 for a malformed employee id, and so does `addSkill` for a malformed owner id.
- **Listing projections.** The listings return whole records. The source trims some of them: `getRegularEmployees` selects only name, email, experience, status and role (employeeController.js:14), and `getAllEmployees` drops the password. Which records are listed, and in which order, is modelled; which fields each carries is not (`Accounts.RegularEmployees`, `Accounts.PendingUsers`, `Accounts.ApprovedUsers`).
- **Numbers.** `NumberValue` holds only integers and NaN. Fractional values, such as an experience of 2.5 years, and infinite values are not modelled.
- **Empty experience on an account update.** `updateEmployee` copies `experience: ""` onto the account, and Mongoose casts it to null, which the optional field accepts. The model's patch carries only numbers, so this null is not modelled.
- **Cryptography.** bcrypt hashing and comparison are an ideal symbolic hash with no salt. JWT signing is a symbolic `Token(payload, issuedAt, expiresAt)`, and verification is a parameter, since both are foreign libraries.
- **Upload I/O.** multer's disk storage and the `mkdirSync` of the upload directory are I/O. Only the name, type and size rules are modelled.
- **JavaScript conversions.** `Number(...)`, `parseInt(...)`, `new Date(...)`, `toISOString()` and `JSON.parse` of project links are abstract.
  - A request carries their results instead.
  - An ISO text produced from a `Date` object is taken to be non-empty (`ProjectView.SentFieldsAtServer`).
- **Letter case.** `toLowerCase` is modelled for ASCII letters only. Other characters are left as they are.
- **Sorting.**
  - Staffing.SortEmployees: the name sort uses a plain lexicographic order on characters, not the locale-aware `localeCompare`.
  - The HR page's experience sort is left out: it compares `Math.max` over possibly empty lists, which yields `-Infinity`.
  - `Collections.SortBy` keeps equal elements in their original order, as JavaScript's stable `Array.prototype.sort` does. Its contract states the order and the permutation but not stability. The case with no sort key is stated directly: the list is unchanged.
- **Client guard.** `ClientGuard.IsTokenValid` takes `JSON.parse(atob(token.split('.')[1])).exp` as a parameter `readExp`. The base64 and JSON decoding is not modelled.
- **Role-route lookup.** The guard's `roleRoutes[user.role]` is modelled for the four role names. A role such as `constructor`, which reaches an inherited object property, is not.
- **Not in the model.**
  - The HTTP service wrappers (`api.js`, `authService.js`, `SkillService.js` and the other services) are not part of this model. Where a page calls them, the body they send is modelled (`SkillForm.AddRequest`).
  - The rendering and layout of every page are not part of this model.
  - `server.js` and `authRoutes.js` only wire routes. Login and reset are treated as public handlers.
  - `EmployeeProjectAssignmentsTable.jsx` is not part of this model, because it reads a `data` field that `getAllProjects` does not return.
- **Client fields the server ignores.** The client sends `status: "Active"`, `priority` and `teamSize` with a new project. The Project schema has none of the last two, and `createProject` forwards none of the three, so `ProjectView.AsRequest` drops them.
- Routes.Params: its contract states only that the parameters are path segments. The exact parameter lists of the routes that use them are proved per route (`Routes.EmployeeSkillsRoute`, `Routes.EmployeeProjectsRoute`, `Routes.OnlyVerifierVerifies`).
- ProjectView.AsRequest: its contract states only the shape of the assignment list. What the server does with the fields is proved in `ProjectView.SentFieldsAtServer` and `ProjectView.SentEntriesComplete`.
- Staffing.ShownSelection: its contract bounds the shown list. Its exact content is stated by the round trip `Staffing.SelectionShownBack`.

## Where the code departs from the application's intended behaviour

The model follows the code in each of these cases.

- **Registration is not routed.** Sign-up is meant to be public, through a `POST /employees` route. `employeeRoutes.js` mounts no create or update route, and every route it has is behind `protect` (`Routes.NoAccountWriteRoute`). `Accounts.CreateEmployee` models the handler as written, unreachable as it is.
- **No pending-only guard.** Approving or rejecting an account or a skill claim overwrites any prior status (`Accounts.VerifyIdempotent`, `Skills.LastDecisionWins`). Nothing restricts these transitions to claims or accounts that are pending.
- **End date equal to start.** The server accepts an end date equal to the start date (`Projects.DateOrderRule`). The HR page refuses it before sending (`Staffing.AssignCheck`).
- **No employee check at creation.** Assignments are meant to reference existing accounts. `createProject` never looks them up (`Projects.CreateDoesNotCheckEmployees`). Only `assignEmployees` checks.
- **Empty assignment list accepted.** `assignEmployees` answers "must be a non-empty array" only for a missing or non-array value. An empty array clears the team (`Projects.EmptyAssignmentClears`).
- **No ownership check on skills.** Skill reads and writes need only a valid token. Nothing checks the claim's owner (`Routes.SkillRouterFollowsTable`).
- **Misspelt reply key.** `resetPassword` answers an unknown email with a misspelt `messsage` key, so the reply has no `message` text (`Auth.ResetPassword`).
- **Blank fields pass the client.** The client's project check lets through a name of spaces and a missing description, which the server then refuses (`ProjectView.SentFieldsAtServer`).

## Findings

| source | as written | input that shows it | evidently intended | confidence | as-written member | corrected member |
|---|---|---|---|---|---|---|
| frontend/src/components/Auth/RegisterForm.jsx:50-62 | The confirmation's error is computed only when the confirmation changes, so changing the password afterwards leaves a stale "no error" | type "Secret1!", confirm "Secret1!", then change the password to "Secret2!": the form reports itself valid with mismatched fields | a valid form has its confirmation equal to its password | high; not executed | RegisterForm.StaleConfirmationExample | RegisterForm.CheckedValidFormMatches |
| frontend/src/components/Auth/ForgotPassword.jsx:35-84 | Changing the new password does not re-check the confirmation, and the button flag keeps the old confirmation's verdict | new password "Secret1!", confirm "Secret1!", new password "Secret2!": Reset sends "Secret2!", which was never confirmed | Reset is enabled only when the new password equals its confirmation | high; not executed | ForgotPassword.StaleConfirmationRun | ForgotPassword.CheckedSendsConfirmed |
| frontend/src/routes/ProtectedRoutes.jsx:39-45 | A role mismatch redirects to `/<role>/dashboard`, but every dashboard route is `/<role>/dashboard/:id`, so the redirect matches no page | an hr user opening `/employee/dashboard/7` is sent to `/hr/dashboard`, which no route renders | redirect to the user's own dashboard with the id, as the login form does | high; not executed | ClientGuard.RoleRedirectUnrouted | ClientGuard.RedirectWithIdLands |
| frontend/src/pages/employee/dashboard.jsx:349-379 | `handleSubmit` filters the project links and trims the name, then sends the unfiltered form | a fresh form with only a name and a level: the stored claim carries the initial blank link | only links with a label and a URL are sent and stored | high; not executed | SkillForm.BlankLinkStored | SkillForm.FilteredLinksStoredFilled |

=== FILE: accounts.dfy ===
/**
 * Account handlers (employeeController.js): registration, the verifier's
 * approve/reject transition, the generic update, and the account listings.
 *
 * A Mongoose validation failure (a missing required field, a value outside an
 * enum, a number that does not cast) or a duplicate-key error is caught by
 * these handlers and answered with 400 and the error's text; the model
 * answers 400 with `ValidationFailed` in its place.
 */
module Accounts {
  import opened Js
  import opened Collections
  import opened Text
  import opened Schema

  // ---------------------------------------------------------------------------
  // Registration

  /** The body of a registration request; `experience` is what `Number(...)` made of it. */
  datatype Registration = Registration(
    name: Option<string>,
    email: Option<string>,
    password: Option<string>,
    experience: NumberValue,
    role: Option<string>)

  /**
   * `findOne({email})` for the request's email. Without an email the
   * registration fails either way; the model lets the lookup find nothing and
   * the required-field check refuse it.
   */
  function FindByEmailQuery(accounts: seq<Account>, email: Option<string>): (r: Option<nat>)
    ensures r.Some? ==> r.value < |accounts| && email.Some? && accounts[r.value].email == email.value
    ensures r.None? <==> email.None? || forall j :: 0 <= j < |accounts| ==> accounts[j].email != email.value
  {
    match email
    case Some(e) => FindByEmail(accounts, e)
    case None => None
  }

  /** Verifier and admin accounts start approved, all others pending. */
  function InitialStatus(role: Role): (s: Approval)
    ensures s == Approved <==> role == Verifier || role == Admin
    ensures s == Pending <==> role == Employee || role == HR
  {
    match role
    case Verifier => Approved
    case Admin => Approved
    case Employee => Pending
    case HR => Pending
  }

  /** The schema's required fields and the role enum hold for a registration. */
  predicate RegistrationValid(req: Registration) {
    Given(req.name) && Given(req.email) && Given(req.password)
    && req.role.Some? && ParseRole(req.role.value).Some?
  }

  /** The document `new Employee({...})` builds and the pre-save hook hashes. */
  function NewAccount(req: Registration, id: Id, now: int): (a: Account)
    requires RegistrationValid(req)
    ensures a.id == id && a.name == req.name.value && a.email == req.email.value
    ensures Matches(req.password.value, a.password)
    ensures RoleName(a.role) == req.role.value
    ensures a.skills == [] && a.experience == OrZero(req.experience)
    ensures a.status == InitialStatus(a.role) && a.createdAt == now && a.updatedAt == now
  {
    var role := ParseRole(req.role.value).value;
    Account(id, req.name.value, req.email.value, Hash(req.password.value), role, [],
            OrZero(req.experience), InitialStatus(role), now, now)
  }

  /**
   * `createEmployee` at time `now`; `id` is the ObjectId the new document
   * receives, which no stored account carries.
   */
  function CreateEmployee(accounts: seq<Account>, req: Registration, id: Id, now: int): (r: (Reply, seq<Account>))
    requires id !in AccountIds(accounts)
    ensures FindByEmailQuery(accounts, req.email).Some? ==>
      r == (Reply(400, "User with this email already exists!"), accounts)
    ensures r.0.code == 200 <==> FindByEmailQuery(accounts, req.email).None? && RegistrationValid(req)
    ensures r.0.code != 200 ==> r.0.code == 400 && r.1 == accounts
    ensures r.0.code == 200 ==> |r.1| == |accounts| + 1 && r.1[..|accounts|] == accounts
    ensures r.0.code == 200 ==> var a := r.1[|accounts|];
      && a.id == id && a.name == req.name.value && a.email == req.email.value
      && RoleName(a.role) == req.role.value && Matches(req.password.value, a.password)
      && a.skills == [] && a.experience == OrZero(req.experience)
      && a.createdAt == now && a.updatedAt == now
      && (a.status == Approved <==> req.role.value in {"verifier", "admin"})
      && (a.status == Pending <==> req.role.value in {"employee", "hr"})
  {
    if FindByEmailQuery(accounts, req.email).Some? then (Reply(400, "User with this email already exists!"), accounts)
    else if !RegistrationValid(req) then (Reply(400, ValidationFailed), accounts)
    else (Reply(200, ""), accounts + [NewAccount(req, id, now)])
  }

  /** Registration keeps ids and emails unique. */
  lemma CreateKeepsValid(db: Db, req: Registration, id: Id, now: int)
    requires DbValid(db)
    requires id !in AccountIds(db.accounts)
    ensures DbValid(db.(accounts := CreateEmployee(db.accounts, req, id, now).1))
  {
    var r := CreateEmployee(db.accounts, req, id, now);
    if r.0.code == 200 {
      var a := r.1[|db.accounts|];
      assert r.1 == db.accounts + [a];
      assert AccountIds(r.1) == AccountIds(db.accounts) + [id];
      assert AccountEmails(r.1) == AccountEmails(db.accounts) + [a.email];
      assert FindByEmail(db.accounts, a.email).None?;
    }
  }

  // ---------------------------------------------------------------------------
  // Verification

  /** `['approved', 'rejected'].includes(status)`: the only targets a verifier may set. */
  function VerifyTarget(status: Option<string>): (r: Option<Approval>)
    ensures r.Some? <==> status == Some("approved") || status == Some("rejected")
    ensures r.Some? ==> ApprovalName(r.value) == status.value && r.value != Pending
  {
    if status == Some("approved") then Some(Approved)
    else if status == Some("rejected") then Some(Rejected)
    else None
  }

  /**
   * `verifyUser` at time `now`: the target is checked before the lookup, and
   * the status is overwritten whatever it was before.
   */
  function VerifyUser(accounts: seq<Account>, id: Id, status: Option<string>, now: int): (r: (Reply, seq<Account>))
    ensures VerifyTarget(status).None? ==> r == (Reply(400, "Invalid status"), accounts)
    ensures VerifyTarget(status).Some? && FindAccount(accounts, id).None? ==> r == (Reply(404, "User not found"), accounts)
    ensures r.0.code == 200 <==> VerifyTarget(status).Some? && FindAccount(accounts, id).Some?
    ensures |r.1| == |accounts|
    ensures r.0.code == 200 ==> r.0.message == "User " + status.value + " successfully."
    ensures r.0.code == 200 ==> var k := FindAccount(accounts, id).value;
      && r.1 == accounts[k := accounts[k].(status := VerifyTarget(status).value, updatedAt := now)]
  {
    match VerifyTarget(status)
    case None => (Reply(400, "Invalid status"), accounts)
    case Some(target) =>
      match FindAccount(accounts, id)
      case None => (Reply(404, "User not found"), accounts)
      case Some(k) =>
        (Reply(200, "User " + status.value + " successfully."), accounts[k := accounts[k].(status := target, updatedAt := now)])
  }

  /** Verifying twice with the same target leaves what the first call left, up to the timestamp. */
  lemma VerifyIdempotent(accounts: seq<Account>, id: Id, status: Option<string>, t1: int, t2: int)
    ensures var once := VerifyUser(accounts, id, status, t1).1;
      VerifyUser(once, id, status, t2).1 == VerifyUser(accounts, id, status, t2).1
  {
    var once := VerifyUser(accounts, id, status, t1).1;
    if VerifyTarget(status).Some? && FindAccount(accounts, id).Some? {
      var k := FindAccount(accounts, id).value;
      assert FindAccount(once, id) == Some(k) by {
        assert forall j :: 0 <= j < |once| ==> once[j].id == accounts[j].id;
      }
    }
  }

  /** Verification changes one account's status and nothing else; keys stay unique. */
  lemma VerifyKeepsValid(db: Db, id: Id, status: Option<string>, now: int)
    requires DbValid(db)
    ensures DbValid(db.(accounts := VerifyUser(db.accounts, id, status, now).1))
  {
    var after := VerifyUser(db.accounts, id, status, now).1;
    assert AccountIds(after) == AccountIds(db.accounts);
    assert AccountEmails(after) == AccountEmails(db.accounts);
  }

  // ---------------------------------------------------------------------------
  // Generic update

  /**
   * The body of `updateEmployee`: `role` and `status` apply only when truthy;
   * the other fields present are copied onto the account by `Object.assign`,
   * the skill-id list included.
   */
  datatype AccountPatch = AccountPatch(
    role: Option<string>,
    status: Option<string>,
    name: Option<string>,
    email: Option<string>,
    password: Option<string>,
    experience: Option<NumberValue>,
    skills: Option<seq<Id>>)

  /** The pre-save hook: a password plain since loading is stored hashed; an untouched one is kept. */
  function SavedPassword(stored: Credential, plain: Option<string>): (c: Credential)
    ensures plain.None? ==> c == stored
    ensures plain.Some? ==> Matches(plain.value, c)
  {
    match plain
    case None => stored
    case Some(p) => Hash(p)
  }

  /**
   * The schema accepts the patched document: enums, required strings and the
   * number cast. A skill list of well-formed ObjectIds always casts.
   */
  predicate PatchValid(p: AccountPatch) {
    && (Given(p.role) ==> ParseRole(p.role.value).Some?)
    && (Given(p.status) ==> ParseApproval(p.status.value).Some?)
    && (p.name.Some? ==> p.name.value != "")
    && (p.email.Some? ==> p.email.value != "")
    && (p.password.Some? ==> p.password.value != "")
    && (p.experience.Some? ==> p.experience.value.Num?)
  }

  /** The account after the patch and the save at time `now`. */
  function Patched(a: Account, p: AccountPatch, now: int): (b: Account)
    requires PatchValid(p)
    ensures b.id == a.id && b.createdAt == a.createdAt && b.updatedAt == now
    ensures b.skills == p.skills.GetOr(a.skills)
    ensures p.experience.None? ==> b.experience == a.experience
    ensures p.experience.Some? ==> b.experience == p.experience.value.value
    ensures !Given(p.role) ==> b.role == a.role
    ensures Given(p.role) ==> RoleName(b.role) == p.role.value
    ensures !Given(p.status) ==> b.status == a.status
    ensures Given(p.status) ==> ApprovalName(b.status) == p.status.value
    ensures b.name == p.name.GetOr(a.name) && b.email == p.email.GetOr(a.email)
    ensures p.password.None? ==> b.password == a.password
    ensures p.password.Some? ==> Matches(p.password.value, b.password)
  {
    var role := if Given(p.role) then ParseRole(p.role.value).value else a.role;
    var status := if Given(p.status) then ParseApproval(p.status.value).value else a.status;
    var experience := if p.experience.Some? then p.experience.value.value else a.experience;
    a.(role := role, status := status, name := p.name.GetOr(a.name), email := p.email.GetOr(a.email),
       password := SavedPassword(a.password, p.password), experience := experience,
       skills := p.skills.GetOr(a.skills), updatedAt := now)
  }

  /** Another account (not position `k`) already holds `email`: the unique index refuses it. */
  predicate EmailTakenByOther(accounts: seq<Account>, k: nat, email: string) {
    exists j :: 0 <= j < |accounts| && j != k && accounts[j].email == email
  }

  /** `updateEmployee` at time `now`. */
  function UpdateEmployee(accounts: seq<Account>, id: Id, p: AccountPatch, now: int): (r: (Reply, seq<Account>))
    ensures FindAccount(accounts, id).None? ==> r == (Reply(404, "User not found"), accounts)
    ensures r.0.code != 200 ==> r.1 == accounts && r.0.code in {400, 404}
    ensures |r.1| == |accounts|
    ensures r.0.code == 200 <==> (FindAccount(accounts, id).Some? && PatchValid(p)
      && !(p.email.Some? && EmailTakenByOther(accounts, FindAccount(accounts, id).value, p.email.value)))
    ensures r.0.code == 200 ==> var k := FindAccount(accounts, id).value;
      && r.1 == accounts[k := Patched(accounts[k], p, now)]
  {
    match FindAccount(accounts, id)
    case None => (Reply(404, "User not found"), accounts)
    case Some(k) =>
      if !PatchValid(p) then (Reply(400, ValidationFailed), accounts)
      else if p.email.Some? && EmailTakenByOther(accounts, k, p.email.value) then (Reply(400, ValidationFailed), accounts)
      else (Reply(200, "User updated successfully"), accounts[k := Patched(accounts[k], p, now)])
  }

  /**
   * The body may carry the skill-id list itself: an otherwise valid update
   * that sends `skills` replaces the account's list outright, so `[]`
   * empties it while the claims stay in the skill store.
   */
  lemma UpdateOverwritesSkills(accounts: seq<Account>, id: Id, p: AccountPatch, now: int)
    requires FindAccount(accounts, id).Some? && PatchValid(p) && p.email.None? && p.skills.Some?
    ensures var r := UpdateEmployee(accounts, id, p, now);
      r.0.code == 200 && r.1[FindAccount(accounts, id).value].skills == p.skills.value
  {
  }

  /** An update keeps ids and emails unique. */
  lemma UpdateKeepsValid(db: Db, id: Id, p: AccountPatch, now: int)
    requires DbValid(db)
    ensures DbValid(db.(accounts := UpdateEmployee(db.accounts, id, p, now).1))
  {
    var before := db.accounts;
    var after := UpdateEmployee(before, id, p, now).1;
    if after != before {
      var k := FindAccount(before, id).value;
      assert AccountIds(after) == AccountIds(before);
      var emails := AccountEmails(after);
      forall i, j | 0 <= i < j < |emails|
        ensures emails[i] != emails[j]
      {
        if i != k && j != k {
          assert emails[i] == AccountEmails(before)[i];
          assert emails[j] == AccountEmails(before)[j];
        } else if p.email.None? {
          assert emails[i] == AccountEmails(before)[i];
          assert emails[j] == AccountEmails(before)[j];
        }
      }
    }
  }

  // ---------------------------------------------------------------------------
  // Listings

  predicate IsRegular(a: Account) {
    a.role == Employee && a.status == Approved
  }

  function ByName(): (Account, Account) -> bool {
    (a: Account, b: Account) => LexLe(a.name, b.name)
  }

  lemma ByNameTotal()
    ensures Total(ByName())
  {
    forall a: Account, b: Account
      ensures ByName()(a, b) || ByName()(b, a)
    {
      LexTotal(a.name, b.name);
    }
  }

  /** `.sort({name: 1})`: a permutation ordered by name. */
  function SortByName(s: seq<Account>): (r: seq<Account>)
    ensures multiset(r) == multiset(s)
    ensures forall i :: 0 < i < |r| ==> LexLe(r[i - 1].name, r[i].name)
  {
    ByNameTotal();
    SortBy(s, ByName())
  }

  /**
   * `getRegularEmployees`: approved accounts with role employee, sorted by
   * name; the second filter on role is kept as written.
   */
  function RegularEmployees(accounts: seq<Account>): (r: seq<Account>)
    ensures forall i :: 0 <= i < |r| ==> IsRegular(r[i])
    ensures multiset(r) == multiset(Filter(accounts, IsRegular))
    ensures forall i :: 0 < i < |r| ==> LexLe(r[i - 1].name, r[i].name)
  {
    var sorted := SortByName(Filter(accounts, IsRegular));
    assert forall i :: 0 <= i < |sorted| ==> sorted[i] in multiset(Filter(accounts, IsRegular));
    RegularEmployeesSecondFilterRedundant(accounts);
    Filter(sorted, (a: Account) => a.role == Employee)
  }

  /** The second filter never drops anything: it is redundant. */
  lemma RegularEmployeesSecondFilterRedundant(accounts: seq<Account>)
    ensures Filter(SortByName(Filter(accounts, IsRegular)), (a: Account) => a.role == Employee)
      == SortByName(Filter(accounts, IsRegular))
  {
    var sorted := SortByName(Filter(accounts, IsRegular));
    assert forall i :: 0 <= i < |sorted| ==> sorted[i] in multiset(Filter(accounts, IsRegular));
    FilterKeepsAll(sorted, (a: Account) => a.role == Employee);
  }

  /** An account is listed as a regular employee exactly when it is an approved employee. */
  lemma RegularEmployeesMembers(accounts: seq<Account>, a: Account)
    ensures a in RegularEmployees(accounts) <==> a in accounts && IsRegular(a)
  {
    var r := RegularEmployees(accounts);
    assert a in r <==> a in multiset(r);
    assert a in Filter(accounts, IsRegular) <==> a in multiset(Filter(accounts, IsRegular));
  }

  predicate IsPendingUser(a: Account) {
    a.status == Pending && a.role != Verifier
  }

  /** `getPendingUsers`: pending accounts other than verifiers, in stored order. */
  function PendingUsers(accounts: seq<Account>): (r: seq<Account>)
    ensures IsSubsequence(r, accounts)
    ensures forall i :: 0 <= i < |r| ==> r[i].status == Pending && r[i].role != Verifier
    ensures forall i :: (0 <= i < |accounts| && accounts[i].status == Pending && accounts[i].role != Verifier
      ==> accounts[i] in r)
  {
    FilterIsSubsequence(accounts, IsPendingUser);
    Filter(accounts, IsPendingUser)
  }

  /** `getApprovedUsers`: every approved account, any role, in stored order. */
  function ApprovedUsers(accounts: seq<Account>): (r: seq<Account>)
    ensures IsSubsequence(r, accounts)
    ensures forall i :: 0 <= i < |r| ==> r[i].status == Approved
    ensures forall i :: 0 <= i < |accounts| && accounts[i].status == Approved ==> accounts[i] in r
  {
    FilterIsSubsequence(accounts, (a: Account) => a.status == Approved);
    Filter(accounts, (a: Account) => a.status == Approved)
  }

  /** Approving a pending user takes it off the pending list and puts it on the approved list. */
  lemma ApproveMovesBetweenLists(accounts: seq<Account>, k: nat, now: int)
    requires Distinct(AccountIds(accounts))
    requires k < |accounts| && accounts[k].status == Pending && accounts[k].role != Verifier
    ensures var after := VerifyUser(accounts, accounts[k].id, Some("approved"), now).1;
      && accounts[k] in PendingUsers(accounts)
      && (forall a :: a in PendingUsers(after) ==> a.id != accounts[k].id)
      && accounts[k].(status := Approved, updatedAt := now) in ApprovedUsers(after)
  {
    var id := accounts[k].id;
    FindAccountUnique(accounts, id, k);
    var after := VerifyUser(accounts, id, Some("approved"), now).1;
    assert after[k] == accounts[k].(status := Approved, updatedAt := now);
    forall a | a in PendingUsers(after)
      ensures a.id != id
    {
      var j :| 0 <= j < |after| && after[j] == a;
      if j != k {
        assert AccountIds(accounts)[j] != AccountIds(accounts)[k] || j == k;
        if j < k {
          assert AccountIds(accounts)[j] != AccountIds(accounts)[k];
        } else {
          assert AccountIds(accounts)[k] != AccountIds(accounts)[j];
        }
      }
    }
  }

  /** An account paired with the skill claims the join attached to it. */
  datatype WithSkills = WithSkills(account: Account, approvedSkills: seq<Skill>)

  /** The approved claims of one account, in stored order. */
  function ApprovedSkillsOf(skills: seq<Skill>, id: Id): (r: seq<Skill>)
    ensures IsSubsequence(r, skills)
    ensures forall i :: 0 <= i < |r| ==> r[i].employeeId == id && r[i].status == Approved
    ensures forall i :: (0 <= i < |skills| && skills[i].employeeId == id && skills[i].status == Approved
      ==> skills[i] in r)
  {
    FilterIsSubsequence(skills, (s: Skill) => s.employeeId == id && s.status == Approved);
    Filter(skills, (s: Skill) => s.employeeId == id && s.status == Approved)
  }

  /**
   * `getEmployeesWithApprovedSkills`: every approved employee, in stored
   * order, with exactly its approved skill claims.
   */
  function EmployeesWithApprovedSkills(db: Db): (r: seq<WithSkills>)
    ensures Map(r, (w: WithSkills) => w.account) == Filter(db.accounts, IsRegular)
    ensures forall i :: 0 <= i < |r| ==> IsRegular(r[i].account)
    ensures forall i, s :: 0 <= i < |r| && s in db.skills ==>
      (s in r[i].approvedSkills <==> s.employeeId == r[i].account.id && s.status == Approved)
    ensures forall i :: 0 <= i < |r| ==> r[i].approvedSkills == ApprovedSkillsOf(db.skills, r[i].account.id)
  {
    var r := Map(Filter(db.accounts, IsRegular), (a: Account) => WithSkills(a, ApprovedSkillsOf(db.skills, a.id)));
    assert Map(r, (w: WithSkills) => w.account) == Filter(db.accounts, IsRegular);
    r
  }

  /** `getEmployeeApprovedSkills`: 404 for an unknown id, otherwise the account and its approved claims. */
  function EmployeeApprovedSkills(db: Db, id: Id): (r: Result<WithSkills>)
    ensures r.Failure? <==> FindAccount(db.accounts, id).None?
    ensures r.Failure? ==> r.reply == Reply(404, "Employee not found")
    ensures r.Success? ==> r.value.account.id == id && r.value.account in db.accounts
    ensures r.Success? ==> forall s :: s in db.skills ==>
      (s in r.value.approvedSkills <==> s.employeeId == id && s.status == Approved)
    ensures r.Success? ==> r.value.approvedSkills == ApprovedSkillsOf(db.skills, id)
  {
    match FindAccount(db.accounts, id)
    case None => Failure(Reply(404, "Employee not found"))
    case Some(k) => Success(WithSkills(db.accounts[k], ApprovedSkillsOf(db.skills, id)))
  }

  /**
   * The two endpoints agree: with unique account ids, every entry of the
   * listing is what the single-employee lookup answers for its account.
   */
  lemma ListingAgreesWithLookup(db: Db, i: nat)
    requires Distinct(AccountIds(db.accounts))
    requires i < |EmployeesWithApprovedSkills(db)|
    ensures var w := EmployeesWithApprovedSkills(db)[i];
      EmployeeApprovedSkills(db, w.account.id) == Success(w)
  {
    var r := EmployeesWithApprovedSkills(db);
    var regular := Filter(db.accounts, IsRegular);
    assert r[i].account == Map(r, (w: WithSkills) => w.account)[i] == regular[i];
    var j :| 0 <= j < |db.accounts| && db.accounts[j] == regular[i];
    FindAccountUnique(db.accounts, r[i].account.id, j);
  }
}

=== FILE: auth.dfy ===
/**
 * Login and password reset (authController.js). Login is an ordered chain of
 * checks, each with its own outcome: missing fields, unknown email, wrong
 * password, rejected account, unapproved account, and only then a token.
 */
module Auth {
  import opened Js
  import opened Collections
  import opened Schema
  import opened Gate

  /** The `user` object of a successful login response. */
  datatype UserView = UserView(id: Id, role: Role, name: string, email: string)

  /** A refusal carries the account id only for the two 403 outcomes. */
  datatype LoginResult =
    | Refused(reply: Reply, userId: Option<Id>)
    | Granted(token: Token, user: UserView)

  const RejectedMessage: string := "You have been rejected. No further login access"
  const PendingMessage: string := "Your account is pending verification."

  /** Employee and hr accounts need a verifier's approval; verifier and admin accounts do not. */
  predicate NeedsApproval(r: Role) {
    r == Employee || r == HR
  }

  function View(a: Account): UserView {
    UserView(a.id, a.role, a.name, a.email)
  }

  /** The claims signed for an account: exactly `{id, role, name}`. */
  function ClaimsOf(a: Account): Payload {
    Payload(a.id, RoleName(a.role), a.name)
  }

  /** May this account receive a token once its password matched? */
  predicate MaySignIn(a: Account) {
    !NeedsApproval(a.role) || a.status == Approved
  }

  /** `loginUser` at time `now` (seconds). */
  function Login(accounts: seq<Account>, email: Option<string>, password: Option<string>, now: int): (r: LoginResult)
    ensures !Given(email) || !Given(password) ==> r == Refused(Reply(400, "Email and password are required"), None)
    ensures r.Granted? ==> Given(email) && Given(password)
    ensures r.Granted? ==> exists i :: (0 <= i < |accounts| && accounts[i].email == email.value
      && Matches(password.value, accounts[i].password) && MaySignIn(accounts[i]) && r.user == View(accounts[i]))
    ensures r.Granted? ==> r.token.payload == Payload(r.user.id, RoleName(r.user.role), r.user.name)
    ensures r.Granted? ==> r.token.issuedAt == now && r.token.expiresAt == now + 86400
    ensures r.Refused? ==> r.reply.code in {400, 401, 403, 404}
    ensures r.Refused? ==> (r.userId.Some? <==> r.reply.code == 403)
  {
    if !Given(email) || !Given(password) then Refused(Reply(400, "Email and password are required"), None)
    else
      match FindByEmail(accounts, email.value)
      case None => Refused(Reply(404, "User not found"), None)
      case Some(i) =>
        var a := accounts[i];
        if !Matches(password.value, a.password) then Refused(Reply(401, "Invalid credentials"), None)
        else if NeedsApproval(a.role) && a.status == Rejected then Refused(Reply(403, RejectedMessage), Some(a.id))
        else if NeedsApproval(a.role) && a.status != Approved then Refused(Reply(403, PendingMessage), Some(a.id))
        else Granted(Sign(ClaimsOf(a), now), View(a))
  }

  /** With unique emails, the account holding an email is the one `findOne` returns. */
  lemma FindByEmailUnique(accounts: seq<Account>, j: nat)
    requires Distinct(AccountEmails(accounts))
    requires j < |accounts|
    ensures FindByEmail(accounts, accounts[j].email) == Some(j)
  {
    var k := FindByEmail(accounts, accounts[j].email).value;
    var emails := AccountEmails(accounts);
    assert emails[k] == accounts[k].email;
  }

  /** An email no account holds is refused with 404 and nothing else is checked. */
  lemma LoginUnknownEmail(accounts: seq<Account>, email: string, password: string, now: int)
    requires email != "" && password != ""
    requires forall j :: 0 <= j < |accounts| ==> accounts[j].email != email
    ensures Login(accounts, Some(email), Some(password), now) == Refused(Reply(404, "User not found"), None)
  {
  }

  /**
   * The outcome for an existing account, case by case: the password is checked
   * before the status, a rejected and an unapproved employee or hr account get
   * distinct 403 messages with the account id, and a verifier or admin account
   * with the right password gets a token whatever its status.
   */
  lemma LoginChain(accounts: seq<Account>, j: nat, password: string, now: int)
    requires Distinct(AccountEmails(accounts))
    requires j < |accounts| && accounts[j].email != "" && password != ""
    ensures var a := accounts[j];
      var r := Login(accounts, Some(a.email), Some(password), now);
      && (!Matches(password, a.password) ==> r == Refused(Reply(401, "Invalid credentials"), None))
      && (Matches(password, a.password) && NeedsApproval(a.role) && a.status == Rejected
          ==> r == Refused(Reply(403, RejectedMessage), Some(a.id)))
      && (Matches(password, a.password) && NeedsApproval(a.role) && a.status == Pending
          ==> r == Refused(Reply(403, PendingMessage), Some(a.id)))
      && (Matches(password, a.password) && MaySignIn(a)
          ==> r == Granted(Sign(ClaimsOf(a), now), View(a)))
  {
    FindByEmailUnique(accounts, j);
  }

  /** Login succeeds exactly for a stored email, its password, and an account allowed in. */
  lemma LoginGrantedIff(accounts: seq<Account>, email: string, password: string, now: int)
    requires Distinct(AccountEmails(accounts))
    ensures Login(accounts, Some(email), Some(password), now).Granted? <==>
      email != "" && password != "" &&
      exists j :: 0 <= j < |accounts| && accounts[j].email == email
        && Matches(password, accounts[j].password) && MaySignIn(accounts[j])
  {
    if email != "" && password != "" {
      if j :| (0 <= j < |accounts| && accounts[j].email == email
          && Matches(password, accounts[j].password) && MaySignIn(accounts[j])) {
        LoginChain(accounts, j, password, now);
      }
    }
  }

  /** The stored password after `updateOne({email}, {$set: {password: hash}})` at time `now`. */
  function WithPassword(a: Account, plain: string, now: int): (b: Account)
    ensures Matches(plain, b.password)
    ensures b.(password := a.password, updatedAt := a.updatedAt) == a
  {
    a.(password := Hash(plain), updatedAt := now)
  }

  /**
   * `resetPassword` at time `now` (milliseconds): the first account with the
   * email gets the new password hashed. The 404 body spells its key
   * `messsage`, so the reply has no `message` text.
   */
  function ResetPassword(accounts: seq<Account>, email: Option<string>, newPassword: Option<string>, now: int)
    : (r: (Reply, seq<Account>))
    ensures !Given(email) || !Given(newPassword) ==> r == (Reply(400, "Email and new password are required"), accounts)
    ensures r.0.code == 200 <==> (Given(email) && Given(newPassword)
      && exists j :: 0 <= j < |accounts| && accounts[j].email == email.value)
    ensures Given(email) && Given(newPassword) && (forall j :: 0 <= j < |accounts| ==> accounts[j].email != email.value)
      ==> r == (Reply(404, ""), accounts)
    ensures r.0.code != 200 ==> r.1 == accounts
    ensures |r.1| == |accounts|
    ensures r.0.code == 200 ==> exists k :: (0 <= k < |accounts| && accounts[k].email == email.value
      && r.1 == accounts[k := WithPassword(accounts[k], newPassword.value, now)]
      && forall j :: 0 <= j < k ==> accounts[j].email != email.value)
  {
    if !Given(email) || !Given(newPassword) then (Reply(400, "Email and new password are required"), accounts)
    else
      match FindByEmail(accounts, email.value)
      case None => (Reply(404, ""), accounts)
      case Some(k) =>
        (Reply(200, "Password reset successfully"), accounts[k := WithPassword(accounts[k], newPassword.value, now)])
  }

  /** A reset keeps every id and email, so the uniqueness of both survives it. */
  lemma ResetKeepsKeys(accounts: seq<Account>, email: Option<string>, newPassword: Option<string>, now: int)
    ensures AccountIds(ResetPassword(accounts, email, newPassword, now).1) == AccountIds(accounts)
    ensures AccountEmails(ResetPassword(accounts, email, newPassword, now).1) == AccountEmails(accounts)
  {
  }

  /**
   * After a successful reset the new password logs in to an approved account,
   * and the old one, if different, is refused with 401.
   */
  lemma ResetThenLogin(accounts: seq<Account>, j: nat, previous: string, chosen: string, tMs: int, tS: int)
    requires Distinct(AccountEmails(accounts))
    requires j < |accounts| && accounts[j].email != "" && chosen != "" && previous != ""
    requires MaySignIn(accounts[j])
    ensures var after := ResetPassword(accounts, Some(accounts[j].email), Some(chosen), tMs).1;
      && Login(after, Some(accounts[j].email), Some(chosen), tS).Granted?
      && (previous != chosen ==> Login(after, Some(accounts[j].email), Some(previous), tS).reply.code == 401)
  {
    var email := accounts[j].email;
    FindByEmailUnique(accounts, j);
    var after := ResetPassword(accounts, Some(email), Some(chosen), tMs).1;
    assert after == accounts[j := WithPassword(accounts[j], chosen, tMs)];
    ResetKeepsKeys(accounts, Some(email), Some(chosen), tMs);
    LoginChain(after, j, chosen, tS);
    if previous != chosen {
      LoginChain(after, j, previous, tS);
    }
  }

  /** A role list admits the claims signed for a role exactly when it lists that role. */
  lemma ClaimsAuthorized(role: Role, id: Id, name: string, allowed: seq<Role>)
    ensures AuthorizeRoles(Some(Payload(id, RoleName(role), name)), allowed).Next? <==> role in allowed
  {
    if AuthorizeRoles(Some(Payload(id, RoleName(role), name)), allowed).Next? {
      var x :| x in allowed && RoleName(x) == RoleName(role);
      assert ParseRole(RoleName(x)) == Some(x);
      assert ParseRole(RoleName(role)) == Some(role);
    }
  }

  /** A signed token sent as `Bearer <text>` before it expires is admitted with its claims. */
  lemma SignedTokenAdmitted(t: Token, text: string, decode: string -> Option<Token>, now: int)
    requires text != "" && ' ' !in text
    requires decode(text) == Some(t) && now < t.expiresAt
    ensures Protect(Some("Bearer " + text), decode, now) == Admit(t.payload)
  {
    BearerTokenIgnoresScheme("Bearer", text);
  }

  /**
   * A token issued at login opens the gate for 24 hours: sent as
   * `Bearer <text>` before it expires, it is admitted with the account's
   * claims, and a role list then admits it exactly when it holds the account's role.
   */
  lemma IssuedTokenAdmitted(g: LoginResult, accounts: seq<Account>, email: Option<string>, password: Option<string>,
                            issued: int, text: string, decode: string -> Option<Token>, now: int, allowed: seq<Role>)
    requires g == Login(accounts, email, password, issued) && g.Granted?
    requires text != "" && ' ' !in text
    requires decode(text) == Some(g.token)
    requires now < issued + 86400
    ensures Protect(Some("Bearer " + text), decode, now) == Admit(Payload(g.user.id, RoleName(g.user.role), g.user.name))
    ensures AuthorizeRoles(Some(Payload(g.user.id, RoleName(g.user.role), g.user.name)), allowed).Next?
      <==> g.user.role in allowed
  {
    SignedTokenAdmitted(g.token, text, decode, now);
    ClaimsAuthorized(g.user.role, g.user.id, g.user.name, allowed);
  }
}

=== FILE: collections.dfy ===
/**
 * Sequence operations shared by the handlers and the client screens:
 * `Array.prototype.filter`, `find`/`findIndex`, and a comparison sort.
 */
module Collections {
  import opened Js

  /** `r` is obtained from `s` by deleting elements, keeping the order of the rest. */
  predicate IsSubsequence<T(==)>(r: seq<T>, s: seq<T>)
    decreases |s|
  {
    if r == [] then true
    else if s == [] then false
    else if r[0] == s[0] then IsSubsequence(r[1..], s[1..])
    else IsSubsequence(r, s[1..])
  }

  /** `Array.prototype.filter`: the elements of `s` satisfying `p`, in order. */
  function Filter<T>(s: seq<T>, p: T -> bool): (r: seq<T>)
    ensures |r| <= |s|
    ensures forall i :: 0 <= i < |r| ==> r[i] in s && p(r[i])
    ensures forall i :: 0 <= i < |s| && p(s[i]) ==> s[i] in r
    decreases |s|
  {
    if s == [] then []
    else if p(s[0]) then [s[0]] + Filter(s[1..], p)
    else Filter(s[1..], p)
  }

  lemma {:induction false} FilterIsSubsequence<T>(s: seq<T>, p: T -> bool)
    ensures IsSubsequence(Filter(s, p), s)
    decreases |s|
  {
    if s != [] {
      FilterIsSubsequence(s[1..], p);
      var rest := Filter(s[1..], p);
      if p(s[0]) {
        assert Filter(s, p) == [s[0]] + rest;
        assert ([s[0]] + rest)[1..] == rest;
      } else {
        SubsequenceDropHead(rest, s);
      }
    }
  }

  /** Every sequence is a subsequence of itself. */
  lemma {:induction false} IsSubsequenceRefl<T>(s: seq<T>)
    ensures IsSubsequence(s, s)
    decreases |s|
  {
    if s != [] {
      IsSubsequenceRefl(s[1..]);
    }
  }

  /** A subsequence of the tail is a subsequence of the whole. */
  lemma {:induction false} SubsequenceDropHead<T>(r: seq<T>, s: seq<T>)
    requires s != []
    requires IsSubsequence(r, s[1..])
    ensures IsSubsequence(r, s)
    decreases |s|, 0
  {
    if r != [] && r[0] == s[0] {
      SubsequenceTail(r, s[1..]);
    }
  }

  /** Removing the head of a subsequence leaves a subsequence. */
  lemma {:induction false} SubsequenceTail<T>(r: seq<T>, s: seq<T>)
    requires r != []
    requires IsSubsequence(r, s)
    ensures IsSubsequence(r[1..], s)
    decreases |s|, 1
  {
    if s == [] {
    } else if r[0] == s[0] {
      if r[1..] != [] {
        SubsequenceDropHead(r[1..], s);
      }
    } else {
      SubsequenceTail(r, s[1..]);
      SubsequenceDropHead(r[1..], s);
    }
  }

  /** Filtering distributes over concatenation: the kept elements keep their order. */
  lemma {:induction false} FilterConcat<T>(a: seq<T>, b: seq<T>, p: T -> bool)
    ensures Filter(a + b, p) == Filter(a, p) + Filter(b, p)
    decreases |a|
  {
    if a == [] {
      assert a + b == b;
    } else {
      assert (a + b)[1..] == a[1..] + b;
      FilterConcat(a[1..], b, p);
    }
  }

  /** A filter keeps everything exactly when every element passes. */
  lemma {:induction false} FilterKeepsAll<T>(s: seq<T>, p: T -> bool)
    requires forall i :: 0 <= i < |s| ==> p(s[i])
    ensures Filter(s, p) == s
    decreases |s|
  {
    if s != [] {
      FilterKeepsAll(s[1..], p);
    }
  }

  /** Filtering twice by the same predicate is filtering once. */
  lemma FilterIdempotent<T>(s: seq<T>, p: T -> bool)
    ensures Filter(Filter(s, p), p) == Filter(s, p)
  {
    FilterKeepsAll(Filter(s, p), p);
  }

  /** A stronger filter applied after a weaker one is the stronger filter alone. */
  lemma {:induction false} FilterNarrow<T>(s: seq<T>, p: T -> bool, q: T -> bool)
    requires forall x :: q(x) ==> p(x)
    ensures Filter(Filter(s, p), q) == Filter(s, q)
    decreases |s|
  {
    if s != [] {
      FilterNarrow(s[1..], p, q);
      if p(s[0]) {
        assert Filter(s, p) == [s[0]] + Filter(s[1..], p);
        assert ([s[0]] + Filter(s[1..], p))[1..] == Filter(s[1..], p);
      }
    }
  }

  /** A filter and its complement split the sequence: what one keeps the other drops. */
  lemma {:induction false} FilterComplementCount<T>(s: seq<T>, p: T -> bool, q: T -> bool)
    requires forall x :: q(x) <==> !p(x)
    ensures |Filter(s, p)| + |Filter(s, q)| == |s|
    decreases |s|
  {
    if s != [] {
      FilterComplementCount(s[1..], p, q);
    }
  }

  /** Position of the first element satisfying `p` (`findIndex`, `None` for -1). */
  function FindFirst<T>(s: seq<T>, p: T -> bool): (r: Option<nat>)
    ensures r.Some? ==> r.value < |s| && p(s[r.value])
    ensures r.Some? ==> forall j :: 0 <= j < r.value ==> !p(s[j])
    ensures r.None? <==> forall j :: 0 <= j < |s| ==> !p(s[j])
    decreases |s|
  {
    if s == [] then None
    else if p(s[0]) then Some(0)
    else
      match FindFirst(s[1..], p)
      case None => None
      case Some(k) => Some(k + 1)
  }

  /** A sequence whose elements are pairwise different (for example, record ids). */
  predicate Distinct<T(==)>(s: seq<T>) {
    forall i, j :: 0 <= i < j < |s| ==> s[i] != s[j]
  }

  /** Ordered by `le` between neighbours. */
  predicate SortedBy<T>(s: seq<T>, le: (T, T) -> bool) {
    forall i :: 0 < i < |s| ==> le(s[i - 1], s[i])
  }

  /** Any two values are comparable one way or the other. */
  ghost predicate Total<T(!new)>(le: (T, T) -> bool) {
    forall x, y :: le(x, y) || le(y, x)
  }

  ghost predicate Transitive<T(!new)>(le: (T, T) -> bool) {
    forall x, y, z :: le(x, y) && le(y, z) ==> le(x, z)
  }

  /** Inserts `x` in front of the first element it may precede. */
  function Insert<T(!new)>(x: T, s: seq<T>, le: (T, T) -> bool): (r: seq<T>)
    requires Total(le)
    requires SortedBy(s, le)
    ensures SortedBy(r, le)
    ensures multiset(r) == multiset(s) + multiset{x}
    ensures |r| == |s| + 1
    ensures r[0] == x || (s != [] && r[0] == s[0])
    decreases |s|
  {
    if s == [] || le(x, s[0]) then [x] + s
    else
      var rest := Insert(x, s[1..], le);
      assert s == [s[0]] + s[1..];
      [s[0]] + rest
  }

  /**
   * A comparison sort (insertion sort). Earlier elements are inserted after
   * equal later ones have been placed, so equal elements keep their order, as
   * `Array.prototype.sort` does.
   */
  function SortBy<T(!new)>(s: seq<T>, le: (T, T) -> bool): (r: seq<T>)
    requires Total(le)
    ensures SortedBy(r, le)
    ensures multiset(r) == multiset(s)
    ensures |r| == |s|
    decreases |s|
  {
    if s == [] then []
    else
      assert s == [s[0]] + s[1..];
      Insert(s[0], SortBy(s[1..], le), le)
  }

  /** With a transitive order, neighbour-wise order is order between any two positions. */
  lemma {:induction false} SortedPairwise<T(!new)>(s: seq<T>, le: (T, T) -> bool, i: int, j: int)
    requires Transitive(le)
    requires SortedBy(s, le)
    requires 0 <= i < j < |s|
    ensures le(s[i], s[j])
    decreases j - i
  {
    if j > i + 1 {
      SortedPairwise(s, le, i, j - 1);
    }
  }

  /** `Array.prototype.map`. */
  function Map<T, U>(s: seq<T>, f: T -> U): (r: seq<U>)
    ensures |r| == |s|
    ensures forall i :: 0 <= i < |s| ==> r[i] == f(s[i])
  {
    seq(|s|, i requires 0 <= i < |s| => f(s[i]))
  }

  /** Under an injective `f`, `f(x)` is among the images exactly when `x` is among the originals. */
  lemma MapMember<T, U>(s: seq<T>, f: T -> U, x: T)
    requires forall a, b :: f(a) == f(b) ==> a == b
    ensures f(x) in Map(s, f) <==> x in s
  {
    if f(x) in Map(s, f) {
      var i :| 0 <= i < |s| && Map(s, f)[i] == f(x);
      assert f(s[i]) == f(x);
    }
    if x in s {
      var i :| 0 <= i < |s| && s[i] == x;
      assert Map(s, f)[i] == f(x);
    }
  }
}

=== FILE: forgot.dfy ===
/**
 * The password-reset card (ForgotPassword.jsx). The email comes from the
 * caller and is read-only; the new password and its confirmation are
 * validated on each change, and the Reset button is enabled by a flag that
 * the last validation left behind.
 */
module ForgotPassword {
  import opened Js
  import opened Text
  import opened PasswordPolicy

  datatype ResetField = NewPassword | Confirm

  /** One change event on one of the two password inputs. */
  datatype Edit = Edit(field: ResetField, text: string)

  /** The card's state: inputs, shown errors and the three validity flags. */
  datatype Card = Card(email: Option<string>, newPassword: string, confirmPassword: string,
                       newPasswordErrors: seq<string>, confirmError: string,
                       newPasswordValid: bool, confirmValid: bool, buttonActive: bool)

  /** The card as it opens for the given email prop. */
  function Open(email: Option<string>): Card {
    Card(email, "", "", [], "", false, false, false)
  }

  /** The confirmation's message against the new password it is compared with. */
  function ConfirmMessage(v: string, newPassword: string): (r: string)
    ensures r == "" <==> v != "" && v == newPassword
  {
    if v == "" then "Field required"
    else if v != newPassword then "Passwords do not match"
    else ""
  }

  /**
   * `validateField` after `handleChange`, as written: only the changed field
   * is re-validated, then the button flag is recomputed from both flags.
   */
  function Change(c: Card, e: Edit): (d: Card)
    ensures d.buttonActive == (d.newPasswordValid && d.confirmValid)
    ensures d.email == c.email
    ensures e.field == NewPassword ==> ((d.newPasswordValid <==> Strong(e.text))
      && d.newPasswordErrors == PasswordErrors(e.text))
    ensures e.field == Confirm ==> (d.confirmValid <==> e.text != "" && e.text == c.newPassword)
    ensures e.field == NewPassword ==> d.confirmPassword == c.confirmPassword && d.confirmValid == c.confirmValid
  {
    match e.field
    case NewPassword =>
      var errors := PasswordErrors(e.text);
      var valid := errors == [];
      c.(newPassword := e.text, newPasswordErrors := errors, newPasswordValid := valid,
         buttonActive := valid && c.confirmValid)
    case Confirm =>
      var message := ConfirmMessage(e.text, c.newPassword);
      var valid := message == "";
      c.(confirmPassword := e.text, confirmError := message, confirmValid := valid,
         buttonActive := c.newPasswordValid && valid)
  }

  function Apply(c: Card, edits: seq<Edit>): Card
    decreases |edits|
  {
    if edits == [] then c else Apply(Change(c, edits[0]), edits[1..])
  }

  /** A reset request: the email prop and the new password, as `resetPassword` sends them. */
  datatype ResetRequest = ResetRequest(email: Option<string>, newPassword: string)

  /** `handleReset`: nothing is sent while the button flag is off. */
  function HandleReset(c: Card): (r: Option<ResetRequest>)
    ensures r.Some? <==> c.buttonActive
    ensures r.Some? ==> r.value.email == c.email && r.value.newPassword == c.newPassword
  {
    if !c.buttonActive then None else Some(ResetRequest(c.email, c.newPassword))
  }

  /** The new-password flag and messages describe the current new password, or it is untouched. */
  predicate NewPasswordTracked(c: Card) {
    && c.buttonActive == (c.newPasswordValid && c.confirmValid)
    && ((c.newPasswordValid == Strong(c.newPassword) && c.newPasswordErrors == PasswordErrors(c.newPassword))
        || (c.newPassword == "" && !c.newPasswordValid && c.newPasswordErrors == []))
    && (c.confirmValid ==> c.confirmPassword != "")
  }

  lemma {:induction false} ApplyTracksNewPassword(c: Card, edits: seq<Edit>)
    requires NewPasswordTracked(c)
    ensures NewPasswordTracked(Apply(c, edits))
    ensures Apply(c, edits).email == c.email
    decreases |edits|
  {
    if edits != [] {
      ApplyTracksNewPassword(Change(c, edits[0]), edits[1..]);
    }
  }

  /**
   * Whatever was typed, a request leaves only with a strong new password and
   * a filled-in confirmation, and carries the email the card was opened for.
   */
  lemma SentPasswordStrong(email: Option<string>, edits: seq<Edit>)
    ensures var r := HandleReset(Apply(Open(email), edits));
      r.Some? ==> (Strong(r.value.newPassword) && r.value.email == email
        && Apply(Open(email), edits).confirmPassword != "")
  {
    ApplyTracksNewPassword(Open(email), edits);
  }

  /**
   * The confirmation is not re-checked when the new password changes: with
   * the button on, typing another strong password keeps it on, and the
   * request carries a password that was never confirmed.
   */
  lemma StaleConfirmation(c: Card, other: string)
    requires NewPasswordTracked(c) && c.buttonActive && c.confirmPassword == c.newPassword
    requires Strong(other) && other != c.newPassword
    ensures var d := Change(c, Edit(NewPassword, other));
      && HandleReset(d) == Some(ResetRequest(c.email, other))
      && d.confirmPassword != other
  {
  }

  /**
   * A run: `first` typed and confirmed, then the new password changed to
   * `second` (for instance "Secret1!" then "Secret2!", see `StrongExamples`).
   */
  lemma StaleConfirmationRun(email: Option<string>, first: string, second: string)
    requires Strong(first) && Strong(second) && first != second
    ensures var edits := [Edit(NewPassword, first), Edit(Confirm, first), Edit(NewPassword, second)];
      && HandleReset(Apply(Open(email), edits)) == Some(ResetRequest(email, second))
      && Apply(Open(email), edits).confirmPassword == first
  {
    var edits := [Edit(NewPassword, first), Edit(Confirm, first), Edit(NewPassword, second)];
    var c1 := Change(Open(email), edits[0]);
    var c2 := Change(c1, edits[1]);
    var c3 := Change(c2, edits[2]);
    assert c3.buttonActive && c3.newPassword == second;
    assert Apply(c3, []) == c3;
    assert Apply(c2, edits[2..]) == c3 by {
      assert edits[2..] == [edits[2]];
    }
    assert Apply(c1, edits[1..]) == Apply(c2, edits[2..]) by {
      assert edits[1..][0] == edits[1] && edits[1..][1..] == edits[2..];
    }
  }

  /** `validateField` with the confirmation re-checked whenever the new password changes. */
  function ChangeChecked(c: Card, e: Edit): (d: Card)
    ensures e.field == Confirm ==> d == Change(c, e)
    ensures d.buttonActive == (d.newPasswordValid && d.confirmValid)
    ensures e.field == NewPassword && c.confirmPassword != "" ==> (d.confirmValid <==> c.confirmPassword == e.text)
  {
    var d := Change(c, e);
    if e.field == NewPassword && c.confirmPassword != "" then
      var message := ConfirmMessage(c.confirmPassword, e.text);
      d.(confirmError := message, confirmValid := message == "",
         buttonActive := d.newPasswordValid && message == "")
    else d
  }

  function ApplyChecked(c: Card, edits: seq<Edit>): Card
    decreases |edits|
  {
    if edits == [] then c else ApplyChecked(ChangeChecked(c, edits[0]), edits[1..])
  }

  /** With re-checking, the confirmation flag is on exactly when the two inputs agree. */
  predicate ConfirmTracked(c: Card) {
    c.confirmValid <==> c.confirmPassword != "" && c.confirmPassword == c.newPassword
  }

  lemma {:induction false} ApplyCheckedTracks(c: Card, edits: seq<Edit>)
    requires NewPasswordTracked(c) && ConfirmTracked(c)
    ensures NewPasswordTracked(ApplyChecked(c, edits)) && ConfirmTracked(ApplyChecked(c, edits))
    ensures ApplyChecked(c, edits).email == c.email
    decreases |edits|
  {
    if edits != [] {
      ApplyCheckedTracks(ChangeChecked(c, edits[0]), edits[1..]);
    }
  }

  /** With re-checking, a request leaves only with a strong password equal to its confirmation. */
  lemma CheckedSendsConfirmed(email: Option<string>, edits: seq<Edit>)
    ensures var c := ApplyChecked(Open(email), edits);
      HandleReset(c).Some? <==> Strong(c.newPassword) && c.confirmPassword == c.newPassword
  {
    ApplyCheckedTracks(Open(email), edits);
  }
}

=== FILE: gate.dfy ===
/**
 * The server's access gate: `protect` reads a bearer token from the
 * Authorization header and verifies it; `authorizeRoles` admits a fixed set
 * of roles. JSON Web Token signing and signature checking (RFC 7519) are
 * uninterpreted: a token is the symbolic value the server signed, and
 * `decode` is whatever recovers such a value from its text form when the
 * signature checks out. Only the expiry rule of `jwt.verify` is modelled.
 */
module Gate {
  import opened Js
  import opened Text
  import opened Schema

  /** The claims the server signs: `{id, role, name}`. */
  datatype Payload = Payload(id: Id, role: string, name: string)

  /** A signed token: its claims, `iat` and `exp` in seconds. */
  datatype Token = Token(payload: Payload, issuedAt: int, expiresAt: int)

  /** `expiresIn: '24h'`, in seconds. */
  const TokenLifetime: int := 24 * 60 * 60

  /** `jwt.sign(payload, secret, {expiresIn: '24h'})` at time `now` (seconds). */
  function Sign(p: Payload, now: int): (t: Token)
    ensures t.payload == p && t.issuedAt == now
    ensures t.expiresAt - t.issuedAt == 86400
  {
    Token(p, now, now + TokenLifetime)
  }

  /**
   * `jwt.verify(text, secret)` at time `now` (seconds): the signature must check
   * out and the token must not have expired (`now >= exp` is an expiry error).
   */
  function VerifyToken(text: string, decode: string -> Option<Token>, now: int): (r: Option<Payload>)
    ensures r.Some? <==> decode(text).Some? && now < decode(text).value.expiresAt
    ensures r.Some? ==> r.value == decode(text).value.payload
  {
    match decode(text)
    case None => None
    case Some(t) => if now < t.expiresAt then Some(t.payload) else None
  }

  /**
   * `req.headers.authorization?.split(' ')[1]`, with `None` for every falsy
   * result (no header, no second piece, an empty second piece).
   */
  function BearerToken(header: Option<string>): (t: Option<string>)
    ensures t.Some? ==> t.value != "" && ' ' !in t.value
    ensures header.None? ==> t.None?
    ensures header.Some? && ' ' !in header.value ==> t.None?
  {
    match header
    case None => None
    case Some(h) =>
      var pieces := Split(h, ' ');
      if |pieces| < 2 || pieces[1] == "" then None else Some(pieces[1])
  }

  /**
   * The token is the second space-separated piece whatever the first piece
   * says: the scheme word of section 2.1 of RFC 6750 ("Bearer") is never checked.
   */
  lemma BearerTokenIgnoresScheme(scheme: string, token: string)
    requires ' ' !in scheme && ' ' !in token && token != ""
    ensures BearerToken(Some(scheme + " " + token)) == Some(token)
  {
    SplitFirst(scheme, ' ', token);
    assert scheme + " " + token == scheme + [' '] + token;
  }

  /** Anything after a third space-separated piece is ignored as well. */
  lemma BearerTokenIgnoresTail(scheme: string, token: string, rest: string)
    requires ' ' !in scheme && ' ' !in token && token != ""
    ensures BearerToken(Some(scheme + " " + token + " " + rest)) == Some(token)
  {
    var h := scheme + " " + token + " " + rest;
    assert h == scheme + [' '] + (token + [' '] + rest);
    SplitFirst(scheme, ' ', token + [' '] + rest);
    SplitFirst(token, ' ', rest);
  }

  datatype Admission = Deny(reply: Reply) | Admit(user: Payload)

  /** The `protect` middleware: the decoded claims become `req.user`. */
  function Protect(header: Option<string>, decode: string -> Option<Token>, now: int): (r: Admission)
    ensures BearerToken(header).None? ==> r == Deny(Reply(401, "Access Denied: No Token Provided"))
    ensures (BearerToken(header).Some? && VerifyToken(BearerToken(header).value, decode, now).None?)
      ==> r == Deny(Reply(401, "Invalid Token"))
    ensures r.Admit? <==> exists t :: BearerToken(header) == Some(t) && VerifyToken(t, decode, now).Some?
    ensures r.Admit? ==> Some(r.user) == VerifyToken(BearerToken(header).value, decode, now)
    ensures r.Deny? ==> r.reply.code == 401
  {
    match BearerToken(header)
    case None => Deny(Reply(401, "Access Denied: No Token Provided"))
    case Some(t) =>
      match VerifyToken(t, decode, now)
      case None => Deny(Reply(401, "Invalid Token"))
      case Some(p) => Admit(p)
  }

  /** A middleware's decision: pass to `next()` or answer. */
  datatype Verdict = Next | Stop(reply: Reply)

  /** `authorizeRoles(...allowed)` on `req.user` (`None` when no user is attached). */
  function AuthorizeRoles(user: Option<Payload>, allowed: seq<Role>): (r: Verdict)
    ensures r.Next? <==> user.Some? && exists x :: x in allowed && RoleName(x) == user.value.role
    ensures user.None? ==> r == Stop(Reply(401, "User not authenticated"))
    ensures r.Stop? && user.Some? ==>
      r.reply == Reply(403, "Access Denied: Role '" + user.value.role + "' is not authorized")
  {
    match user
    case None => Stop(Reply(401, "User not authenticated"))
    case Some(u) =>
      if exists x :: x in allowed && RoleName(x) == u.role then Next
      else Stop(Reply(403, "Access Denied: Role '" + u.role + "' is not authorized"))
  }

  /** A claim whose role text names no role is refused by every role list. */
  lemma UnknownRoleRefused(user: Payload, allowed: seq<Role>)
    requires ParseRole(user.role).None?
    ensures AuthorizeRoles(Some(user), allowed).Stop?
    ensures AuthorizeRoles(Some(user), allowed).reply.code == 403
  {
  }

  /** Widening the role list never turns an admitted user away. */
  lemma AuthorizeMonotone(user: Option<Payload>, allowed: seq<Role>, more: seq<Role>)
    requires forall x :: x in allowed ==> x in more
    ensures AuthorizeRoles(user, allowed).Next? ==> AuthorizeRoles(user, more).Next?
  {
  }
}

=== FILE: guard.dfy ===
/**
 * The client-side route guard (ProtectedRoutes.jsx) and the page routes it
 * wraps (AppRoutes.jsx). The guard reads the token's expiry without checking
 * its signature, then compares the stored user's role with the role the page
 * asks for. Browser storage and the clock are parameters; `readExp` stands
 * for `JSON.parse(atob(token.split('.')[1])).exp`, `None` when that throws or
 * yields no number.
 */
module ClientGuard {
  import opened Js
  import opened Gate
  import Text
  import Routes

  /** The current second is before `exp` exactly when the current millisecond is. */
  lemma FloorSecondBefore(nowMs: int, exp: int)
    ensures nowMs / 1000 < exp <==> nowMs < exp * 1000
  {
    var s := nowMs / 1000;
    assert s * 1000 <= nowMs < s * 1000 + 1000;
    if s < exp {
      assert (s + 1) * 1000 <= exp * 1000;
    } else {
      assert exp * 1000 <= s * 1000;
    }
  }

  /** `isTokenValid`: a stored token whose `exp` is after `Math.floor(Date.now() / 1000)`. */
  function IsTokenValid(token: Option<string>, readExp: string -> Option<int>, nowMs: int): (r: bool)
    ensures r <==> Given(token) && readExp(token.value).Some? && nowMs < readExp(token.value).value * 1000
  {
    if !Given(token) then false
    else match readExp(token.value)
      case None => false
      case Some(exp) =>
        FloorSecondBefore(nowMs, exp);
        exp > nowMs / 1000
  }

  /**
   * For a token the server signed, the guard and `jwt.verify` agree on
   * expiry: the guard at millisecond `nowMs` admits it exactly when the
   * server does at second `nowMs / 1000`.
   */
  lemma GuardAgreesWithServer(text: string, decode: string -> Option<Token>, readExp: string -> Option<int>,
                              nowMs: int)
    requires text != "" && decode(text).Some? && readExp(text) == Some(decode(text).value.expiresAt)
    ensures IsTokenValid(Some(text), readExp, nowMs) <==> VerifyToken(text, decode, nowMs / 1000).Some?
  {
    FloorSecondBefore(nowMs, decode(text).value.expiresAt);
  }

  /**
   * The guard never checks the signature: a token whose payload merely
   * carries a future `exp` lets the page render, though every API call
   * made with it is refused.
   */
  lemma UnsignedTokenPassesGuard(text: string, decode: string -> Option<Token>, readExp: string -> Option<int>,
                                 nowMs: int, exp: int)
    requires text != "" && decode(text).None? && readExp(text) == Some(exp) && nowMs < exp * 1000
    ensures IsTokenValid(Some(text), readExp, nowMs)
    ensures VerifyToken(text, decode, nowMs / 1000).None?
  {
  }

  /** The user the client reads back from storage or the token: its role and id. */
  datatype ClientUser = ClientUser(role: string, id: string)

  /** Paths as their segments: "/hr/dashboard/42" is ["hr", "dashboard", "42"]. */
  type Path = seq<string>

  datatype Navigation = Render | Redirect(to: Path, clearStorage: bool)

  function LoginPath(): Path { ["login"] }

  /** `roleRoutes[user.role]` in the guard, as written: a dashboard path without an id. */
  function RoleHome(role: string): (r: Option<Path>)
    ensures r.Some? <==> role in {"employee", "hr", "verifier", "admin"}
    ensures r.Some? ==> r.value == [role, "dashboard"]
  {
    if role == "employee" then Some(["employee", "dashboard"])
    else if role == "hr" then Some(["hr", "dashboard"])
    else if role == "verifier" then Some(["verifier", "dashboard"])
    else if role == "admin" then Some(["admin", "dashboard"])
    else None
  }

  /**
   * `ProtectedRoute` for a page that asks for role `required` ("" when it
   * asks for none): a bad token or a user without a role clears storage and
   * goes to the login page; a role mismatch goes to the user's dashboard.
   */
  function Decide(token: Option<string>, readExp: string -> Option<int>, nowMs: int,
                  user: Option<ClientUser>, required: string): (r: Navigation)
    ensures r == Render <==> (IsTokenValid(token, readExp, nowMs) && user.Some? && user.value.role != ""
      && (required == "" || user.value.role == required))
    ensures r.Redirect? && r.clearStorage <==> (!IsTokenValid(token, readExp, nowMs) || user.None?
      || user.value.role == "")
    ensures r.Redirect? && r.clearStorage ==> r.to == LoginPath()
    ensures r.Redirect? && !r.clearStorage ==> r.to == RoleHome(user.value.role).GetOr(LoginPath())
  {
    if !IsTokenValid(token, readExp, nowMs) then Redirect(LoginPath(), true)
    else if user.None? || user.value.role == "" then Redirect(LoginPath(), true)
    else if required != "" && user.value.role != required then
      Redirect(RoleHome(user.value.role).GetOr(LoginPath()), false)
    else Render
  }

  /** A page route of the client: its path pattern and the role its guard asks for ("" for none). */
  datatype PageRoute = PageRoute(pattern: seq<Routes.Segment>, required: string)

  function Dashboard(role: string): PageRoute {
    PageRoute([Routes.Lit(role), Routes.Lit("dashboard"), Routes.Param("id")], role)
  }

  /** The routes of `AppRoutes`, in order; the trailing `<Route/>` has no path and matches nothing. */
  function PageRoutes(): seq<PageRoute> {
    [PageRoute([], ""), PageRoute([Routes.Lit("login")], ""), PageRoute([Routes.Lit("register")], ""),
     Dashboard("employee"), Dashboard("verifier"), Dashboard("hr"), Dashboard("admin")]
  }

  predicate Routed(path: Path) {
    exists i :: 0 <= i < |PageRoutes()| && Routes.PathMatches(PageRoutes()[i].pattern, path)
  }

  /**
   * The guard's role redirect leads nowhere: every dashboard route needs an
   * id segment, so no page route matches a two-segment dashboard path.
   */
  lemma RoleRedirectUnrouted(role: string)
    requires RoleHome(role).Some?
    ensures !Routed(RoleHome(role).value)
  {
    var path := RoleHome(role).value;
    forall i | 0 <= i < |PageRoutes()|
      ensures !Routes.PathMatches(PageRoutes()[i].pattern, path)
    {
      if i == 1 || i == 2 {
        assert !Routes.SegmentMatches(PageRoutes()[i].pattern[0], path[0]) || |path| != 1;
      }
    }
  }

  /** The dashboard path the login form navigates to: `/${role}/dashboard/${id}`. */
  function RoleHomeOf(user: ClientUser): (r: Option<Path>)
    ensures r.Some? <==> RoleHome(user.role).Some?
    ensures r.Some? ==> r.value == RoleHome(user.role).value + [user.id]
  {
    match RoleHome(user.role)
    case None => None
    case Some(home) => Some(home + [user.id])
  }

  /** `ProtectedRoute` with the role redirect going to the user's own dashboard. */
  function DecideWithId(token: Option<string>, readExp: string -> Option<int>, nowMs: int,
                        user: Option<ClientUser>, required: string): (r: Navigation)
    ensures r.Redirect? && !r.clearStorage ==> user.Some?
    ensures r.Redirect? && !r.clearStorage ==> r.to == RoleHomeOf(user.value).GetOr(LoginPath())
    ensures r == Render <==> Decide(token, readExp, nowMs, user, required) == Render
    ensures r.Redirect? && r.clearStorage <==> (Decide(token, readExp, nowMs, user, required).Redirect?
      && Decide(token, readExp, nowMs, user, required).clearStorage)
  {
    var d := Decide(token, readExp, nowMs, user, required);
    if d.Redirect? && !d.clearStorage then Redirect(RoleHomeOf(user.value).GetOr(LoginPath()), false)
    else d
  }

  lemma DashboardLower()
    ensures Text.Lower("dashboard") == "dashboard"
  {
    Text.LowerNoCapitals("dashboard");
  }

  /** Two lower-case literals followed by a parameter match those literals and any id. */
  lemma LitLitParamMatches(a: string, b: string, name: string, id: string)
    requires Text.Lower(a) == a && Text.Lower(b) == b && id != ""
    ensures Routes.PathMatches([Routes.Lit(a), Routes.Lit(b), Routes.Param(name)], [a, b, id])
  {
    var pattern: seq<Routes.Segment>, path := [Routes.Lit(a), Routes.Lit(b), Routes.Param(name)], [a, b, id];
    assert Routes.SegmentMatches(pattern[0], path[0]);
    assert Routes.SegmentMatches(pattern[1], path[1]);
    assert Routes.SegmentMatches(pattern[2], path[2]);
  }

  /** A lower-case role's dashboard route matches that role's dashboard path for any id. */
  lemma DashboardRouted(role: string, id: string)
    requires id != "" && forall i :: 0 <= i < |role| ==> 'a' <= role[i] <= 'z'
    ensures Routes.PathMatches(Dashboard(role).pattern, [role, "dashboard", id])
  {
    Text.LowerNoCapitals(role);
    DashboardLower();
    LitLitParamMatches(role, "dashboard", "id", id);
  }

  /**
   * With the id in the path, a role redirect goes to the login page when
   * the role has no dashboard, and otherwise lands on a page route whose
   * guard asks for the user's own role, so the guard renders there with the
   * same token and user: no second redirect.
   */
  lemma RedirectWithIdLands(token: Option<string>, readExp: string -> Option<int>, nowMs: int,
                            user: ClientUser, required: string)
    requires user.id != ""
    ensures var d := DecideWithId(token, readExp, nowMs, Some(user), required);
      d.Redirect? && !d.clearStorage ==> (
        || (RoleHome(user.role).None? && d.to == LoginPath())
        || exists k :: (0 <= k < |PageRoutes()| && PageRoutes()[k].required == user.role
             && Routes.PathMatches(PageRoutes()[k].pattern, d.to)
             && Decide(token, readExp, nowMs, Some(user), PageRoutes()[k].required) == Render))
  {
    var d := DecideWithId(token, readExp, nowMs, Some(user), required);
    if d.Redirect? && !d.clearStorage && RoleHome(user.role).Some? {
      var role := user.role;
      var k := if role == "employee" then 3 else if role == "verifier" then 4 else if role == "hr" then 5 else 6;
      assert PageRoutes()[k] == Dashboard(role);
      DashboardRouted(role, user.id);
      assert d.to == [role, "dashboard", user.id];
    }
  }
}

=== FILE: js.dfy ===
/**
 * JavaScript values as the handlers see them: a request field may be absent,
 * a string may be empty (and so "falsy"), and `Number(...)` / `new Date(...)`
 * may produce NaN. The conversions themselves are not re-implemented: a field
 * carries the result the JavaScript runtime would compute.
 */
module Js {

  datatype Option<+T> = None | Some(value: T) {
    function GetOr(default: T): T {
      match this
      case Some(v) => v
      case None => default
    }
  }

  /** The truthiness of an optional string (`!x` is false): present and non-empty. */
  predicate Given(o: Option<string>) {
    o.Some? && o.value != ""
  }

  /** The result of JavaScript's `Number(x)` / `parseInt(x)`: NaN or an integer. */
  datatype NumberValue = NaN | Num(value: int)

  /** `Number(x) || 0`: NaN and 0 are both falsy and give 0. */
  function OrZero(n: NumberValue): (r: int)
    ensures n.Num? ==> r == n.value
    ensures n.NaN? ==> r == 0
  {
    match n
    case NaN => 0
    case Num(v) => v
  }

  /** `parseInt(x) || d` for a non-zero default `d`: NaN and 0 fall back to `d`. */
  function OrDefault(n: NumberValue, d: int): (r: int)
    requires d != 0
    ensures r != 0
    ensures n.Num? && n.value != 0 ==> r == n.value
    ensures n.NaN? || n.value == 0 ==> r == d
  {
    if n.Num? && n.value != 0 then n.value else d
  }

  /**
   * A date-valued form or request field: the text the client sent and the
   * time `new Date(text)` denotes, `None` when that is an Invalid Date.
   */
  datatype DateInput = DateInput(text: string, time: Option<int>)

  function Max(a: int, b: int): (r: int)
    ensures r >= a && r >= b
    ensures r == a || r == b
  {
    if a >= b then a else b
  }
}

=== FILE: password.dfy ===
/**
 * The password strength rules the sign-up form (RegisterForm.jsx) and the
 * reset form (ForgotPassword.jsx) both apply, with the same six messages in
 * the same order. The regular expressions are ASCII classes: `[A-Z]`,
 * `[a-z]`, `\d` and `[@$!%*?&]`.
 */
module PasswordPolicy {
  import opened Collections
  import opened Text

  /** The checks, in the order the forms run them. */
  datatype Check = Present | Length | Upper | Lowercase | Digit | Special

  function Checks(): seq<Check> {
    [Present, Length, Upper, Lowercase, Digit, Special]
  }

  /** Every check is in the list. */
  lemma Listed(c: Check)
    ensures c in Checks()
  {
    var i := match c
      case Present => 0 case Length => 1 case Upper => 2
      case Lowercase => 3 case Digit => 4 case Special => 5;
    assert Checks()[i] == c;
  }

  function Message(c: Check): string {
    match c
    case Present => "Field required"
    case Length => "Password must be at least 8 characters"
    case Upper => "Password must contain at least one uppercase letter"
    case Lowercase => "Password must contain at least one lowercase letter"
    case Digit => "Password must contain at least one digit"
    case Special => "Password should contain at least one special character"
  }

  predicate IsUpper(c: char) { 'A' <= c <= 'Z' }
  predicate IsLowerLetter(c: char) { 'a' <= c <= 'z' }
  predicate IsSpecial(c: char) {
    c == '@' || c == '$' || c == '!' || c == '%' || c == '*' || c == '?' || c == '&'
  }

  predicate HasUpper(p: string) { exists i :: 0 <= i < |p| && IsUpper(p[i]) }
  predicate HasLower(p: string) { exists i :: 0 <= i < |p| && IsLowerLetter(p[i]) }
  predicate HasDigit(p: string) { exists i :: 0 <= i < |p| && IsDigit(p[i]) }
  predicate HasSpecial(p: string) { exists i :: 0 <= i < |p| && IsSpecial(p[i]) }

  /** Does `p` pass check `c`? */
  predicate Passes(p: string, c: Check) {
    match c
    case Present => p != ""
    case Length => Utf16Length(p) >= 8
    case Upper => HasUpper(p)
    case Lowercase => HasLower(p)
    case Digit => HasDigit(p)
    case Special => HasSpecial(p)
  }

  /**
   * At least eight UTF-16 code units (`value.length`), with a capital, a small
   * letter, a digit and one of `@$!%*?&`.
   */
  predicate Strong(p: string) {
    Utf16Length(p) >= 8 && HasUpper(p) && HasLower(p) && HasDigit(p) && HasSpecial(p)
  }

  /** The checks among `cs` that `p` fails, in the order of `cs`. */
  function Failed(p: string, cs: seq<Check>): (r: seq<Check>)
    ensures IsSubsequence(r, cs) && |r| <= |cs|
    ensures forall c :: c in r <==> c in cs && !Passes(p, c)
    decreases |cs|
  {
    if cs == [] then []
    else
      var rest := Failed(p, cs[1..]);
      assert forall c :: c in cs <==> c == cs[0] || c in cs[1..];
      if Passes(p, cs[0]) then
        SubsequenceDropHead(rest, cs);
        rest
      else
        assert ([cs[0]] + rest)[1..] == rest;
        [cs[0]] + rest
  }

  /** The list of messages a password gets, one per failed check, in check order. */
  function PasswordErrors(p: string): (r: seq<string>)
    ensures r == [] <==> Strong(p)
    ensures |r| <= 6
    ensures forall c :: Message(c) in r <==> !Passes(p, c)
  {
    var failed := Failed(p, Checks());
    MessagesDistinct();
    var r := Map(failed, Message);
    forall c
      ensures Message(c) in r <==> !Passes(p, c)
    {
      Listed(c);
      MapMember(failed, Message, c);
    }
    NoneFailedIffStrong(p);
    r
  }

  /** No check fails exactly for a strong password. */
  lemma NoneFailedIffStrong(p: string)
    ensures Failed(p, Checks()) == [] <==> Strong(p)
  {
    var failed := Failed(p, Checks());
    if !Strong(p) {
      var c: Check :| !Passes(p, c);
      Listed(c);
      assert c in failed;
    }
  }

  /** The six messages differ, so a message names its check. */
  lemma MessagesDistinct()
    ensures forall c, d :: Message(c) == Message(d) ==> c == d
  {
  }

  /** An empty password fails all six checks. */
  lemma EmptyPasswordFailsAll()
    ensures PasswordErrors("") == Map(Checks(), Message)
  {
    EmptyFailsEveryCheck();
  }

  /** When every check in `cs` fails, all of `cs` is reported. */
  lemma {:induction false} AllFailed(p: string, cs: seq<Check>)
    requires forall c :: c in cs ==> !Passes(p, c)
    ensures Failed(p, cs) == cs
    decreases |cs|
  {
    if cs != [] {
      AllFailed(p, cs[1..]);
    }
  }

  lemma EmptyFailsEveryCheck()
    ensures Failed("", Checks()) == Checks()
  {
    AllFailed("", Checks());
  }

  /** A strong password is non-empty, so the "Field required" message never appears alone. */
  lemma RequiredNeverAlone(p: string)
    ensures Message(Present) in PasswordErrors(p) ==> Message(Length) in PasswordErrors(p)
  {
  }

  /**
   * The length check counts code units, not characters: six characters, two
   * of them beyond U+FFFF, make a strong password.
   */
  lemma SurrogatePairsCountTwice()
    ensures var p := "Aa1!\U{1F600}\U{1F600}";
      |p| == 6 && Utf16Length(p) == 8 && Strong(p) && PasswordErrors(p) == []
  {
    var p := "Aa1!\U{1F600}\U{1F600}";
    assert IsUpper(p[0]) && IsLowerLetter(p[1]) && IsDigit(p[2]) && IsSpecial(p[3]);
  }

  /** Two passwords that pass every check. */
  lemma StrongExamples()
    ensures Strong("Secret1!") && Strong("Secret2!")
  {
    assert IsUpper("Secret1!"[0]) && IsLowerLetter("Secret1!"[1]) && IsDigit("Secret1!"[6]);
    assert IsSpecial("Secret1!"[7]);
    assert IsUpper("Secret2!"[0]) && IsLowerLetter("Secret2!"[1]) && IsDigit("Secret2!"[6]);
    assert IsSpecial("Secret2!"[7]);
  }
}

=== FILE: projects.dfy ===
/**
 * Project handlers (projectController.js): creation with field and date
 * validation, wholesale replacement of the assignment list after an
 * all-or-nothing existence check, removal of one employee's assignments,
 * and the lookups by id and by employee.
 */
module Projects {
  import opened Js
  import opened Collections
  import opened Text
  import opened Schema

  /** One entry of an `assignedEmployees` / `employeeAssignments` array in a request. */
  datatype AssignmentInput = AssignmentInput(employeeId: Option<Id>, role: Option<string>)

  /** An assignment list in a request: absent (or falsy), present but not an array, or an array. */
  datatype AssignmentsInput = NoAssignments | NotAnArray | Entries(entries: seq<AssignmentInput>)

  /** One entry of `requiredSkills` in a request. */
  datatype RequiredSkillInput = RequiredSkillInput(skillName: Option<string>, proficiencyLevel: Option<string>)

  datatype ProjectRequest = ProjectRequest(
    name: Option<string>,
    description: Option<string>,
    startDate: Option<DateInput>,
    endDate: Option<DateInput>,
    requiredSkills: Option<seq<RequiredSkillInput>>,
    assignedEmployees: AssignmentsInput)

  /** `!field` for a date field: absent, or sent as the empty string. */
  predicate DateMissing(d: Option<DateInput>) {
    d.None? || d.value.text == ""
  }

  /** The request fields that are missing, in the order the handler checks them. */
  function MissingFields(req: ProjectRequest): (r: seq<string>)
    ensures IsSubsequence(r, ["name", "description", "startDate", "endDate"])
    ensures "name" in r <==> !Given(req.name)
    ensures "description" in r <==> !Given(req.description)
    ensures "startDate" in r <==> DateMissing(req.startDate)
    ensures "endDate" in r <==> DateMissing(req.endDate)
  {
    var all := ["name", "description", "startDate", "endDate"];
    var missing := [!Given(req.name), !Given(req.description), DateMissing(req.startDate), DateMissing(req.endDate)];
    var r := Filter(all, (f: string) =>
      (f == "name" && missing[0]) || (f == "description" && missing[1])
      || (f == "startDate" && missing[2]) || (f == "endDate" && missing[3]));
    FilterIsSubsequence(all, (f: string) =>
      (f == "name" && missing[0]) || (f == "description" && missing[1])
      || (f == "startDate" && missing[2]) || (f == "endDate" && missing[3]));
    assert all[0] == "name" && all[1] == "description" && all[2] == "startDate" && all[3] == "endDate";
    r
  }

  /** Every entry names an employee and a role (`!a.employeeId || !a.role` fails for none). */
  predicate EntriesComplete(entries: seq<AssignmentInput>) {
    forall i :: 0 <= i < |entries| ==> Given(entries[i].employeeId) && Given(entries[i].role)
  }

  /** The stored assignments for complete request entries, `assignedDate` defaulting to `now`. */
  function ToAssignments(entries: seq<AssignmentInput>, now: int): (r: seq<Assignment>)
    requires EntriesComplete(entries)
    ensures |r| == |entries|
    ensures forall i :: 0 <= i < |r| ==>
      r[i] == Assignment(entries[i].employeeId.value, entries[i].role.value, now)
  {
    seq(|entries|, i requires 0 <= i < |entries| =>
      Assignment(entries[i].employeeId.value, entries[i].role.value, now))
  }

  /** Every entry has a skill name and a proficiency level from the enum. */
  predicate RequiredSkillsValid(skills: seq<RequiredSkillInput>) {
    forall i :: 0 <= i < |skills| ==>
      Given(skills[i].skillName) && skills[i].proficiencyLevel.Some?
      && ParseProficiency(skills[i].proficiencyLevel.value).Some?
  }

  function ToRequiredSkills(skills: seq<RequiredSkillInput>): (r: seq<RequiredSkill>)
    requires RequiredSkillsValid(skills)
    ensures |r| == |skills|
    ensures forall i :: 0 <= i < |r| ==> (r[i].skillName == skills[i].skillName.value
      && ProficiencyName(r[i].proficiency) == skills[i].proficiencyLevel.value)
  {
    seq(|skills|, i requires 0 <= i < |skills| =>
      RequiredSkill(skills[i].skillName.value, ParseProficiency(skills[i].proficiencyLevel.value).value))
  }

  /** The outcome of the checks `createProject` makes before building the document. */
  datatype Precheck = Refuse(message: string) | Proceed(start: int, end: int, entries: seq<AssignmentInput>)

  /** The handler's own checks, in order: missing fields, date format, date order, assignments. */
  function CreatePrecheck(req: ProjectRequest): (r: Precheck)
    ensures MissingFields(req) != [] ==> r == Refuse("Missing required fields: " + Join(MissingFields(req), ", "))
    ensures r.Proceed? ==> Given(req.name) && Given(req.description)
    ensures r.Proceed? ==> (req.startDate.Some? && req.endDate.Some?
      && req.startDate.value.time == Some(r.start) && req.endDate.value.time == Some(r.end))
    ensures r.Proceed? ==> r.start <= r.end && EntriesComplete(r.entries)
    ensures r.Proceed? ==> !req.assignedEmployees.NotAnArray?
    ensures r.Proceed? && req.assignedEmployees.Entries? ==> r.entries == req.assignedEmployees.entries
    ensures r.Proceed? && req.assignedEmployees.NoAssignments? ==> r.entries == []
  {
    var missing := MissingFields(req);
    if missing != [] then Refuse("Missing required fields: " + Join(missing, ", "))
    else if req.startDate.value.time.None? || req.endDate.value.time.None? then Refuse("Invalid date format")
    else
      var start := req.startDate.value.time.value;
      var end := req.endDate.value.time.value;
      if end < start then Refuse("End date cannot be before start date")
      else
        match req.assignedEmployees
        case NoAssignments => Proceed(start, end, [])
        case NotAnArray => Refuse("assignedEmployees must be an array")
        case Entries(es) =>
          if !EntriesComplete(es) then Refuse("Each employee assignment must include employeeId and role")
          else Proceed(start, end, es)
  }

  /** Valid dates with the end before the start are refused; an end equal to the start is not. */
  lemma DateOrderRule(req: ProjectRequest, start: int, end: int)
    requires Given(req.name) && Given(req.description)
    requires req.startDate.Some? && req.startDate.value.text != "" && req.startDate.value.time == Some(start)
    requires req.endDate.Some? && req.endDate.value.text != "" && req.endDate.value.time == Some(end)
    requires req.assignedEmployees.NoAssignments?
    ensures end < start <==> CreatePrecheck(req) == Refuse("End date cannot be before start date")
    ensures end == start ==> CreatePrecheck(req) == Proceed(start, end, [])
  {
  }

  /** The schema's validators on the document the handler builds. */
  predicate DocumentValid(req: ProjectRequest, requester: Id) {
    && Trim(req.name.GetOr("")) != ""
    && (req.requiredSkills.Some? ==> RequiredSkillsValid(req.requiredSkills.value))
    && requester != ""
  }

  /**
   * `createProject` at time `now` for the authenticated `requester`; `id` is the
   * new document's ObjectId. The name is stored trimmed, so a name of white
   * space alone passes the handler's check and fails the schema's.
   */
  function CreateProject(projects: seq<Project>, req: ProjectRequest, requester: Id, id: Id, now: int)
    : (r: (Reply, seq<Project>))
    requires id !in ProjectIds(projects)
    ensures r.0.code != 201 ==> r.1 == projects && r.0.code in {400, 500}
    ensures r.0.code == 400 <==> CreatePrecheck(req).Refuse?
    ensures r.0.code == 400 ==> r.0.message == CreatePrecheck(req).message
    ensures r.0.code == 201 <==> CreatePrecheck(req).Proceed? && DocumentValid(req, requester)
    ensures r.0.code == 201 ==> |r.1| == |projects| + 1 && r.1[..|projects|] == projects
    ensures r.0.code == 201 ==> var p := r.1[|projects|];
      && p.id == id && p.name == Trim(req.name.value) && p.description == req.description.value
      && Some(p.startDate) == req.startDate.value.time && Some(p.endDate) == req.endDate.value.time
      && p.status == NotStarted && p.createdBy == requester && p.createdAt == now && p.updatedAt == now
      && (req.assignedEmployees.NoAssignments? ==> p.assignedEmployees == [])
      && (req.requiredSkills.None? ==> p.requiredSkills == [])
      && (req.assignedEmployees.Entries? ==> p.assignedEmployees == ToAssignments(req.assignedEmployees.entries, now))
      && (req.requiredSkills.Some? ==> p.requiredSkills == ToRequiredSkills(req.requiredSkills.value))
  {
    match CreatePrecheck(req)
    case Refuse(m) => (Reply(400, m), projects)
    case Proceed(start, end, entries) =>
      if !DocumentValid(req, requester) then (Reply(500, "Error creating project"), projects)
      else
        var skills := if req.requiredSkills.Some? then ToRequiredSkills(req.requiredSkills.value) else [];
        var p := Project(id, Trim(req.name.value), req.description.value, start, end, NotStarted,
                         ToAssignments(entries, now), skills, requester, now, now);
        (Reply(201, "Project created successfully"), projects + [p])
  }

  /**
   * Creation does not look employees up: a project may name an employee id
   * that no account carries.
   */
  lemma CreateDoesNotCheckEmployees(projects: seq<Project>, req: ProjectRequest, requester: Id, id: Id, now: int,
                                    accounts: seq<Account>)
    requires id !in ProjectIds(projects)
    requires CreatePrecheck(req).Proceed? && DocumentValid(req, requester)
    requires req.assignedEmployees.Entries? && |req.assignedEmployees.entries| > 0
    requires FindAccount(accounts, req.assignedEmployees.entries[0].employeeId.value).None?
    ensures var p := CreateProject(projects, req, requester, id, now).1[|projects|];
      && |p.assignedEmployees| > 0
      && FindAccount(accounts, p.assignedEmployees[0].employeeId).None?
  {
  }

  /** `employeeAssignments` entries whose employee id no account carries, first one first. */
  function FirstUnknownEmployee(accounts: seq<Account>, entries: seq<AssignmentInput>): (r: Option<nat>)
    requires EntriesComplete(entries)
    ensures r.Some? ==> r.value < |entries| && FindAccount(accounts, entries[r.value].employeeId.value).None?
    ensures r.Some? ==> forall i :: 0 <= i < r.value ==> FindAccount(accounts, entries[i].employeeId.value).Some?
    ensures r.None? <==> forall i :: 0 <= i < |entries| ==> FindAccount(accounts, entries[i].employeeId.value).Some?
  {
    FindFirst(entries, (e: AssignmentInput) => e.employeeId.Some? && FindAccount(accounts, e.employeeId.value).None?)
  }

  /**
   * `assignEmployees` at time `now`: the request shape is checked before the
   * project lookup, every employee must exist before anything is written, and
   * the project's list is then replaced by the given one.
   */
  function AssignEmployees(db: Db, projectId: Id, input: AssignmentsInput, now: int): (r: (Reply, seq<Project>))
    ensures !input.Entries? ==> r == (Reply(400, "employeeAssignments must be a non-empty array"), db.projects)
    ensures input.Entries? && !EntriesComplete(input.entries)
      ==> r == (Reply(400, "Each assignment must include employeeId and role"), db.projects)
    ensures input.Entries? && EntriesComplete(input.entries) && FindProject(db.projects, projectId).None?
      ==> r == (Reply(404, "Project not found"), db.projects)
    ensures r.0.code != 200 ==> r.1 == db.projects
    ensures r.0.code == 200 <==> (input.Entries? && EntriesComplete(input.entries)
      && FindProject(db.projects, projectId).Some?
      && forall i :: 0 <= i < |input.entries| ==> FindAccount(db.accounts, input.entries[i].employeeId.value).Some?)
    ensures r.0.code == 404 && FindProject(db.projects, projectId).Some? ==>
      var k := FirstUnknownEmployee(db.accounts, input.entries).value;
      r.0.message == "Employee with ID " + input.entries[k].employeeId.value + " not found"
    ensures r.0.code == 200 ==> var k := FindProject(db.projects, projectId).value;
      r.1 == db.projects[k := db.projects[k].(assignedEmployees := ToAssignments(input.entries, now), updatedAt := now)]
  {
    match input
    case NoAssignments => (Reply(400, "employeeAssignments must be a non-empty array"), db.projects)
    case NotAnArray => (Reply(400, "employeeAssignments must be a non-empty array"), db.projects)
    case Entries(es) =>
      if !EntriesComplete(es) then (Reply(400, "Each assignment must include employeeId and role"), db.projects)
      else
        match FindProject(db.projects, projectId)
        case None => (Reply(404, "Project not found"), db.projects)
        case Some(k) =>
          match FirstUnknownEmployee(db.accounts, es)
          case Some(u) => (Reply(404, "Employee with ID " + es[u].employeeId.value + " not found"), db.projects)
          case None =>
            (Reply(200, "Employees assigned successfully"),
             db.projects[k := db.projects[k].(assignedEmployees := ToAssignments(es, now), updatedAt := now)])
  }

  /** An empty array passes every check, so it clears the list despite the "non-empty" message. */
  lemma EmptyAssignmentClears(db: Db, projectId: Id, now: int)
    requires FindProject(db.projects, projectId).Some?
    ensures var r := AssignEmployees(db, projectId, Entries([]), now);
      && r.0.code == 200
      && r.1[FindProject(db.projects, projectId).value].assignedEmployees == []
  {
  }

  /** Assigning replaces: the previous list plays no part in the result. */
  lemma AssignReplaces(db: Db, other: Db, projectId: Id, input: AssignmentsInput, now: int)
    requires other.accounts == db.accounts && |other.projects| == |db.projects|
    requires forall j :: 0 <= j < |db.projects| ==> other.projects[j] == db.projects[j].(assignedEmployees := other.projects[j].assignedEmployees)
    requires AssignEmployees(db, projectId, input, now).0.code == 200
    ensures AssignEmployees(other, projectId, input, now).0.code == 200
    ensures var k := FindProject(db.projects, projectId).value;
      AssignEmployees(other, projectId, input, now).1[k] == AssignEmployees(db, projectId, input, now).1[k]
  {
    var k := FindProject(db.projects, projectId).value;
    assert forall j :: 0 <= j < |db.projects| ==> other.projects[j].id == db.projects[j].id;
    assert FindProject(other.projects, projectId) == Some(k);
  }

  /**
   * `removeEmployee` at time `now`: every assignment of that employee goes,
   * the others stay in order.
   */
  function RemoveEmployee(projects: seq<Project>, projectId: Id, employeeId: Id, now: int): (r: (Reply, seq<Project>))
    ensures FindProject(projects, projectId).None? ==> r == (Reply(404, "Project not found"), projects)
    ensures r.0.code == 200 <==> FindProject(projects, projectId).Some?
    ensures |r.1| == |projects|
    ensures r.0.code == 200 ==> var k := FindProject(projects, projectId).value;
      && IsSubsequence(r.1[k].assignedEmployees, projects[k].assignedEmployees)
      && (forall a :: a in r.1[k].assignedEmployees <==> a in projects[k].assignedEmployees && a.employeeId != employeeId)
      && |r.1[k].assignedEmployees| + |Filter(projects[k].assignedEmployees, (a: Assignment) => a.employeeId == employeeId)|
         == |projects[k].assignedEmployees|
      && r.1 == projects[k := r.1[k]]
      && r.1[k] == projects[k].(assignedEmployees := r.1[k].assignedEmployees, updatedAt := now)
  {
    match FindProject(projects, projectId)
    case None => (Reply(404, "Project not found"), projects)
    case Some(k) =>
      var kept := Filter(projects[k].assignedEmployees, (a: Assignment) => a.employeeId != employeeId);
      FilterIsSubsequence(projects[k].assignedEmployees, (a: Assignment) => a.employeeId != employeeId);
      FilterComplementCount(projects[k].assignedEmployees, (a: Assignment) => a.employeeId != employeeId,
        (a: Assignment) => a.employeeId == employeeId);
      (Reply(200, "Employee removed from project successfully"),
       projects[k := projects[k].(assignedEmployees := kept, updatedAt := now)])
  }

  /** Removing an employee twice is removing it once (up to the save time). */
  lemma RemoveIdempotent(projects: seq<Project>, projectId: Id, employeeId: Id, t1: int, t2: int)
    ensures var once := RemoveEmployee(projects, projectId, employeeId, t1).1;
      RemoveEmployee(once, projectId, employeeId, t2).1 == RemoveEmployee(projects, projectId, employeeId, t2).1
  {
    var once := RemoveEmployee(projects, projectId, employeeId, t1).1;
    if FindProject(projects, projectId).Some? {
      var k := FindProject(projects, projectId).value;
      assert FindProject(once, projectId) == Some(k) by {
        assert forall j :: 0 <= j < |once| ==> once[j].id == projects[j].id;
      }
      FilterIdempotent(projects[k].assignedEmployees, (a: Assignment) => a.employeeId != employeeId);
    }
  }

  /** The project lists an assignment for this employee. */
  predicate Staffs(p: Project, employeeId: Id) {
    exists a :: a in p.assignedEmployees && a.employeeId == employeeId
  }

  /** `getEmployeeProjects`: the projects with an assignment for the employee, in stored order. */
  function EmployeeProjects(projects: seq<Project>, employeeId: Id): (r: seq<Project>)
    ensures IsSubsequence(r, projects)
    ensures forall p :: p in r <==> p in projects && Staffs(p, employeeId)
  {
    FilterIsSubsequence(projects, (p: Project) => Staffs(p, employeeId));
    Filter(projects, (p: Project) => Staffs(p, employeeId))
  }

  /** After a removal the project is no longer among the employee's projects. */
  lemma RemovedNotListed(projects: seq<Project>, projectId: Id, employeeId: Id, now: int)
    requires FindProject(projects, projectId).Some?
    ensures var after := RemoveEmployee(projects, projectId, employeeId, now).1;
      !Staffs(after[FindProject(projects, projectId).value], employeeId)
  {
  }

  /** `getProjectById`. */
  function ProjectById(projects: seq<Project>, id: Id): (r: Result<Project>)
    ensures r.Failure? <==> FindProject(projects, id).None?
    ensures r.Failure? ==> r.reply == Reply(404, "Project not found")
    ensures r.Success? ==> r.value in projects && r.value.id == id
  {
    match FindProject(projects, id)
    case None => Failure(Reply(404, "Project not found"))
    case Some(k) => Success(projects[k])
  }

  /** The fields of an `updateProject` body that are present. */
  datatype ProjectPatch = ProjectPatch(
    name: Option<string>,
    description: Option<string>,
    startDate: Option<int>,
    endDate: Option<int>,
    status: Option<ProjectStatus>,
    requiredSkills: Option<seq<RequiredSkill>>)

  /**
   * `updateProject` at time `now`: `findByIdAndUpdate` without validators,
   * though the cast still runs the schema's `trim` setter on a new name;
   * an unknown id answers 404 and writes nothing.
   */
  function UpdateProject(projects: seq<Project>, id: Id, patch: ProjectPatch, now: int): (r: (Reply, seq<Project>))
    ensures FindProject(projects, id).None? ==> r == (Reply(404, "Project not found"), projects)
    ensures r.0.code == 200 <==> FindProject(projects, id).Some?
    ensures |r.1| == |projects|
    ensures r.0.code == 200 ==> var k := FindProject(projects, id).value;
      && r.1 == projects[k := r.1[k]]
      && r.1[k].id == id && r.1[k].assignedEmployees == projects[k].assignedEmployees
      && r.1[k].createdBy == projects[k].createdBy && r.1[k].updatedAt == now
      && r.1[k].name == (if patch.name.Some? then Trim(patch.name.value) else projects[k].name)
      && r.1[k].description == patch.description.GetOr(projects[k].description)
      && r.1[k].startDate == patch.startDate.GetOr(projects[k].startDate)
      && r.1[k].endDate == patch.endDate.GetOr(projects[k].endDate)
      && r.1[k].status == patch.status.GetOr(projects[k].status)
      && r.1[k].requiredSkills == patch.requiredSkills.GetOr(projects[k].requiredSkills)
  {
    match FindProject(projects, id)
    case None => (Reply(404, "Project not found"), projects)
    case Some(k) =>
      var p := projects[k];
      var q := p.(name := if patch.name.Some? then Trim(patch.name.value) else p.name, description := patch.description.GetOr(p.description),
                  startDate := patch.startDate.GetOr(p.startDate), endDate := patch.endDate.GetOr(p.endDate),
                  status := patch.status.GetOr(p.status), requiredSkills := patch.requiredSkills.GetOr(p.requiredSkills),
                  updatedAt := now);
      (Reply(200, "Project updated successfully"), projects[k := q])
  }

  /** Applying the same patch twice is applying it once (up to the save time). */
  lemma UpdateProjectIdempotent(projects: seq<Project>, id: Id, patch: ProjectPatch, t1: int, t2: int)
    ensures var once := UpdateProject(projects, id, patch, t1).1;
      UpdateProject(once, id, patch, t2).1 == UpdateProject(projects, id, patch, t2).1
  {
    var once := UpdateProject(projects, id, patch, t1).1;
    if FindProject(projects, id).Some? {
      var k := FindProject(projects, id).value;
      assert FindProject(once, id) == Some(k) by {
        assert forall j :: 0 <= j < |once| ==> once[j].id == projects[j].id;
      }
    }
  }

  /** A name written by an update carries no white space at either end, as one written at creation. */
  lemma UpdateProjectNameTrimmed(projects: seq<Project>, id: Id, patch: ProjectPatch, now: int)
    requires FindProject(projects, id).Some? && patch.name.Some?
    ensures var name := UpdateProject(projects, id, patch, now).1[FindProject(projects, id).value].name;
      name != [] ==> !IsWhitespace(name[0]) && !IsWhitespace(name[|name| - 1])
  {
  }

  /** `deleteProject`. */
  function DeleteProject(projects: seq<Project>, id: Id): (r: (Reply, seq<Project>))
    ensures FindProject(projects, id).None? ==> r == (Reply(404, "Project not found"), projects)
    ensures r.0.code == 200 <==> FindProject(projects, id).Some?
    ensures r.0.code == 200 ==> |r.1| == |projects| - 1 && IsSubsequence(r.1, projects)
  {
    match FindProject(projects, id)
    case None => (Reply(404, "Project not found"), projects)
    case Some(k) =>
      DropOneIsSubsequence(projects, k);
      (Reply(200, "Project deleted successfully"), projects[..k] + projects[k + 1..])
  }

  /** After a deletion the id is gone and the remaining ids are still unique. */
  lemma DeleteProjectRemoves(projects: seq<Project>, id: Id)
    requires Distinct(ProjectIds(projects))
    requires FindProject(projects, id).Some?
    ensures var after := DeleteProject(projects, id).1;
      && FindProject(after, id).None?
      && Distinct(ProjectIds(after))
      && forall p :: p in projects && p.id != id ==> p in after
  {
    var k := FindProject(projects, id).value;
    var after := DeleteProject(projects, id).1;
    var ids := ProjectIds(projects);
    forall j | 0 <= j < |after|
      ensures after[j].id != id
    {
      if j < k {
        assert after[j] == projects[j];
        assert ids[j] != ids[k];
      } else {
        assert after[j] == projects[j + 1];
        assert ids[k] != ids[j + 1];
      }
    }
    forall p | p in projects && p.id != id
      ensures p in after
    {
      var i :| 0 <= i < |projects| && projects[i] == p;
      if i < k {
        assert after[i] == p;
      } else {
        assert i != k;
        assert after[i - 1] == p;
      }
    }
    assert ProjectIds(after) == ids[..k] + ids[k + 1..];
  }

  lemma {:induction false} DropOneIsSubsequence<T>(s: seq<T>, k: nat)
    requires k < |s|
    ensures IsSubsequence(s[..k] + s[k + 1..], s)
    decreases k
  {
    if k == 0 {
      assert s[..0] + s[1..] == s[1..];
      IsSubsequenceRefl(s[1..]);
      SubsequenceDropHead(s[1..], s);
    } else {
      DropOneIsSubsequence(s[1..], k - 1);
      var r := s[..k] + s[k + 1..];
      assert r[0] == s[0];
      assert r[1..] == s[1..][..k - 1] + s[1..][k..];
    }
  }
}

=== FILE: projectview.dfy ===
/**
 * The client's view of projects: the checks and formatting `createProject`
 * applies before posting (projectService.js), the normalisation of the
 * project list the server returns, and the date-based status labels, status
 * colours and member caption of the project tables
 * (projectService.js, ProjectAssignmentsTable.jsx). The clock is a
 * parameter; a date is the time `new Date(...)` gives, `None` for an
 * Invalid Date.
 */
module ProjectView {
  import opened Js
  import opened Text
  import opened Collections
  import opened Schema
  import Projects

  // ---------------------------------------------------------------------------
  // createProject on the client

  /** A date field as a page hands it over: an input's text, or a `Date` object with its ISO text. */
  datatype DateField = DateText(text: string) | DateObject(iso: string)

  /** `!!field` for a date field: a `Date` object is always truthy, a text when non-empty. */
  predicate DateGiven(d: Option<DateField>) {
    d.Some? && (d.value.DateObject? || d.value.text != "")
  }

  /** `field instanceof Date ? field.toISOString() : field`. */
  function DateSent(d: DateField): string {
    match d
    case DateText(t) => t
    case DateObject(iso) => iso
  }

  /** A required skill as the page holds it: a bare name or an object with a `skillName`. */
  datatype SkillEntry = SkillText(name: string) | SkillObject(skillName: string)

  /** An assignment as the page holds it; `role` is "" when unset. */
  datatype TeamEntry = TeamEntry(employeeId: Id, name: string, role: string)

  datatype ProjectData = ProjectData(
    name: Option<string>,
    description: Option<string>,
    startDate: Option<DateField>,
    endDate: Option<DateField>,
    priority: Option<string>,
    teamSize: NumberValue,
    requiredSkills: Option<seq<SkillEntry>>,
    assignedEmployees: Option<seq<TeamEntry>>)

  datatype PayloadSkill = PayloadSkill(skillName: string, proficiencyLevel: string)
  datatype PayloadAssignment = PayloadAssignment(employeeId: Id, role: string)

  /** The body posted to `/projects`. */
  datatype Payload = Payload(
    name: string,
    description: string,
    startDate: string,
    endDate: string,
    priority: string,
    teamSize: int,
    status: string,
    requiredSkills: seq<PayloadSkill>,
    assignedEmployees: seq<PayloadAssignment>)

  /** The client's three checks, in order; `None` when the request may be sent. */
  function ClientCheck(p: ProjectData): (r: Option<string>)
    ensures r.None? <==> (Given(p.name) && DateGiven(p.startDate) && DateGiven(p.endDate)
      && p.assignedEmployees.Some? && |p.assignedEmployees.value| > 0)
    ensures !Given(p.name) ==> r == Some("Project name is required")
    ensures Given(p.name) && !(DateGiven(p.startDate) && DateGiven(p.endDate)) ==>
      r == Some("Project start and end dates are required")
    ensures r.Some? ==> r.value in {"Project name is required", "Project start and end dates are required",
      "At least one employee must be assigned to the project"}
  {
    if !Given(p.name) then Some("Project name is required")
    else if !DateGiven(p.startDate) || !DateGiven(p.endDate) then Some("Project start and end dates are required")
    else if p.assignedEmployees.None? || |p.assignedEmployees.value| == 0 then
      Some("At least one employee must be assigned to the project")
    else None
  }

  function SkillNameOf(s: SkillEntry): string {
    match s
    case SkillText(n) => n
    case SkillObject(n) => n
  }

  function ToPayloadSkill(s: SkillEntry): PayloadSkill {
    PayloadSkill(SkillNameOf(s), "Intermediate")
  }

  function ToPayloadAssignment(e: TeamEntry): PayloadAssignment {
    PayloadAssignment(e.employeeId, if e.role != "" then e.role else "Team Member")
  }

  /** The payload `createProject` builds once its checks pass. */
  function FormatPayload(p: ProjectData): (r: Payload)
    requires ClientCheck(p).None?
    ensures r.name == Trim(p.name.value)
    ensures r.description == p.description.GetOr("")
    ensures r.startDate == DateSent(p.startDate.value) && r.endDate == DateSent(p.endDate.value)
    ensures r.priority == (if Given(p.priority) then p.priority.value else "Medium")
    ensures r.teamSize == OrDefault(p.teamSize, 1) && r.status == "Active"
    ensures p.requiredSkills.None? ==> r.requiredSkills == []
    ensures p.requiredSkills.Some? ==> |r.requiredSkills| == |p.requiredSkills.value|
    ensures p.requiredSkills.Some? ==> forall i :: 0 <= i < |r.requiredSkills| ==>
      r.requiredSkills[i] == PayloadSkill(SkillNameOf(p.requiredSkills.value[i]), "Intermediate")
    ensures |r.assignedEmployees| == |p.assignedEmployees.value|
    ensures forall i :: 0 <= i < |r.assignedEmployees| ==>
      (r.assignedEmployees[i].employeeId == p.assignedEmployees.value[i].employeeId
       && r.assignedEmployees[i].role != ""
       && (p.assignedEmployees.value[i].role != "" ==> r.assignedEmployees[i].role == p.assignedEmployees.value[i].role)
       && (p.assignedEmployees.value[i].role == "" ==> r.assignedEmployees[i].role == "Team Member"))
  {
    Payload(
      Trim(p.name.value),
      p.description.GetOr(""),
      DateSent(p.startDate.value),
      DateSent(p.endDate.value),
      if Given(p.priority) then p.priority.value else "Medium",
      OrDefault(p.teamSize, 1),
      "Active",
      match p.requiredSkills
        case None => []
        case Some(skills) => Map(skills, ToPayloadSkill),
      Map(p.assignedEmployees.value, ToPayloadAssignment))
  }

  datatype ClientOutcome = Refused(message: string) | Send(payload: Payload)

  /** `createProject` up to the request: a refusal without any request, or the payload to post. */
  function CreateProjectClient(p: ProjectData): (r: ClientOutcome)
    ensures r.Refused? <==> ClientCheck(p).Some?
    ensures r.Refused? ==> r.message == ClientCheck(p).value
    ensures r.Send? ==> r.payload == FormatPayload(p)
  {
    match ClientCheck(p)
    case Some(m) => Refused(m)
    case None => Send(FormatPayload(p))
  }

  /** The payload as the server's `createProject` reads it; `parse` is `new Date(text)`. */
  function AsRequest(pl: Payload, parse: string -> Option<int>): (r: Projects.ProjectRequest)
    ensures r.assignedEmployees.Entries? && |r.assignedEmployees.entries| == |pl.assignedEmployees|
  {
    Projects.ProjectRequest(
      Some(pl.name),
      Some(pl.description),
      Some(DateInput(pl.startDate, parse(pl.startDate))),
      Some(DateInput(pl.endDate, parse(pl.endDate))),
      Some(Map(pl.requiredSkills, (s: PayloadSkill) =>
        Projects.RequiredSkillInput(Some(s.skillName), Some(s.proficiencyLevel)))),
      Projects.Entries(Map(pl.assignedEmployees, (a: PayloadAssignment) =>
        Projects.AssignmentInput(Some(a.employeeId), Some(a.role)))))
  }

  /**
   * What the server's field check makes of a payload the client let
   * through: the dates always arrive, but a name of spaces arrives empty
   * after trimming and a missing description arrives as "", and the server
   * refuses either.
   */
  lemma SentFieldsAtServer(p: ProjectData, parse: string -> Option<int>)
    requires ClientCheck(p).None?
    requires p.startDate.value.DateObject? ==> p.startDate.value.iso != ""
    requires p.endDate.value.DateObject? ==> p.endDate.value.iso != ""
    ensures var missing := Projects.MissingFields(AsRequest(FormatPayload(p), parse));
      && ("name" in missing <==> Blank(p.name.value))
      && ("description" in missing <==> !Given(p.description))
      && "startDate" !in missing && "endDate" !in missing
    ensures Blank(p.name.value) || !Given(p.description) ==>
      Projects.CreatePrecheck(AsRequest(FormatPayload(p), parse)).Refuse?
  {
    TrimEmptyIffBlank(p.name.value);
    var missing := Projects.MissingFields(AsRequest(FormatPayload(p), parse));
    if Blank(p.name.value) || !Given(p.description) {
      assert missing != [] by {
        if Blank(p.name.value) {
          assert "name" in missing;
        } else {
          assert "description" in missing;
        }
      }
    }
  }

  /** Every assignment the client sends carries a role, so the server's entry check needs only the ids. */
  lemma SentEntriesComplete(p: ProjectData, parse: string -> Option<int>)
    requires ClientCheck(p).None?
    requires forall i :: 0 <= i < |p.assignedEmployees.value| ==> p.assignedEmployees.value[i].employeeId != ""
    ensures var req := AsRequest(FormatPayload(p), parse);
      Projects.EntriesComplete(req.assignedEmployees.entries)
  {
    var req := AsRequest(FormatPayload(p), parse);
    var entries := req.assignedEmployees.entries;
    forall i | 0 <= i < |entries|
      ensures Given(entries[i].employeeId) && Given(entries[i].role)
    {
      assert entries[i] == Projects.AssignmentInput(Some(FormatPayload(p).assignedEmployees[i].employeeId),
                                                    Some(FormatPayload(p).assignedEmployees[i].role));
    }
  }

  // ---------------------------------------------------------------------------
  // The project list as the client normalises it

  /** An assignment's `employeeId` as the list returns it: a populated account, a bare id, or nothing. */
  datatype EmployeeRef = Populated(id: Id, refName: string) | Unpopulated(id: Id) | NoRef

  datatype RawAssignment = RawAssignment(employee: EmployeeRef, name: Option<string>, role: Option<string>)

  /** A required skill as the list returns it: a bare name or an object. */
  datatype RawSkill = RawSkillText(name: string) | RawSkillObject(skillName: string, proficiencyLevel: Option<string>)

  /** A project as the list returns it; `None` lists stand for values that are not arrays. */
  datatype RawProject = RawProject(
    id: Id,
    name: Option<string>,
    description: Option<string>,
    startDate: Option<int>,
    endDate: Option<int>,
    priority: Option<string>,
    status: Option<string>,
    teamSize: int,
    requiredSkills: Option<seq<RawSkill>>,
    assignedEmployees: Option<seq<RawAssignment>>)

  datatype MemberRow = MemberRow(employeeId: Option<Id>, name: string, role: string)

  datatype ProjectRow = ProjectRow(
    id: Id,
    name: string,
    description: string,
    startDate: Option<int>,
    endDate: Option<int>,
    priority: string,
    status: string,
    teamSize: int,
    requiredSkills: seq<PayloadSkill>,
    assignedEmployees: seq<MemberRow>)

  /** `value || fallback` on an optional text. */
  function OrText(o: Option<string>, fallback: string): (r: string)
    ensures Given(o) ==> r == o.value
    ensures !Given(o) ==> r == fallback
  {
    if Given(o) then o.value else fallback
  }

  /**
   * One required skill: a bare name or an object's `skillName`; the level is
   * the object's when truthy, otherwise "Intermediate".
   */
  function NormaliseSkill(s: RawSkill): (r: PayloadSkill)
    ensures r.proficiencyLevel != ""
    ensures s.RawSkillText? ==> r.skillName == s.name && r.proficiencyLevel == "Intermediate"
    ensures s.RawSkillObject? ==> r.skillName == s.skillName
    ensures s.RawSkillObject? && Given(s.proficiencyLevel) ==> r.proficiencyLevel == s.proficiencyLevel.value
    ensures s.RawSkillObject? && !Given(s.proficiencyLevel) ==> r.proficiencyLevel == "Intermediate"
  {
    match s
    case RawSkillText(n) => PayloadSkill(n, "Intermediate")
    case RawSkillObject(n, level) => PayloadSkill(n, OrText(level, "Intermediate"))
  }

  /** One assignment: the populated account's id and name are unwrapped, with fallbacks. */
  function NormaliseMember(a: RawAssignment): (r: MemberRow)
    ensures r.name != "" && r.role != ""
    ensures a.employee.NoRef? <==> r.employeeId.None?
    ensures !a.employee.NoRef? ==> r.employeeId == Some(a.employee.id)
    ensures a.employee.Populated? && a.employee.refName != "" ==> r.name == a.employee.refName
    ensures !(a.employee.Populated? && a.employee.refName != "") && Given(a.name) ==> r.name == a.name.value
    ensures Given(a.role) ==> r.role == a.role.value
  {
    var id := match a.employee
      case Populated(i, _) => Some(i)
      case Unpopulated(i) => Some(i)
      case NoRef => None;
    var name := if a.employee.Populated? && a.employee.refName != "" then a.employee.refName
                else OrText(a.name, "Unknown Employee");
    MemberRow(id, name, OrText(a.role, "Team Member"))
  }

  /** `getProjectAssignments`' per-project transformation. */
  function Normalise(p: RawProject): (r: ProjectRow)
    ensures r.id == p.id && r.startDate == p.startDate && r.endDate == p.endDate
    ensures r.name != "" && r.priority != "" && r.status != "" && r.teamSize != 0
    ensures Given(p.name) ==> r.name == p.name.value
    ensures !Given(p.name) ==> r.name == "Unnamed Project"
    ensures Given(p.description) ==> r.description == p.description.value
    ensures !Given(p.description) ==> r.description == ""
    ensures Given(p.priority) ==> r.priority == p.priority.value
    ensures !Given(p.priority) ==> r.priority == "Medium"
    ensures Given(p.status) ==> r.status == p.status.value
    ensures !Given(p.status) ==> r.status == "Active"
    ensures p.teamSize != 0 ==> r.teamSize == p.teamSize
    ensures p.teamSize == 0 ==> r.teamSize == 1
    ensures |r.requiredSkills| == (if p.requiredSkills.Some? then |p.requiredSkills.value| else 0)
    ensures p.requiredSkills.Some? ==> forall i :: 0 <= i < |r.requiredSkills| ==>
      r.requiredSkills[i] == NormaliseSkill(p.requiredSkills.value[i])
    ensures |r.assignedEmployees| == (if p.assignedEmployees.Some? then |p.assignedEmployees.value| else 0)
    ensures p.assignedEmployees.Some? ==> forall i :: 0 <= i < |r.assignedEmployees| ==>
      r.assignedEmployees[i] == NormaliseMember(p.assignedEmployees.value[i])
  {
    ProjectRow(
      p.id,
      OrText(p.name, "Unnamed Project"),
      OrText(p.description, ""),
      p.startDate,
      p.endDate,
      OrText(p.priority, "Medium"),
      OrText(p.status, "Active"),
      if p.teamSize != 0 then p.teamSize else 1,
      match p.requiredSkills
        case None => []
        case Some(skills) => Map(skills, NormaliseSkill),
      match p.assignedEmployees
        case None => []
        case Some(members) => Map(members, NormaliseMember))
  }

  /** A normalised row read back as a raw project: ids unpopulated, every field present. */
  function AsRaw(r: ProjectRow): RawProject {
    RawProject(
      r.id, Some(r.name), Some(r.description), r.startDate, r.endDate, Some(r.priority), Some(r.status),
      r.teamSize,
      Some(Map(r.requiredSkills, (s: PayloadSkill) => RawSkillObject(s.skillName, Some(s.proficiencyLevel)))),
      Some(Map(r.assignedEmployees, (m: MemberRow) =>
        RawAssignment(match m.employeeId case None => NoRef case Some(i) => Unpopulated(i), Some(m.name), Some(m.role)))))
  }

  /** Normalising is idempotent: a normalised project read back normalises to itself. */
  lemma NormaliseIdempotent(p: RawProject)
    ensures Normalise(AsRaw(Normalise(p))) == Normalise(p)
  {
    var r := Normalise(p);
    var again := Normalise(AsRaw(r));
    assert again.requiredSkills == r.requiredSkills;
    assert again.assignedEmployees == r.assignedEmployees;
  }

  /** `currentTeamCount` in `getEmployeeProjects`: the number of assignments, 0 when not an array. */
  function CurrentTeamCount(p: RawProject): (r: nat)
    ensures r == |Normalise(p).assignedEmployees|
  {
    match p.assignedEmployees
    case None => 0
    case Some(members) => |members|
  }

  // ---------------------------------------------------------------------------
  // Status labels, colours and the member caption

  /** `now < new Date(t)`: false for an Invalid Date. */
  predicate Before(now: int, t: Option<int>) {
    t.Some? && now < t.value
  }

  /** `now > new Date(t)`: false for an Invalid Date. */
  predicate After(now: int, t: Option<int>) {
    t.Some? && now > t.value
  }

  datatype StatusBadge = StatusBadge(caption: string, color: string)

  /** `getProjectStatus` of the employee's project list. */
  function ProjectStatus(now: int, start: Option<int>, end: Option<int>): (r: StatusBadge)
    ensures r.caption == "Upcoming" <==> Before(now, start)
    ensures r.caption == "Completed" <==> !Before(now, start) && After(now, end)
    ensures r.caption == "In Progress" <==> !Before(now, start) && !After(now, end)
    ensures r.caption == "Upcoming" ==> r.color == "info"
    ensures r.caption == "Completed" ==> r.color == "success"
    ensures r.caption == "In Progress" ==> r.color == "warning"
  {
    if Before(now, start) then StatusBadge("Upcoming", "info")
    else if After(now, end) then StatusBadge("Completed", "success")
    else StatusBadge("In Progress", "warning")
  }

  /** `calculateProjectStatus` of the HR project table. */
  function CalculateStatus(now: int, start: Option<int>, end: Option<int>): (r: string)
    ensures r in {"Pending", "Completed", "Active"}
    ensures r == "Pending" <==> Before(now, start)
    ensures r == "Completed" <==> !Before(now, start) && After(now, end)
  {
    if Before(now, start) then "Pending"
    else if After(now, end) then "Completed"
    else "Active"
  }

  /** The two tables split time the same way, under different names. */
  lemma StatusNamesAgree(now: int, start: Option<int>, end: Option<int>)
    ensures CalculateStatus(now, start, end) == "Pending" <==> ProjectStatus(now, start, end).caption == "Upcoming"
    ensures CalculateStatus(now, start, end) == "Completed" <==> ProjectStatus(now, start, end).caption == "Completed"
    ensures CalculateStatus(now, start, end) == "Active" <==> ProjectStatus(now, start, end).caption == "In Progress"
  {
  }

  /** With both dates valid, a project is active exactly from its start to its end, both included. */
  lemma ActiveIffWithin(now: int, start: int, end: int)
    ensures CalculateStatus(now, Some(start), Some(end)) == "Active" <==> start <= now <= end
  {
  }

  /**
   * With start no later than end, "Completed" means past the end. Dates in
   * the other order show "Pending" between the end and the start.
   */
  lemma CompletedIffPastEnd(now: int, start: int, end: int)
    ensures start <= end ==> (CalculateStatus(now, Some(start), Some(end)) == "Completed" <==> now > end)
    ensures end < now < start ==> CalculateStatus(now, Some(start), Some(end)) == "Pending"
  {
  }

  /** An Invalid Date never compares, so a project without valid dates stays "Active". */
  lemma UndatedStaysActive(now: int)
    ensures CalculateStatus(now, None, None) == "Active"
  {
  }

  function StatusRank(s: string): nat {
    if s == "Pending" then 0 else if s == "Active" then 1 else 2
  }

  /** For dates in order, the status only moves forward in time: Pending, Active, Completed. */
  lemma StatusMovesForward(now1: int, now2: int, start: int, end: int)
    requires now1 <= now2 && start <= end
    ensures StatusRank(CalculateStatus(now1, Some(start), Some(end)))
      <= StatusRank(CalculateStatus(now2, Some(start), Some(end)))
  {
  }

  datatype Palette = Palette(color: string, bgcolor: string, borderColor: string)

  function Grey(): Palette {
    Palette("#757575", "#f5f5f5", "#e0e0e0")
  }

  /** `getStatusColor`: the lower-cased status picks green, orange or blue; anything else is grey. */
  function StatusColor(status: Option<string>): (r: Palette)
    ensures status.None? ==> r == Grey()
    ensures status.Some? && Lower(status.value) == "active" ==> r.color == "#2e7d32"
    ensures status.Some? && Lower(status.value) == "pending" ==> r.color == "#ed6c02"
    ensures status.Some? && Lower(status.value) == "completed" ==> r.color == "#1976d2"
    ensures r == Grey() <==> status.None? || Lower(status.value) !in {"active", "pending", "completed"}
  {
    match status
    case None => Grey()
    case Some(s) =>
      var k := Lower(s);
      if k == "active" then Palette("#2e7d32", "#e8f5e9", "#a5d6a7")
      else if k == "pending" then Palette("#ed6c02", "#fff4e5", "#ffb74d")
      else if k == "completed" then Palette("#1976d2", "#e3f2fd", "#90caf9")
      else Grey()
  }

  /** The colour does not depend on letter case. */
  lemma StatusColorIgnoresCase(s: string)
    ensures StatusColor(Some(s)) == StatusColor(Some(Lower(s)))
  {
    LowerIdempotent(s);
  }

  /** The lower case of a capitalised word. */
  lemma LowerCapitalised(w: string, lower: string)
    requires |w| > 0 && 'A' <= w[0] <= 'Z' && lower == [LowerChar(w[0])] + w[1..]
    requires forall i :: 1 <= i < |w| ==> !('A' <= w[i] <= 'Z')
    ensures Lower(w) == lower
  {
    LowerNoCapitals(w[1..]);
    assert w == [w[0]] + w[1..];
  }

  /** Every status the table computes gets a colour, never the grey default. */
  lemma ComputedStatusColoured(now: int, start: Option<int>, end: Option<int>)
    ensures StatusColor(Some(CalculateStatus(now, start, end))) != Grey()
  {
    var s := CalculateStatus(now, start, end);
    if s == "Pending" {
      LowerCapitalised(s, "pending");
    } else if s == "Active" {
      LowerCapitalised(s, "active");
    } else {
      LowerCapitalised(s, "completed");
    }
  }

  /** The caption's noun: singular exactly for one member. */
  function MemberWord(count: nat): (r: string)
    ensures r == "member" <==> count == 1
    ensures r == "members" <==> count != 1
  {
    if count == 1 then "member" else "members"
  }
}

=== FILE: register.dfy ===
/**
 * The sign-up form (RegisterForm.jsx). Every change event stores the new
 * text and re-validates that one field only; the error texts live in the
 * form's state, and the form is valid when every field is filled and has no
 * stored error. The submitted body leaves out the confirmation and carries
 * the experience as a number.
 */
module RegisterForm {
  import opened Js
  import opened Text
  import opened PasswordPolicy
  import Accounts

  datatype Field = Name | Email | Password | ConfirmPassword | RoleField | Experience

  datatype Errors = Errors(name: string, email: string, password: seq<string>, confirmPassword: string,
                           role: string, experience: string)

  /** The inputs' texts; `experienceNumber` is what `Number(...)` makes of the experience text. */
  datatype Form = Form(name: string, email: string, password: string, confirmPassword: string, role: string,
                       experience: string, experienceNumber: NumberValue, errors: Errors)

  /** One change event: the field, its new text, and what `Number(...)` makes of that text. */
  datatype Edit = Edit(field: Field, text: string, number: NumberValue)

  /** Every input empty and no error shown. */
  function Initial(): Form {
    Form("", "", "", "", "", "", Num(0), Errors("", "", [], "", "", ""))
  }

  /** The values of the role drop-down other than its "Select your role" placeholder. */
  function RoleOptions(): seq<string> {
    ["employee", "hr", "verifier", "admin"]
  }

  predicate IsLetterOrSpace(c: char) {
    'A' <= c <= 'Z' || 'a' <= c <= 'z' || c == ' '
  }

  /** `/^[A-Za-z ]{3,}$/`: three or more ASCII letters and spaces. */
  predicate NameShape(v: string) {
    |v| >= 3 && forall i :: 0 <= i < |v| ==> IsLetterOrSpace(v[i])
  }

  function NameError(v: string): (r: string)
    ensures r == "" <==> NameShape(v)
    ensures v == "" ==> r == "Name is required"
  {
    if v == "" then "Name is required"
    else if !NameShape(v) then "Enter valid name"
    else ""
  }

  const Domain: string := "@infosys.com"

  /** The part before the domain: non-empty, with no white space and no `@`. */
  predicate LocalPart(l: string) {
    l != "" && forall i :: 0 <= i < |l| ==> !IsWhitespace(l[i]) && l[i] != '@'
  }

  /** `/^[^\s@]+@infosys\.com$/`, read from the end. */
  predicate EmailShape(v: string) {
    |v| > |Domain| && v[|v| - |Domain|..] == Domain && LocalPart(v[..|v| - |Domain|])
  }

  /** An address has the accepted shape exactly when it is a local part followed by the domain. */
  lemma EmailShapeIff(v: string)
    ensures EmailShape(v) <==> exists l :: LocalPart(l) && v == l + Domain
  {
    if EmailShape(v) {
      var l := v[..|v| - |Domain|];
      assert v == l + Domain;
    }
    if l :| LocalPart(l) && v == l + Domain {
      assert v[|v| - |Domain|..] == Domain;
      assert v[..|v| - |Domain|] == l;
    }
  }

  function EmailError(v: string): (r: string)
    ensures r == "" <==> exists l :: LocalPart(l) && v == l + Domain
    ensures v == "" ==> r == "Email is required"
  {
    EmailShapeIff(v);
    if v == "" then "Email is required"
    else if !EmailShape(v) then "Must be @infosys.com"
    else ""
  }

  /** The confirmation is checked against the password as it stands when the confirmation changes. */
  function ConfirmError(v: string, password: string): (r: string)
    ensures r == "" <==> v != "" && v == password
    ensures v == "" ==> r == "Confirm password"
    ensures v != "" && v != password ==> r == "Passwords must match"
  {
    if v == "" then "Confirm password"
    else if v != password then "Passwords must match"
    else ""
  }

  function RoleError(v: string): (r: string)
    ensures r == "" <==> v != ""
  {
    if v == "" then "Select a role" else ""
  }

  /** Experience must be given, numeric, and within 0 to 50 years inclusive. */
  function ExperienceError(text: string, number: NumberValue): (r: string)
    ensures r == "" <==> text != "" && number.Num? && 0 <= number.value <= 50
    ensures text != "" && number.NaN? ==> r == "Must be a number"
  {
    if text == "" then "Experience is required"
    else if number.NaN? then "Must be a number"
    else if number.value < 0 || number.value > 50 then "0-50 years"
    else ""
  }

  /** `handleChange` as written: store the text, re-validate that field alone. */
  function Change(f: Form, e: Edit): (g: Form)
    ensures e.field != ConfirmPassword ==> (g.confirmPassword == f.confirmPassword
      && g.errors.confirmPassword == f.errors.confirmPassword)
    ensures e.field == ConfirmPassword ==> g == f.(confirmPassword := e.text,
      errors := f.errors.(confirmPassword := ConfirmError(e.text, f.password)))
    ensures e.field != Password ==> g.password == f.password && g.errors.password == f.errors.password
  {
    match e.field
    case Name => f.(name := e.text, errors := f.errors.(name := NameError(e.text)))
    case Email => f.(email := e.text, errors := f.errors.(email := EmailError(e.text)))
    case Password => f.(password := e.text, errors := f.errors.(password := PasswordErrors(e.text)))
    case ConfirmPassword =>
      f.(confirmPassword := e.text, errors := f.errors.(confirmPassword := ConfirmError(e.text, f.password)))
    case RoleField => f.(role := e.text, errors := f.errors.(role := RoleError(e.text)))
    case Experience =>
      f.(experience := e.text, experienceNumber := e.number,
         errors := f.errors.(experience := ExperienceError(e.text, e.number)))
  }

  function Apply(f: Form, edits: seq<Edit>): Form
    decreases |edits|
  {
    if edits == [] then f else Apply(Change(f, edits[0]), edits[1..])
  }

  /** `isFormValid`: every field filled and no stored error. */
  predicate IsFormValid(f: Form) {
    && f.name != "" && f.errors.name == ""
    && f.email != "" && f.errors.email == ""
    && f.password != "" && f.errors.password == []
    && f.confirmPassword != "" && f.errors.confirmPassword == ""
    && f.role != "" && f.errors.role == ""
    && f.experience != "" && f.errors.experience == ""
  }

  /**
   * The stored errors of name, email, password, role and experience are
   * those of the current texts, or the field is untouched (empty, no error).
   */
  predicate FieldsTracked(f: Form) {
    && (f.errors.name == NameError(f.name) || (f.name == "" && f.errors.name == ""))
    && (f.errors.email == EmailError(f.email) || (f.email == "" && f.errors.email == ""))
    && (f.errors.password == PasswordErrors(f.password) || (f.password == "" && f.errors.password == []))
    && (f.errors.role == RoleError(f.role) || (f.role == "" && f.errors.role == ""))
    && (f.errors.experience == ExperienceError(f.experience, f.experienceNumber)
        || (f.experience == "" && f.errors.experience == ""))
  }

  /** The stored confirmation error is that of the current confirmation and password. */
  predicate ConfirmTracked(f: Form) {
    f.errors.confirmPassword == ConfirmError(f.confirmPassword, f.password)
    || (f.confirmPassword == "" && f.errors.confirmPassword == "")
  }

  /** What the form's fields say when all five tracked fields pass. */
  predicate FieldsPass(f: Form) {
    && NameShape(f.name)
    && EmailShape(f.email)
    && Strong(f.password)
    && f.confirmPassword != ""
    && f.role != ""
    && f.experienceNumber.Num? && 0 <= f.experienceNumber.value <= 50
  }

  /** One edit keeps the five tracked fields' stored errors in step with their texts. */
  lemma ChangeTracksFields(f: Form, e: Edit)
    requires FieldsTracked(f)
    ensures FieldsTracked(Change(f, e))
  {
    match e.field
    case Name =>
    case Email =>
    case Password =>
    case ConfirmPassword =>
    case RoleField =>
    case Experience =>
  }

  lemma {:induction false} ApplyTracksFields(f: Form, edits: seq<Edit>)
    requires FieldsTracked(f)
    ensures FieldsTracked(Apply(f, edits))
    decreases |edits|
  {
    if edits != [] {
      ChangeTracksFields(f, edits[0]);
      ApplyTracksFields(Change(f, edits[0]), edits[1..]);
    }
  }

  /** Whatever the edits, a form that reports itself valid has well-formed fields. */
  lemma ValidFormFieldsPass(edits: seq<Edit>)
    ensures IsFormValid(Apply(Initial(), edits)) ==> FieldsPass(Apply(Initial(), edits))
  {
    ApplyTracksFields(Initial(), edits);
    EmailShapeIff(Apply(Initial(), edits).email);
  }

  /** The six fields typed in order, the confirmation after the password. */
  function FillIn(name: string, email: string, password: string, confirm: string, role: string,
                  experience: string, number: NumberValue): (edits: seq<Edit>)
    ensures |edits| == 6
  {
    [Edit(Name, name, NaN), Edit(Email, email, NaN), Edit(Password, password, NaN),
     Edit(ConfirmPassword, confirm, NaN), Edit(RoleField, role, NaN), Edit(Experience, experience, number)]
  }

  /** The form the six edits of `FillIn` leave behind. */
  function Filled(name: string, email: string, password: string, confirm: string, role: string,
                  experience: string, number: NumberValue): Form {
    Form(name, email, password, confirm, role, experience, number,
         Errors(NameError(name), EmailError(email), PasswordErrors(password), ConfirmError(confirm, password),
                RoleError(role), ExperienceError(experience, number)))
  }

  /** Each edit of `FillIn` sets its field and that field's error. */
  lemma ApplyFillIn(name: string, email: string, password: string, confirm: string, role: string,
                    experience: string, number: NumberValue)
    ensures Apply(Initial(), FillIn(name, email, password, confirm, role, experience, number))
      == Filled(name, email, password, confirm, role, experience, number)
  {
    var edits := FillIn(name, email, password, confirm, role, experience, number);
    var f1 := Change(Initial(), edits[0]);
    var f2 := Change(f1, edits[1]);
    var f3 := Change(f2, edits[2]);
    var f4 := Change(f3, edits[3]);
    var f5 := Change(f4, edits[4]);
    var f6 := Change(f5, edits[5]);
    calc {
      Apply(Initial(), edits);
      Apply(f1, edits[1..]);
      { assert edits[1..][0] == edits[1] && edits[1..][1..] == edits[2..]; }
      Apply(f2, edits[2..]);
      { assert edits[2..][0] == edits[2] && edits[2..][1..] == edits[3..]; }
      Apply(f3, edits[3..]);
      { assert edits[3..][0] == edits[3] && edits[3..][1..] == edits[4..]; }
      Apply(f4, edits[4..]);
      { assert edits[4..][0] == edits[4] && edits[4..][1..] == edits[5..]; }
      Apply(f5, edits[5..]);
      { assert edits[5..][0] == edits[5] && edits[5..][1..] == []; }
      Apply(f6, []);
    }
  }

  /**
   * Typed in order, the form is valid exactly when every field is well formed
   * and the confirmation equals the password.
   */
  lemma FilledFormValidIff(name: string, email: string, password: string, confirm: string, role: string,
                           experience: string, number: NumberValue)
    ensures var f := Apply(Initial(), FillIn(name, email, password, confirm, role, experience, number));
      IsFormValid(f) <==> (
        && NameShape(name) && EmailShape(email) && Strong(password) && confirm == password
        && role != "" && experience != "" && number.Num? && 0 <= number.value <= 50)
  {
    ApplyFillIn(name, email, password, confirm, role, experience, number);
    EmailShapeIff(email);
  }

  /**
   * The confirmation error is not refreshed when the password changes: a
   * valid form whose password is then replaced by another strong password
   * stays valid although the two fields now differ.
   */
  lemma StaleConfirmation(f: Form, other: string)
    requires IsFormValid(f) && f.confirmPassword == f.password && Strong(other) && other != f.password
    ensures var g := Change(f, Edit(Password, other, NaN));
      IsFormValid(g) && g.password != g.confirmPassword
  {
  }

  /** A filled-in form for the concrete run below. */
  function ExampleForm(): Form {
    Filled("Ann Lee", "ann@infosys.com", "Secret1!", "Secret1!", "employee", "3", Num(3))
  }

  lemma ExampleNameValid()
    ensures NameError("Ann Lee") == ""
  {
    assert NameShape("Ann Lee");
  }

  lemma ExampleEmailValid()
    ensures EmailError("ann@infosys.com") == ""
  {
    assert LocalPart("ann");
    assert "ann@infosys.com" == "ann" + Domain;
  }

  lemma ExampleFormValid()
    ensures IsFormValid(ExampleForm())
  {
    StrongExamples();
    ExampleNameValid();
    ExampleEmailValid();
  }

  /**
   * A concrete run: the six fields typed in order with "Secret1!" confirmed,
   * then the password changed to "Secret2!"; the form still reports itself valid.
   */
  lemma StaleConfirmationExample()
    ensures Apply(Initial(), FillIn("Ann Lee", "ann@infosys.com", "Secret1!", "Secret1!", "employee", "3", Num(3)))
      == ExampleForm()
    ensures var g := Change(ExampleForm(), Edit(Password, "Secret2!", NaN));
      IsFormValid(g) && g.password == "Secret2!" && g.confirmPassword == "Secret1!"
  {
    ApplyFillIn("Ann Lee", "ann@infosys.com", "Secret1!", "Secret1!", "employee", "3", Num(3));
    ExampleFormValid();
    StrongExamples();
    StaleConfirmation(ExampleForm(), "Secret2!");
  }

  lemma {:induction false} ApplyConcat(f: Form, a: seq<Edit>, b: seq<Edit>)
    ensures Apply(f, a + b) == Apply(Apply(f, a), b)
    decreases |a|
  {
    if a == [] {
      assert a + b == b;
    } else {
      assert (a + b)[0] == a[0] && (a + b)[1..] == a[1..] + b;
      ApplyConcat(Change(f, a[0]), a[1..], b);
    }
  }

  /** `handleChange` with the confirmation re-checked whenever the password changes. */
  function ChangeChecked(f: Form, e: Edit): (g: Form)
    ensures e.field != Password ==> g == Change(f, e)
    ensures e.field == Password ==> (g.password == e.text && g.confirmPassword == f.confirmPassword
      && (f.confirmPassword != "" ==> g.errors.confirmPassword == ConfirmError(f.confirmPassword, e.text)))
  {
    var g := Change(f, e);
    if e.field == Password && f.confirmPassword != "" then
      g.(errors := g.errors.(confirmPassword := ConfirmError(f.confirmPassword, e.text)))
    else g
  }

  function ApplyChecked(f: Form, edits: seq<Edit>): Form
    decreases |edits|
  {
    if edits == [] then f else ApplyChecked(ChangeChecked(f, edits[0]), edits[1..])
  }

  /** One re-checked edit keeps every stored error in step with its field. */
  lemma ChangeCheckedTracks(f: Form, e: Edit)
    requires FieldsTracked(f) && ConfirmTracked(f)
    ensures FieldsTracked(ChangeChecked(f, e)) && ConfirmTracked(ChangeChecked(f, e))
  {
    var g := ChangeChecked(f, e);
    if e.field == Password {
      assert g.errors.password == PasswordErrors(g.password);
      assert g.errors.name == f.errors.name && g.name == f.name;
      assert g.errors.email == f.errors.email && g.email == f.email;
      assert g.errors.role == f.errors.role && g.role == f.role;
      assert g.errors.experience == f.errors.experience && g.experience == f.experience
        && g.experienceNumber == f.experienceNumber;
    } else {
      assert g == Change(f, e);
    }
  }

  lemma {:induction false} ApplyCheckedTracks(f: Form, edits: seq<Edit>)
    requires FieldsTracked(f) && ConfirmTracked(f)
    ensures FieldsTracked(ApplyChecked(f, edits)) && ConfirmTracked(ApplyChecked(f, edits))
    decreases |edits|
  {
    if edits != [] {
      ChangeCheckedTracks(f, edits[0]);
      ApplyCheckedTracks(ChangeChecked(f, edits[0]), edits[1..]);
    }
  }

  /** With the confirmation re-checked, a valid form always has matching passwords. */
  lemma CheckedValidFormMatches(edits: seq<Edit>)
    ensures var f := ApplyChecked(Initial(), edits);
      IsFormValid(f) ==> FieldsPass(f) && f.confirmPassword == f.password
  {
    ApplyCheckedTracks(Initial(), edits);
    EmailShapeIff(ApplyChecked(Initial(), edits).email);
  }

  /**
   * `handleSubmit`: nothing is sent unless the form is valid; the body drops
   * the confirmation and converts the experience with `Number(...)`.
   */
  function Submission(f: Form): (r: Option<Accounts.Registration>)
    ensures r.Some? <==> IsFormValid(f)
    ensures r.Some? ==> (r.value.name == Some(f.name) && r.value.email == Some(f.email)
      && r.value.password == Some(f.password) && r.value.role == Some(f.role)
      && r.value.experience == f.experienceNumber)
  {
    if !IsFormValid(f) then None
    else Some(Accounts.Registration(Some(f.name), Some(f.email), Some(f.password), f.experienceNumber, Some(f.role)))
  }

  /**
   * What the form submits passes the server's required-field and role checks
   * whenever the role came from the drop-down, and its experience is stored as given.
   */
  lemma SubmissionAcceptedByServer(edits: seq<Edit>)
    requires Apply(Initial(), edits).role in RoleOptions()
    ensures var f := Apply(Initial(), edits);
      Submission(f).Some? ==> (
        && Accounts.RegistrationValid(Submission(f).value)
        && f.experienceNumber.Num?
        && OrZero(Submission(f).value.experience) == f.experienceNumber.value
        && 0 <= f.experienceNumber.value <= 50)
  {
    ValidFormFieldsPass(edits);
  }
}

=== FILE: routes.dfy ===
/**
 * The three API routers (employeeRoutes.js, skillRoutes.js,
 * projectRoutes.js) read as permission tables: which method and path reach
 * which controller, behind which guards. A request path is given as its
 * segments (the URL path split on `/`, empty pieces dropped), relative to
 * the router's mount point.
 */
module Routes {
  import opened Js
  import opened Text
  import opened Collections
  import opened Schema
  import opened Gate
  import opened Upload

  datatype Method = Get | Post | Put | Patch | Delete

  /** A path pattern piece: literal text (written in lower case), or a `:name` parameter. */
  datatype Segment = Lit(text: string) | Param(name: string)

  /** The controller functions the routers hand requests to. */
  datatype Handler =
    | GetRegularEmployees | GetEmployeesWithApprovedSkills | GetEmployeeApprovedSkills
    | GetPendingUsers | GetApprovedUsers | VerifyUser | GetAllEmployees
    | CreateEmployee | UpdateEmployee
    | GetPendingSkills | ApproveSkill | RejectSkill | GetSkills | AddSkill | UpdateSkill | DeleteSkill
    | CreateProject | GetAllProjects | GetProjectById | UpdateProject | DeleteProject
    | AssignEmployees | RemoveEmployee | GetEmployeeProjects

  /**
   * One `router.<method>(path, ...middleware, handler)` line: whether it runs
   * `protect`, the `authorizeRoles` list if any, and whether it runs the
   * certificate upload.
   */
  datatype Route = Route(verb: Method, pattern: seq<Segment>, protect: bool, roles: Option<seq<Role>>,
                         upload: bool, handler: Handler)

  /** A router: `protectAll` is a leading `router.use(protect)`. */
  datatype Router = Router(protectAll: bool, routes: seq<Route>)

  /** The parts of a request the routing layer looks at. */
  datatype Request = Request(verb: Method, path: seq<string>, authorization: Option<string>, file: Option<FileInput>)

  /**
   * What the routing layer does with a request: answer it itself, or hand it
   * to a controller with `req.user`, the path parameters in pattern order and
   * the upload result (`NoFile` where the route runs no upload).
   */
  datatype Outcome =
    | Answer(reply: Reply)
    | Dispatch(handler: Handler, user: Option<Payload>, params: seq<string>, upload: UploadOutcome)

  /** Routers match paths case-insensitively; a parameter takes one non-empty segment. */
  predicate SegmentMatches(p: Segment, s: string) {
    match p
    case Lit(t) => Lower(s) == t
    case Param(_) => s != ""
  }

  predicate PathMatches(pattern: seq<Segment>, path: seq<string>) {
    |pattern| == |path| && forall i :: 0 <= i < |path| ==> SegmentMatches(pattern[i], path[i])
  }

  predicate RouteMatches(r: Route, m: Method, path: seq<string>) {
    r.verb == m && PathMatches(r.pattern, path)
  }

  /** Express tries routes in declaration order and the first match wins. */
  function FindRoute(routes: seq<Route>, m: Method, path: seq<string>): (r: Option<nat>)
    ensures r.Some? ==> r.value < |routes| && RouteMatches(routes[r.value], m, path)
    ensures r.Some? ==> forall j :: 0 <= j < r.value ==> !RouteMatches(routes[j], m, path)
    ensures r.None? <==> forall j :: 0 <= j < |routes| ==> !RouteMatches(routes[j], m, path)
  {
    FindFirst(routes, (x: Route) => RouteMatches(x, m, path))
  }

  /** The path segments standing at the pattern's parameters, in order (`req.params`). */
  function Params(pattern: seq<Segment>, path: seq<string>): (r: seq<string>)
    requires |pattern| == |path|
    ensures |r| <= |path|
    ensures forall i :: 0 <= i < |r| ==> r[i] in path
    decreases |path|
  {
    if path == [] then []
    else if pattern[0].Param? then [path[0]] + Params(pattern[1..], path[1..])
    else Params(pattern[1..], path[1..])
  }

  /** The route's middleware after the match: `protect`, `authorizeRoles`, the upload wrapper. */
  function RunRoute(guarded: bool, route: Route, req: Request, decode: string -> Option<Token>, now: int, nowMs: nat)
    : (o: Outcome)
    requires |route.pattern| == |req.path|
  {
    var admission := if guarded then Protect(req.authorization, decode, now) else Deny(Reply(0, ""));
    if guarded && admission.Deny? then Answer(admission.reply)
    else
      var user := if guarded then Some(admission.user) else None;
      if route.roles.Some? && AuthorizeRoles(user, route.roles.value).Stop? then
        Answer(AuthorizeRoles(user, route.roles.value).reply)
      else
        var received := if route.upload then ReceiveFile(req.file, nowMs) else NoFile;
        if received.UploadError? then Answer(Reply(400, received.message))
        else Dispatch(route.handler, user, Params(route.pattern, req.path), received)
  }

  /**
   * A request through one router at time `now` (seconds; `nowMs` in
   * milliseconds for upload names). A leading `router.use(protect)` runs
   * before any matching, so it also answers paths no route matches; a path no
   * route matches otherwise falls through to Express's 404.
   */
  function Serve(router: Router, req: Request, decode: string -> Option<Token>, now: int, nowMs: nat): (o: Outcome)
    ensures router.protectAll && Protect(req.authorization, decode, now).Deny? ==>
      o == Answer(Protect(req.authorization, decode, now).reply)
    ensures o.Dispatch? ==> (
      && FindRoute(router.routes, req.verb, req.path).Some?
      && o.handler == router.routes[FindRoute(router.routes, req.verb, req.path).value].handler)
    ensures o.Dispatch? && (router.protectAll || router.routes[FindRoute(router.routes, req.verb, req.path).value].protect)
      ==> o.user.Some? && Protect(req.authorization, decode, now) == Admit(o.user.value)
    ensures o.Dispatch? && router.routes[FindRoute(router.routes, req.verb, req.path).value].roles.Some? ==> (
      && o.user.Some?
      && exists x :: (x in router.routes[FindRoute(router.routes, req.verb, req.path).value].roles.value
        && RoleName(x) == o.user.value.role))
  {
    if router.protectAll && Protect(req.authorization, decode, now).Deny? then
      Answer(Protect(req.authorization, decode, now).reply)
    else
      match FindRoute(router.routes, req.verb, req.path)
      case None => Answer(Reply(404, ""))
      case Some(i) => RunRoute(router.protectAll || router.routes[i].protect, router.routes[i], req, decode, now, nowMs)
  }

  function HrOnly(): seq<Role> { [HR] }
  function VerifierOnly(): seq<Role> { [Verifier] }
  function AdminOnly(): seq<Role> { [Admin] }
  function HrOrVerifier(): seq<Role> { [HR, Verifier] }
  function HrOrAdmin(): seq<Role> { [HR, Admin] }

  /** employeeRoutes.js, mounted at `/api/employees`. */
  function EmployeeRouter(): Router {
    Router(true, [
      Route(Get, [Lit("regular")], false, Some(HrOnly()), false, GetRegularEmployees),
      Route(Get, [Lit("employees-skills")], false, Some(HrOnly()), false, GetEmployeesWithApprovedSkills),
      Route(Get, [Param("employeeId"), Lit("approved-skills")], false, Some(HrOnly()), false, GetEmployeeApprovedSkills),
      Route(Get, [Lit("pending-users")], false, Some(VerifierOnly()), false, GetPendingUsers),
      Route(Get, [Lit("approved-users")], false, Some(VerifierOnly()), false, GetApprovedUsers),
      Route(Put, [Lit("verify"), Param("id")], false, Some(VerifierOnly()), false, VerifyUser),
      Route(Get, [Lit("admin"), Lit("all-users")], false, Some(AdminOnly()), false, GetAllEmployees)
    ])
  }

  /** skillRoutes.js, mounted at `/api/skills`. */
  function SkillRouter(): Router {
    Router(false, [
      Route(Get, [Lit("pending")], true, Some(HrOrVerifier()), false, GetPendingSkills),
      Route(Patch, [Param("id"), Lit("approve")], true, Some(HrOrVerifier()), false, ApproveSkill),
      Route(Patch, [Param("id"), Lit("reject")], true, Some(HrOrVerifier()), false, RejectSkill),
      Route(Get, [Param("employeeId")], true, None, false, GetSkills),
      Route(Post, [], true, None, true, AddSkill),
      Route(Put, [Param("id")], true, None, true, UpdateSkill),
      Route(Delete, [Param("id")], true, None, false, DeleteSkill)
    ])
  }

  /** projectRoutes.js, mounted at `/api/projects`. */
  function ProjectRouter(): Router {
    Router(false, [
      Route(Post, [], true, Some(HrOrAdmin()), false, CreateProject),
      Route(Get, [], true, None, false, GetAllProjects),
      Route(Get, [Param("id")], true, None, false, GetProjectById),
      Route(Put, [Param("id")], true, Some(HrOrAdmin()), false, UpdateProject),
      Route(Delete, [Param("id")], true, Some(HrOrAdmin()), false, DeleteProject),
      Route(Post, [Param("id"), Lit("assign")], true, Some(HrOrAdmin()), false, AssignEmployees),
      Route(Delete, [Param("id"), Lit("employees"), Param("employeeId")], true, Some(HrOrAdmin()), false, RemoveEmployee),
      Route(Get, [Lit("employee"), Param("employeeId")], true, None, false, GetEmployeeProjects)
    ])
  }

  /**
   * The permission table, handler by handler: `None` for any signed-in user,
   * otherwise the roles admitted. Handlers no route reaches are listed as open.
   */
  function Permission(h: Handler): Option<seq<Role>> {
    match h
    case GetRegularEmployees => Some([HR])
    case GetEmployeesWithApprovedSkills => Some([HR])
    case GetEmployeeApprovedSkills => Some([HR])
    case GetPendingUsers => Some([Verifier])
    case GetApprovedUsers => Some([Verifier])
    case VerifyUser => Some([Verifier])
    case GetAllEmployees => Some([Admin])
    case GetPendingSkills => Some([HR, Verifier])
    case ApproveSkill => Some([HR, Verifier])
    case RejectSkill => Some([HR, Verifier])
    case CreateProject => Some([HR, Admin])
    case UpdateProject => Some([HR, Admin])
    case DeleteProject => Some([HR, Admin])
    case AssignEmployees => Some([HR, Admin])
    case RemoveEmployee => Some([HR, Admin])
    case _ => None
  }

  /** Does the table let a user whose token claims `role` call `h`? */
  predicate Permits(h: Handler, role: string) {
    Permission(h).None? || exists x :: x in Permission(h).value && RoleName(x) == role
  }

  /**
   * Every route is behind `protect`, carries the table's role list, and is
   * not an account creation or update.
   */
  predicate FollowsTable(router: Router) {
    forall i :: 0 <= i < |router.routes| ==> (
      && (router.protectAll || router.routes[i].protect)
      && router.routes[i].roles == Permission(router.routes[i].handler)
      && router.routes[i].handler != CreateEmployee && router.routes[i].handler != UpdateEmployee)
  }

  /** employeeRoutes.js agrees with the permission table. */
  lemma EmployeeRouterFollowsTable()
    ensures FollowsTable(EmployeeRouter())
  {
  }

  /** skillRoutes.js agrees with the permission table. */
  lemma SkillRouterFollowsTable()
    ensures FollowsTable(SkillRouter())
  {
  }

  /** projectRoutes.js agrees with the permission table. */
  lemma ProjectRouterFollowsTable()
    ensures FollowsTable(ProjectRouter())
  {
  }

  /**
   * A request reaches a controller exactly when a route matches, its token is
   * valid, the table admits the token's role, and no upload error stops it;
   * the controller then sees the token's claims as `req.user`.
   */
  lemma ServeIff(router: Router, req: Request, decode: string -> Option<Token>, now: int, nowMs: nat)
    requires FollowsTable(router)
    ensures var o := Serve(router, req, decode, now, nowMs);
      var found := FindRoute(router.routes, req.verb, req.path);
      var admission := Protect(req.authorization, decode, now);
      && (o.Dispatch? <==> (
          && found.Some?
          && admission.Admit?
          && Permits(router.routes[found.value].handler, admission.user.role)
          && !(router.routes[found.value].upload && ReceiveFile(req.file, nowMs).UploadError?)))
      && (o.Dispatch? ==> o.user == Some(admission.user) && o.handler == router.routes[found.value].handler)
  {
  }

  /** Without a valid token nothing in the three routers reaches a controller; the answer is 401 or a 404. */
  lemma NoTokenNoHandler(router: Router, req: Request, decode: string -> Option<Token>, now: int, nowMs: nat)
    requires FollowsTable(router)
    requires Protect(req.authorization, decode, now).Deny?
    ensures Serve(router, req, decode, now, nowMs).Answer?
    ensures Serve(router, req, decode, now, nowMs).reply.code in {401, 404}
    ensures FindRoute(router.routes, req.verb, req.path).Some? ==>
      Serve(router, req, decode, now, nowMs) == Answer(Protect(req.authorization, decode, now).reply)
  {
    ServeIff(router, req, decode, now, nowMs);
  }

  /**
   * `router.use(protect)` guards the whole employee router: a request without
   * a valid token gets protect's 401 whatever its path, even one no route has.
   */
  lemma EmployeeRouterAlwaysGuarded(req: Request, decode: string -> Option<Token>, now: int, nowMs: nat)
    requires Protect(req.authorization, decode, now).Deny?
    ensures Serve(EmployeeRouter(), req, decode, now, nowMs) == Answer(Protect(req.authorization, decode, now).reply)
    ensures Serve(EmployeeRouter(), req, decode, now, nowMs).reply.code == 401
  {
  }

  /** In the skill and project routers `protect` is per route, so an unknown path is a plain 404. */
  lemma UnknownPathNotGuarded(router: Router, req: Request, decode: string -> Option<Token>, now: int, nowMs: nat)
    requires router == SkillRouter() || router == ProjectRouter()
    requires FindRoute(router.routes, req.verb, req.path).None?
    ensures Serve(router, req, decode, now, nowMs) == Answer(Reply(404, ""))
  {
  }

  /** No route of a router following the table reaches account creation or update. */
  lemma NoAccountWriteRoute(router: Router, req: Request, decode: string -> Option<Token>, now: int, nowMs: nat)
    requires FollowsTable(router)
    ensures Serve(router, req, decode, now, nowMs).Dispatch? ==>
      Serve(router, req, decode, now, nowMs).handler != CreateEmployee
      && Serve(router, req, decode, now, nowMs).handler != UpdateEmployee
  {
  }

  /**
   * `/pending` is declared before `/:employeeId`, so `GET /pending` (in any
   * letter case) is the pending-skills listing, never one employee's skills.
   */
  lemma PendingRouteFirst(segment: string)
    requires Lower(segment) == "pending"
    ensures FindRoute(SkillRouter().routes, Get, [segment]) == Some(0)
    ensures SkillRouter().routes[0].handler == GetPendingSkills
  {
    assert RouteMatches(SkillRouter().routes[0], Get, [segment]);
  }

  /** Any other single segment is an employee id for `GET /:employeeId`. */
  lemma EmployeeSkillsRoute(segment: string)
    requires segment != "" && Lower(segment) != "pending"
    ensures FindRoute(SkillRouter().routes, Get, [segment]) == Some(3)
    ensures Params(SkillRouter().routes[3].pattern, [segment]) == [segment]
  {
    assert !SegmentMatches(Lit("pending"), segment);
    var pattern, path := [Lit("pending")], [segment];
    assert pattern[0] == Lit("pending") && path[0] == segment;
    assert !PathMatches(pattern, path);
    assert !RouteMatches(SkillRouter().routes[0], Get, [segment]);
    assert RouteMatches(SkillRouter().routes[3], Get, [segment]);
  }

  lemma EighthProjectRoute()
    ensures ProjectRouter().routes[7] == Route(Get, [Lit("employee"), Param("employeeId")], true, None, false,
      GetEmployeeProjects)
  {
  }

  /** A literal followed by a parameter matches that literal and any id, and passes the id on. */
  lemma LitParamMatches(lit: string, name: string, id: string)
    requires Lower(lit) == lit && id != ""
    ensures PathMatches([Lit(lit), Param(name)], [lit, id])
    ensures Params([Lit(lit), Param(name)], [lit, id]) == [id]
  {
    var pattern: seq<Segment>, path := [Lit(lit), Param(name)], [lit, id];
    assert SegmentMatches(pattern[0], path[0]) && SegmentMatches(pattern[1], path[1]);
    assert pattern[1..] == [Param(name)] && path[1..] == [id];
  }

  /** The eighth project route matches `GET /employee/<id>` and passes the id as its one parameter. */
  lemma EmployeeProjectsMatches(id: string)
    requires id != ""
    ensures RouteMatches(ProjectRouter().routes[7], Get, ["employee", id])
    ensures Params(ProjectRouter().routes[7].pattern, ["employee", id]) == [id]
  {
    EighthProjectRoute();
    LowerNoCapitals("employee");
    LitParamMatches("employee", "employeeId", id);
  }

  /** No route before the eighth is a two-segment `GET`. */
  lemma NoEarlierTwoSegmentGet(path: seq<string>)
    requires |path| == 2
    ensures forall j :: 0 <= j < 7 ==> !RouteMatches(ProjectRouter().routes[j], Get, path)
  {
    var routes := ProjectRouter().routes;
    forall j | 0 <= j < 7
      ensures !RouteMatches(routes[j], Get, path)
    {
      assert routes[j].verb != Get || |routes[j].pattern| != 2;
    }
  }

  /** `GET /employee/:employeeId` has two segments, so `GET /:id` never takes it. */
  lemma EmployeeProjectsRoute(id: string)
    requires id != ""
    ensures FindRoute(ProjectRouter().routes, Get, ["employee", id]) == Some(7)
    ensures ProjectRouter().routes[7].handler == GetEmployeeProjects
    ensures Params(ProjectRouter().routes[7].pattern, ["employee", id]) == [id]
  {
    var path := ["employee", id];
    EmployeeProjectsMatches(id);
    NoEarlierTwoSegmentGet(path);
    FirstMatch(ProjectRouter().routes, Get, path, 7);
  }

  /** A matching route with no matching route before it is the one found. */
  lemma FirstMatch(routes: seq<Route>, m: Method, path: seq<string>, k: nat)
    requires k < |routes| && RouteMatches(routes[k], m, path)
    requires forall j :: 0 <= j < k ==> !RouteMatches(routes[j], m, path)
    ensures FindRoute(routes, m, path) == Some(k)
  {
    var found := FindRoute(routes, m, path);
    assert found.Some?;
  }

  /**
   * A file the upload filter refuses on `POST /api/skills` stops the request
   * with 400 before the controller runs, even for a valid token.
   */
  lemma RefusedUploadStopsAddSkill(req: Request, decode: string -> Option<Token>, now: int, nowMs: nat)
    requires req.verb == Post && req.path == []
    requires Protect(req.authorization, decode, now).Admit?
    requires req.file.Some? && !Accepts(req.file.value.originalname, req.file.value.mimetype)
    ensures Serve(SkillRouter(), req, decode, now, nowMs) == Answer(Reply(400, TypeError))
  {
    AddSkillRouteFound();
    FifthSkillRoute();
    assert Serve(SkillRouter(), req, decode, now, nowMs)
      == RunRoute(true, SkillRouter().routes[4], req, decode, now, nowMs);
    RunAddSkillRefused(req, decode, now, nowMs);
  }

  lemma FifthSkillRoute()
    ensures SkillRouter().routes[4] == Route(Post, [], true, None, true, AddSkill)
  {
  }

  /** The add-skill route's middleware answers 400 for a refused file once the token passes. */
  lemma RunAddSkillRefused(req: Request, decode: string -> Option<Token>, now: int, nowMs: nat)
    requires req.path == []
    requires Protect(req.authorization, decode, now).Admit?
    requires req.file.Some? && !Accepts(req.file.value.originalname, req.file.value.mimetype)
    ensures RunRoute(true, Route(Post, [], true, None, true, AddSkill), req, decode, now, nowMs)
      == Answer(Reply(400, TypeError))
  {
    assert ReceiveFile(req.file, nowMs) == UploadError(TypeError);
  }

  /** `POST /` reaches the fifth skill route, the only one running the upload before it. */
  lemma AddSkillRouteFound()
    ensures FindRoute(SkillRouter().routes, Post, []) == Some(4)
  {
    var routes := SkillRouter().routes;
    assert RouteMatches(routes[4], Post, []);
    forall j | 0 <= j < 4
      ensures !RouteMatches(routes[j], Post, [])
    {
      assert routes[j].verb != Post;
    }
    FirstMatch(routes, Post, [], 4);
  }

  /** Listing projects is open to every signed-in user, whatever the role. */
  lemma ListProjectsOpen(req: Request, decode: string -> Option<Token>, now: int, nowMs: nat)
    requires req.verb == Get && req.path == []
    requires Protect(req.authorization, decode, now).Admit?
    ensures Serve(ProjectRouter(), req, decode, now, nowMs)
      == Dispatch(GetAllProjects, Some(Protect(req.authorization, decode, now).user), [], NoFile)
  {
    assert !RouteMatches(ProjectRouter().routes[0], Get, []);
    assert RouteMatches(ProjectRouter().routes[1], Get, []);
    FirstMatch(ProjectRouter().routes, Get, [], 1);
  }

  /** `PUT /verify/:id` is the sixth employee route. */
  lemma VerifyRouteFound(id: string)
    requires id != ""
    ensures FindRoute(EmployeeRouter().routes, Put, ["verify", id]) == Some(5)
  {
    var routes := EmployeeRouter().routes;
    var path := ["verify", id];
    assert routes[5].pattern == [Lit("verify"), Param("id")];
    LowerNoCapitals("verify");
    LitParamMatches("verify", "id", id);
    assert RouteMatches(routes[5], Put, path);
    forall j | 0 <= j < 5
      ensures !RouteMatches(routes[j], Put, path)
    {
      assert routes[j].verb != Put;
    }
    FirstMatch(routes, Put, path, 5);
  }

  /** With a valid token, `PUT /verify/:id` runs the sixth route's middleware. */
  lemma ServeVerifyRoute(req: Request, id: string, decode: string -> Option<Token>, now: int, nowMs: nat)
    requires id != "" && req.verb == Put && req.path == ["verify", id]
    requires Protect(req.authorization, decode, now).Admit?
    ensures Serve(EmployeeRouter(), req, decode, now, nowMs) == RunRoute(true, EmployeeRouter().routes[5], req, decode, now, nowMs)
  {
    VerifyRouteFound(id);
  }

  /** Only a verifier's token gets through `PUT /verify/:id`; any other role text gets 403 naming it. */
  lemma OnlyVerifierVerifies(req: Request, id: string, decode: string -> Option<Token>, now: int, nowMs: nat)
    requires id != "" && req.verb == Put && req.path == ["verify", id]
    requires Protect(req.authorization, decode, now).Admit?
    ensures var user := Protect(req.authorization, decode, now).user;
      && (user.role == "verifier" ==> Serve(EmployeeRouter(), req, decode, now, nowMs) == Dispatch(VerifyUser, Some(user), [id], NoFile))
      && (user.role != "verifier" ==>
            Serve(EmployeeRouter(), req, decode, now, nowMs) == Answer(Reply(403, "Access Denied: Role '" + user.role + "' is not authorized")))
  {
    ServeVerifyRoute(req, id, decode, now, nowMs);
    SixthEmployeeRoute();
    RunVerifyRoute(req, id, decode, now, nowMs);
  }

  /** The verify route's middleware: the verifier reaches `verifyUser` with the id, anyone else gets 403. */
  lemma RunVerifyRoute(req: Request, id: string, decode: string -> Option<Token>, now: int, nowMs: nat)
    requires id != "" && req.path == ["verify", id]
    requires Protect(req.authorization, decode, now).Admit?
    ensures var user := Protect(req.authorization, decode, now).user;
      var run := RunRoute(true, Route(Put, [Lit("verify"), Param("id")], false, Some([Verifier]), false, VerifyUser),
        req, decode, now, nowMs);
      && (user.role == "verifier" ==> run == Dispatch(VerifyUser, Some(user), [id], NoFile))
      && (user.role != "verifier" ==> run == Answer(Reply(403, "Access Denied: Role '" + user.role + "' is not authorized")))
  {
    var user := Protect(req.authorization, decode, now).user;
    LowerNoCapitals("verify");
    LitParamMatches("verify", "id", id);
    VerifierRoleOnly(user);
  }

  lemma SixthEmployeeRoute()
    ensures EmployeeRouter().routes[5] == Route(Put, [Lit("verify"), Param("id")], false, Some([Verifier]), false,
      VerifyUser)
  {
  }

  /** The verifier-only list admits exactly the role text "verifier". */
  lemma VerifierRoleOnly(user: Payload)
    ensures user.role == "verifier" ==> AuthorizeRoles(Some(user), [Verifier]) == Next
    ensures user.role != "verifier" ==> AuthorizeRoles(Some(user), [Verifier]).Stop?
  {
    assert RoleName(Verifier) == "verifier";
    if user.role == "verifier" {
      assert Verifier in [Verifier];
    }
  }
}

=== FILE: schema.dfy ===
/**
 * The three document schemas (accounts, skill claims, projects) as datatypes,
 * and the database as three collections in natural (insertion) order.
 *
 * Enumerated string fields become Dafny enumerations; `ParseX` is the schema's
 * enum validator, turning the stored text into a value or rejecting it.
 */
module Schema {
  import opened Js
  import opened Collections

  /** Document ids (MongoDB ObjectIds), compared as their string form. */
  type Id = string

  datatype Role = Employee | Verifier | HR | Admin

  function RoleName(r: Role): string {
    match r
    case Employee => "employee"
    case Verifier => "verifier"
    case HR => "hr"
    case Admin => "admin"
  }

  /** The `role` enum validator: accepts exactly the four role names. */
  function ParseRole(s: string): (r: Option<Role>)
    ensures r.Some? ==> RoleName(r.value) == s
    ensures r.None? <==> forall x: Role :: RoleName(x) != s
  {
    if s == "employee" then Some(Employee)
    else if s == "verifier" then Some(Verifier)
    else if s == "hr" then Some(HR)
    else if s == "admin" then Some(Admin)
    else None
  }

  /** Approval state shared by accounts and skill claims. */
  datatype Approval = Pending | Approved | Rejected

  function ApprovalName(a: Approval): string {
    match a
    case Pending => "pending"
    case Approved => "approved"
    case Rejected => "rejected"
  }

  /** The `status` enum validator of the account and skill schemas. */
  function ParseApproval(s: string): (r: Option<Approval>)
    ensures r.Some? ==> ApprovalName(r.value) == s
    ensures r.None? <==> forall x: Approval :: ApprovalName(x) != s
  {
    if s == "pending" then Some(Pending)
    else if s == "approved" then Some(Approved)
    else if s == "rejected" then Some(Rejected)
    else None
  }

  datatype Proficiency = Beginner | Intermediate | Expert

  function ProficiencyName(p: Proficiency): string {
    match p
    case Beginner => "Beginner"
    case Intermediate => "Intermediate"
    case Expert => "Expert"
  }

  /** The `proficiencyLevel` enum validator (skill claims and required skills). */
  function ParseProficiency(s: string): (r: Option<Proficiency>)
    ensures r.Some? ==> ProficiencyName(r.value) == s
    ensures r.None? <==> forall x: Proficiency :: ProficiencyName(x) != s
  {
    if s == "Beginner" then Some(Beginner)
    else if s == "Intermediate" then Some(Intermediate)
    else if s == "Expert" then Some(Expert)
    else None
  }

  datatype ProjectStatus = NotStarted | InProgress | Completed | OnHold

  function ProjectStatusName(s: ProjectStatus): string {
    match s
    case NotStarted => "Not Started"
    case InProgress => "In Progress"
    case Completed => "Completed"
    case OnHold => "On Hold"
  }

  /** The project `status` enum validator. */
  function ParseProjectStatus(s: string): (r: Option<ProjectStatus>)
    ensures r.Some? ==> ProjectStatusName(r.value) == s
    ensures r.None? <==> forall x: ProjectStatus :: ProjectStatusName(x) != s
  {
    if s == "Not Started" then Some(NotStarted)
    else if s == "In Progress" then Some(InProgress)
    else if s == "Completed" then Some(Completed)
    else if s == "On Hold" then Some(OnHold)
    else None
  }

  /** Each enum name is read back as the value it names. */
  lemma EnumRoundTrips(r: Role, a: Approval, p: Proficiency, s: ProjectStatus)
    ensures ParseRole(RoleName(r)) == Some(r)
    ensures ParseApproval(ApprovalName(a)) == Some(a)
    ensures ParseProficiency(ProficiencyName(p)) == Some(p)
    ensures ParseProjectStatus(ProjectStatusName(s)) == Some(s)
  {
  }

  /**
   * A stored password. The pre-save hook stores `bcrypt.hash(plain)`; hashing
   * is modelled as an ideal one-way tag on the plain text, so `compare`
   * succeeds exactly for the plain text that was hashed.
   */
  datatype Credential = Hashed(secret: string)

  function Hash(plain: string): Credential {
    Hashed(plain)
  }

  /** `bcrypt.compare(plain, stored)`. */
  predicate Matches(plain: string, stored: Credential) {
    stored.secret == plain
  }

  /** An account document (employeeModel.js); timestamps are milliseconds. */
  datatype Account = Account(
    id: Id,
    name: string,
    email: string,
    password: Credential,
    role: Role,
    skills: seq<Id>,
    experience: int,
    status: Approval,
    createdAt: int,
    updatedAt: int)

  /** A `{label, url}` entry; `label` is a reserved word in Dafny. */
  datatype ProjectLink = ProjectLink(linkLabel: string, url: string)

  /** A skill-claim document (skillsModel.js). */
  datatype Skill = Skill(
    id: Id,
    employeeId: Id,
    skillName: string,
    description: Option<string>,
    proficiency: Proficiency,
    experienceYears: int,
    certificateFileUrl: Option<string>,
    projectLinks: seq<ProjectLink>,
    status: Approval,
    lastUpdated: int)

  datatype Assignment = Assignment(employeeId: Id, role: string, assignedDate: int)

  datatype RequiredSkill = RequiredSkill(skillName: string, proficiency: Proficiency)

  /** A project document (project.js). */
  datatype Project = Project(
    id: Id,
    name: string,
    description: string,
    startDate: int,
    endDate: int,
    status: ProjectStatus,
    assignedEmployees: seq<Assignment>,
    requiredSkills: seq<RequiredSkill>,
    createdBy: Id,
    createdAt: int,
    updatedAt: int)

  datatype Db = Db(accounts: seq<Account>, skills: seq<Skill>, projects: seq<Project>)

  /** A JSON reply: status code and the body's `message` (or `error`) text, "" when it has none. */
  datatype Reply = Reply(code: int, message: string)

  /** A handler's outcome when it answers either with data or with an error reply. */
  datatype Result<+T> = Success(value: T) | Failure(reply: Reply)

  /**
   * Stands for the text of a caught Mongoose error (a failed required or enum
   * validator, a value that does not cast, a duplicate key), which the
   * handlers send back as their error text.
   */
  const ValidationFailed: string := "validation failed"

  function AccountIds(accounts: seq<Account>): seq<Id> {
    Map(accounts, (a: Account) => a.id)
  }

  function AccountEmails(accounts: seq<Account>): seq<string> {
    Map(accounts, (a: Account) => a.email)
  }

  function SkillIds(skills: seq<Skill>): seq<Id> {
    Map(skills, (s: Skill) => s.id)
  }

  function ProjectIds(projects: seq<Project>): seq<Id> {
    Map(projects, (p: Project) => p.id)
  }

  /**
   * What the database guarantees: `_id` is unique in every collection and the
   * account `email` index is unique.
   */
  predicate DbValid(db: Db) {
    && Distinct(AccountIds(db.accounts))
    && Distinct(AccountEmails(db.accounts))
    && Distinct(SkillIds(db.skills))
    && Distinct(ProjectIds(db.projects))
  }

  /** `Model.findById` on accounts: the position of the account with that id. */
  function FindAccount(accounts: seq<Account>, id: Id): (r: Option<nat>)
    ensures r.Some? ==> r.value < |accounts| && accounts[r.value].id == id
    ensures r.None? <==> forall j :: 0 <= j < |accounts| ==> accounts[j].id != id
  {
    FindFirst(accounts, (a: Account) => a.id == id)
  }

  /** `findOne({email})`: the first account holding that email. */
  function FindByEmail(accounts: seq<Account>, email: string): (r: Option<nat>)
    ensures r.Some? ==> r.value < |accounts| && accounts[r.value].email == email
    ensures r.Some? ==> forall j :: 0 <= j < r.value ==> accounts[j].email != email
    ensures r.None? <==> forall j :: 0 <= j < |accounts| ==> accounts[j].email != email
  {
    FindFirst(accounts, (a: Account) => a.email == email)
  }

  function FindSkill(skills: seq<Skill>, id: Id): (r: Option<nat>)
    ensures r.Some? ==> r.value < |skills| && skills[r.value].id == id
    ensures r.None? <==> forall j :: 0 <= j < |skills| ==> skills[j].id != id
  {
    FindFirst(skills, (s: Skill) => s.id == id)
  }

  function FindProject(projects: seq<Project>, id: Id): (r: Option<nat>)
    ensures r.Some? ==> r.value < |projects| && projects[r.value].id == id
    ensures r.None? <==> forall j :: 0 <= j < |projects| ==> projects[j].id != id
  {
    FindFirst(projects, (p: Project) => p.id == id)
  }

  /** With unique ids, the account found by id is the only one carrying it. */
  lemma FindAccountUnique(accounts: seq<Account>, id: Id, j: nat)
    requires Distinct(AccountIds(accounts))
    requires j < |accounts| && accounts[j].id == id
    ensures FindAccount(accounts, id) == Some(j)
  {
  }
}

=== FILE: skillform.dfy ===
/**
 * The employee's skill form (pages/employee/dashboard.jsx) and what it
 * sends through SkillService.js: the experience clamp, the project-link
 * list editing, the certificate pre-check, the checks run on submit, and
 * the status chip and edit controls of a listed claim.
 */
module SkillForm {
  import opened Js
  import opened Text
  import opened Collections
  import opened Schema
  import Upload
  import Skills

  /** The form state; `experienceYears` holds the clamped number. */
  datatype FormData = FormData(
    skillName: string,
    skillDescription: string,
    proficiencyLevel: string,
    experienceYears: int,
    certificateFile: Option<Upload.FileInput>,
    projectLinks: seq<ProjectLink>)

  function BlankLink(): ProjectLink { ProjectLink("", "") }

  /** The form as "Add Skill" and "Cancel" reset it: one blank project link. */
  function Fresh(): FormData {
    FormData("", "", "Beginner", 0, None, [BlankLink()])
  }

  /** `Math.max(0, parseInt(value) || 0)`. */
  function ClampExperience(n: NumberValue): (r: int)
    ensures r >= 0
    ensures n.Num? && n.value >= 0 ==> r == n.value
    ensures n.NaN? || n.value < 0 ==> r == 0
  {
    Max(0, OrZero(n))
  }

  /** A clamped value typed back in comes out unchanged. */
  lemma ClampIdempotent(n: NumberValue)
    ensures ClampExperience(Num(ClampExperience(n))) == ClampExperience(n)
  {
  }

  datatype LinkField = LinkLabel | LinkUrl

  /** `updatedLinks[index][field] = value`. */
  function UpdateLink(links: seq<ProjectLink>, i: nat, field: LinkField, value: string): (r: seq<ProjectLink>)
    requires i < |links|
    ensures |r| == |links|
    ensures forall j :: 0 <= j < |links| && j != i ==> r[j] == links[j]
    ensures field == LinkLabel ==> r[i] == ProjectLink(value, links[i].url)
    ensures field == LinkUrl ==> r[i] == ProjectLink(links[i].linkLabel, value)
  {
    match field
    case LinkLabel => links[i := links[i].(linkLabel := value)]
    case LinkUrl => links[i := links[i].(url := value)]
  }

  /** `addProjectLink`: a blank link at the end. */
  function AddLink(links: seq<ProjectLink>): (r: seq<ProjectLink>)
    ensures |r| == |links| + 1 && r[..|links|] == links && r[|links|] == BlankLink()
  {
    links + [BlankLink()]
  }

  /** `filter((_, i) => i !== index)`: position `i` dropped, the rest kept in order. */
  function RemoveLink(links: seq<ProjectLink>, i: nat): (r: seq<ProjectLink>)
    ensures i >= |links| ==> r == links
    ensures i < |links| ==> |r| == |links| - 1
    ensures forall j :: 0 <= j < |r| ==> r[j] == if j < i then links[j] else links[j + 1]
  {
    if i < |links| then links[..i] + links[i + 1..] else links
  }

  /** Removing the link just added gives back the list it was added to. */
  lemma RemoveUndoesAdd(links: seq<ProjectLink>)
    ensures RemoveLink(AddLink(links), |links|) == links
  {
    assert AddLink(links)[..|links|] == links;
  }

  /** The browser's pre-check of a chosen certificate: size first, then the declared type. */
  function ClientFileCheck(f: Upload.FileInput): (r: Option<string>)
    ensures r.None? <==> (f.size <= Upload.MaxFileSize
      && f.mimetype in {"image/jpeg", "image/png", "application/pdf"})
    ensures f.size > Upload.MaxFileSize ==> r == Some("File size must be less than 5MB")
  {
    if f.size > 5 * 1024 * 1024 then Some("File size must be less than 5MB")
    else if f.mimetype !in ["image/jpeg", "image/png", "application/pdf"] then
      Some("Only PDF, JPG, and PNG files are allowed")
    else None
  }

  /**
   * A file the browser lets through is stored by the server exactly when its
   * name has an extension the server's filter allows: the browser looks at
   * the type only, the server at both.
   */
  lemma ClientPassedStoredIff(f: Upload.FileInput, now: nat)
    requires ClientFileCheck(f).None?
    ensures Upload.ReceiveFile(Some(f), now).Stored? <==> Upload.AllowedType(Lower(Upload.ExtName(f.originalname)))
  {
    if f.mimetype == "image/jpeg" {
      assert OccursAt(f.mimetype, "jpeg", 6);
    } else if f.mimetype == "image/png" {
      assert OccursAt(f.mimetype, "png", 6);
    } else {
      assert OccursAt(f.mimetype, "pdf", 12);
    }
  }

  /** A PNG named without an extension passes the browser and is refused by the server. */
  lemma ExtensionlessCertificateRefused(now: nat)
    ensures ClientFileCheck(Upload.FileInput("certificate", "image/png", 1000)).None?
    ensures Upload.ReceiveFile(Some(Upload.FileInput("certificate", "image/png", 1000)), now)
      == Upload.UploadError(Upload.TypeError)
  {
    Upload.NoExtensionRefused("certificate", "image/png");
  }

  /** The changes the page makes to the form. */
  datatype FormEdit =
    | SetName(name: string)
    | SetDescription(description: string)
    | SetProficiency(level: string)
    | SetExperience(number: NumberValue)
    | ChooseFile(file: Upload.FileInput)
    | EditLink(index: nat, field: LinkField, value: string)
    | AppendLink
    | DropLink(index: nat)

  /**
   * One change. A refused file leaves the form as it was; link indexes come
   * from the rendered list, so an index past its end is ignored.
   */
  function Change(f: FormData, e: FormEdit): (g: FormData)
    ensures e.SetExperience? ==> g.experienceYears == ClampExperience(e.number)
    ensures !e.SetExperience? ==> g.experienceYears == f.experienceYears
    ensures e.ChooseFile? && ClientFileCheck(e.file).None? ==> g == f.(certificateFile := Some(e.file))
    ensures e.ChooseFile? && ClientFileCheck(e.file).Some? ==> g == f
  {
    match e
    case SetName(v) => f.(skillName := v)
    case SetDescription(v) => f.(skillDescription := v)
    case SetProficiency(v) => f.(proficiencyLevel := v)
    case SetExperience(n) => f.(experienceYears := ClampExperience(n))
    case ChooseFile(file) =>
      if ClientFileCheck(file).None? then f.(certificateFile := Some(file)) else f
    case EditLink(i, field, v) =>
      if i < |f.projectLinks| then f.(projectLinks := UpdateLink(f.projectLinks, i, field, v)) else f
    case AppendLink => f.(projectLinks := AddLink(f.projectLinks))
    case DropLink(i) => f.(projectLinks := RemoveLink(f.projectLinks, i))
  }

  function Apply(f: FormData, edits: seq<FormEdit>): FormData
    decreases |edits|
  {
    if edits == [] then f else Apply(Change(f, edits[0]), edits[1..])
  }

  /** The checks `handleSubmit` runs before sending, in order; `None` when all pass. */
  function SubmitCheck(f: FormData): (r: Option<string>)
    ensures r.None? <==> !Blank(f.skillName) && f.proficiencyLevel != "" && f.experienceYears >= 0
    ensures Blank(f.skillName) ==> r == Some("Skill Name is required")
  {
    TrimEmptyIffBlank(f.skillName);
    if Trim(f.skillName) == "" then Some("Skill Name is required")
    else if f.proficiencyLevel == "" then Some("Proficiency Level is required")
    else if f.experienceYears < 0 then Some("Experience Years must be 0 or greater")
    else None
  }

  /** What the page can reach: a clamped experience and, if any, a certificate the browser accepted. */
  predicate Reachable(f: FormData) {
    f.experienceYears >= 0 && (f.certificateFile.Some? ==> ClientFileCheck(f.certificateFile.value).None?)
  }

  lemma {:induction false} ApplyReachable(f: FormData, edits: seq<FormEdit>)
    requires Reachable(f)
    ensures Reachable(Apply(f, edits))
    decreases |edits|
  {
    if edits != [] {
      ApplyReachable(Change(f, edits[0]), edits[1..]);
    }
  }

  /** The experience check on submit never fires: the input clamps every value to 0 or more. */
  lemma ExperienceCheckNeverFires(edits: seq<FormEdit>)
    ensures SubmitCheck(Apply(Fresh(), edits)) != Some("Experience Years must be 0 or greater")
    ensures Apply(Fresh(), edits).experienceYears >= 0
  {
    ApplyReachable(Fresh(), edits);
  }

  /** `link.label.trim() && link.url.trim()`. */
  predicate LinkFilled(l: ProjectLink) {
    Trim(l.linkLabel) != "" && Trim(l.url) != ""
  }

  /** `validProjectLinks`: the links with both a label and a URL, in order. */
  function ValidLinks(links: seq<ProjectLink>): (r: seq<ProjectLink>)
    ensures IsSubsequence(r, links)
    ensures forall i :: 0 <= i < |r| ==> !Blank(r[i].linkLabel) && !Blank(r[i].url)
    ensures forall i :: 0 <= i < |links| && !Blank(links[i].linkLabel) && !Blank(links[i].url) ==> links[i] in r
  {
    var r := Filter(links, LinkFilled);
    FilterIsSubsequence(links, LinkFilled);
    forall l: ProjectLink
      ensures LinkFilled(l) <==> !Blank(l.linkLabel) && !Blank(l.url)
    {
      TrimEmptyIffBlank(l.linkLabel);
      TrimEmptyIffBlank(l.url);
    }
    r
  }

  /** The `projectLinks` part of the multipart body: sent as JSON when the list is non-empty. */
  function LinksField(links: seq<ProjectLink>): (r: Skills.LinksInput)
    ensures r.Parsed? <==> links != []
    ensures r.Parsed? ==> r.links == links
    ensures !r.Malformed?
  {
    if |links| > 0 then Skills.Parsed(links) else Skills.Omitted
  }

  /**
   * `addSkill(id, formData)` as written: the checks pass, and then the raw
   * form is sent, not the trimmed name or the filtered links the handler
   * prepared. The experience goes as text and comes back as its number.
   */
  function AddRequest(f: FormData, owner: Id): (r: Option<Skills.SkillRequest>)
    ensures r.Some? <==> SubmitCheck(f).None?
    ensures r.Some? ==> (r.value.employeeId == Some(owner) && r.value.skillName == Some(f.skillName)
      && r.value.experienceYears == Some(Skills.Numeric(Num(f.experienceYears))) && r.value.projectLinks == LinksField(f.projectLinks))
  {
    if SubmitCheck(f).Some? then None
    else Some(Skills.SkillRequest(Some(owner), Some(f.skillName), Some(f.skillDescription),
                                  Some(f.proficiencyLevel), Some(Skills.Numeric(Num(f.experienceYears))), LinksField(f.projectLinks)))
  }

  /**
   * A fresh form with only a name and a known level typed in is accepted by
   * the server, and the claim it stores carries the blank link the form
   * starts with.
   */
  lemma BlankLinkStored(db: Db, owner: Id, name: string, level: Proficiency, id: Id, now: int)
    requires owner != "" && !Blank(name) && id !in SkillIds(db.skills)
    ensures var f := Apply(Fresh(), [SetName(name), SetProficiency(ProficiencyName(level))]);
      && AddRequest(f, owner).Some?
      && var after := Skills.AddSkill(db, AddRequest(f, owner).value, None, id, now);
      && after.0.code == 201
      && BlankLink() in after.1.skills[|db.skills|].projectLinks
  {
    var f := Apply(Fresh(), [SetName(name), SetProficiency(ProficiencyName(level))]);
    var e := [SetName(name), SetProficiency(ProficiencyName(level))];
    var f1 := Change(Fresh(), e[0]);
    var f2 := Change(f1, e[1]);
    assert Apply(f2, []) == f2;
    assert Apply(f1, e[1..]) == f2 by {
      assert e[1..] == [e[1]];
    }
    assert f == f2;
    EnumRoundTrips(Employee, Pending, level, NotStarted);
    var req := AddRequest(f, owner).value;
    assert Skills.NewSkillValid(req);
    assert req.projectLinks.links[0] == BlankLink();
  }

  /** The add request with the prepared values: the trimmed name and description and the filled links. */
  function AddRequestFiltered(f: FormData, owner: Id): (r: Option<Skills.SkillRequest>)
    ensures r.Some? <==> SubmitCheck(f).None?
    ensures r.Some? ==> (r.value.employeeId == Some(owner) && r.value.skillName == Some(Trim(f.skillName))
      && r.value.projectLinks == LinksField(ValidLinks(f.projectLinks)))
  {
    if SubmitCheck(f).Some? then None
    else Some(Skills.SkillRequest(Some(owner), Some(Trim(f.skillName)), Some(Trim(f.skillDescription)),
                                  Some(f.proficiencyLevel), Some(Skills.Numeric(Num(f.experienceYears))),
                                  LinksField(ValidLinks(f.projectLinks))))
  }

  /** With the prepared values sent, a claim the server stores has no blank link. */
  lemma FilteredLinksStoredFilled(db: Db, f: FormData, owner: Id, file: Option<string>, id: Id, now: int)
    requires id !in SkillIds(db.skills) && AddRequestFiltered(f, owner).Some?
    ensures var after := Skills.AddSkill(db, AddRequestFiltered(f, owner).value, file, id, now);
      after.0.code == 201 ==> (
        var stored := after.1.skills[|db.skills|].projectLinks;
        forall i :: 0 <= i < |stored| ==> !Blank(stored[i].linkLabel) && !Blank(stored[i].url))
  {
  }

  /** `StatusIcon`'s label for a claim status; anything unrecognised reads as pending. */
  function StatusLabel(status: string): (r: string)
    ensures r == "Verified" <==> status == "approved"
    ensures r == "Rejected" <==> status == "rejected"
  {
    if status == "approved" then "Verified"
    else if status == "rejected" then "Rejected"
    else "Pending Verification"
  }

  /** Edit and Delete are offered for every claim not yet approved. */
  predicate ControlsVisible(status: string) {
    status != "approved"
  }

  /** A claim keeps its controls exactly when its chip does not say "Verified". */
  lemma ControlsIffNotVerified(a: Approval)
    ensures ControlsVisible(ApprovalName(a)) <==> StatusLabel(ApprovalName(a)) != "Verified"
    ensures ControlsVisible(ApprovalName(a)) <==> a != Approved
  {
    EnumRoundTrips(Employee, a, Beginner, NotStarted);
  }
}

=== FILE: skills.dfy ===
/**
 * The skill-claim lifecycle (skillController.js). A claim is created
 * `pending`; an edit replaces its content but never its status or owner;
 * approve and reject overwrite the status from any prior status; a delete
 * also pulls the claim's id from the owner's `skills` list.
 *
 * Errors caught by these handlers are answered with 500.
 */
module Skills {
  import opened Js
  import opened Collections
  import opened Schema

  /**
   * The `projectLinks` field of a request: left out, the empty string, a list
   * (sent as such or as text that `JSON.parse` reads), or text that does not
   * parse. The empty string is falsy, so an edit leaves the links alone, but
   * `JSON.parse("")` throws, so an addition fails.
   */
  datatype LinksInput = Omitted | BlankLinks | Parsed(links: seq<ProjectLink>) | Malformed

  /**
   * A numeric field as sent: the empty string, or any other value together
   * with what `Number(...)` makes of it. The handlers read "" differently: an
   * edit converts it with `Number`, giving 0, while an addition hands it to
   * Mongoose, which casts "" to null so that `required` fails.
   */
  datatype NumberInput = BlankNumber | Numeric(number: NumberValue)

  /** `Number(x)`, as `updateSkill` converts the field. */
  function ToNumber(x: NumberInput): (n: NumberValue)
    ensures x.BlankNumber? ==> n == Num(0)
    ensures x.Numeric? ==> n == x.number
  {
    match x
    case BlankNumber => Num(0)
    case Numeric(n) => n
  }

  /**
   * The body of an add or edit request. `experienceYears` is `None` when the
   * field is absent.
   */
  datatype SkillRequest = SkillRequest(
    employeeId: Option<Id>,
    skillName: Option<string>,
    skillDescription: Option<string>,
    proficiencyLevel: Option<string>,
    experienceYears: Option<NumberInput>,
    projectLinks: LinksInput)

  /** The URL under which an uploaded certificate is served. */
  function UploadUrl(filename: string): (u: string)
    ensures |u| == |"/uploads/"| + |filename| && u[..9] == "/uploads/" && u[9..] == filename
  {
    "/uploads/" + filename
  }

  /** `certificateFile ? '/uploads/' + filename : null`. */
  function CertificateUrl(file: Option<string>): (u: Option<string>)
    ensures file.None? <==> u.None?
    ensures file.Some? ==> u == Some(UploadUrl(file.value))
  {
    match file
    case None => None
    case Some(f) => Some(UploadUrl(f))
  }

  /**
   * `JSON.parse` of the links and the skill schema's validators on a new
   * claim: a blank experience is cast to null and fails `required`.
   */
  predicate NewSkillValid(req: SkillRequest) {
    && Given(req.employeeId)
    && Given(req.skillName)
    && req.proficiencyLevel.Some? && ParseProficiency(req.proficiencyLevel.value).Some?
    && req.experienceYears.Some? && req.experienceYears.value.Numeric? && req.experienceYears.value.number.Num?
    && (req.projectLinks.Omitted? || req.projectLinks.Parsed?)
  }

  /** `$push: {skills: id}` on the account with id `owner`; no such account, no change. */
  function PushSkill(accounts: seq<Account>, owner: Id, id: Id, now: int): (r: seq<Account>)
    ensures |r| == |accounts| && AccountIds(r) == AccountIds(accounts) && AccountEmails(r) == AccountEmails(accounts)
    ensures FindAccount(accounts, owner).None? ==> r == accounts
    ensures FindAccount(accounts, owner).Some? ==> var k := FindAccount(accounts, owner).value;
      r == accounts[k := accounts[k].(skills := accounts[k].skills + [id], updatedAt := now)]
  {
    match FindAccount(accounts, owner)
    case None => accounts
    case Some(k) => accounts[k := accounts[k].(skills := accounts[k].skills + [id], updatedAt := now)]
  }

  /** `$pull: {skills: id}` on the account with id `owner`: every occurrence goes. */
  function PullSkill(accounts: seq<Account>, owner: Id, id: Id, now: int): (r: seq<Account>)
    ensures |r| == |accounts| && AccountIds(r) == AccountIds(accounts) && AccountEmails(r) == AccountEmails(accounts)
    ensures FindAccount(accounts, owner).None? ==> r == accounts
    ensures FindAccount(accounts, owner).Some? ==> var k := FindAccount(accounts, owner).value;
      && id !in r[k].skills
      && r[k].skills == Filter(accounts[k].skills, (x: Id) => x != id)
      && forall j :: 0 <= j < |r| && j != k ==> r[j] == accounts[j]
  {
    match FindAccount(accounts, owner)
    case None => accounts
    case Some(k) =>
      var kept := Filter(accounts[k].skills, (x: Id) => x != id);
      accounts[k := accounts[k].(skills := kept, updatedAt := now)]
  }

  /**
   * `addSkill` at time `now`: `file` is the stored name of an attached
   * certificate and `id` the new claim's ObjectId, which no claim carries yet.
   */
  function AddSkill(db: Db, req: SkillRequest, file: Option<string>, id: Id, now: int): (r: (Reply, Db))
    requires id !in SkillIds(db.skills)
    ensures r.0.code == 201 <==> NewSkillValid(req)
    ensures r.0.code != 201 ==> r.0.code == 500 && r.1 == db
    ensures req.projectLinks.BlankLinks? || req.projectLinks.Malformed? || req.experienceYears == Some(BlankNumber)
      ==> r.0.code == 500
    ensures r.0.code == 201 ==> r.0.message == "Skill added successfully"
    ensures r.0.code == 201 ==> |r.1.skills| == |db.skills| + 1 && r.1.skills[..|db.skills|] == db.skills
    ensures r.0.code == 201 ==> var s := r.1.skills[|db.skills|];
      && s.id == id && s.status == Pending && s.employeeId == req.employeeId.value
      && s.skillName == req.skillName.value && s.description == req.skillDescription
      && ProficiencyName(s.proficiency) == req.proficiencyLevel.value
      && s.certificateFileUrl == CertificateUrl(file)
      && s.lastUpdated == now && s.experienceYears == req.experienceYears.value.number.value
      && s.projectLinks == (if req.projectLinks.Parsed? then req.projectLinks.links else [])
    ensures r.0.code == 201 ==> r.1.accounts == PushSkill(db.accounts, req.employeeId.value, id, now)
    ensures r.1.projects == db.projects
  {
    if !NewSkillValid(req) then (Reply(500, ValidationFailed), db)
    else
      var links := if req.projectLinks.Parsed? then req.projectLinks.links else [];
      var s := Skill(id, req.employeeId.value, req.skillName.value, req.skillDescription,
                     ParseProficiency(req.proficiencyLevel.value).value, req.experienceYears.value.number.value,
                     CertificateUrl(file), links, Pending, now);
      (Reply(201, "Skill added successfully"),
       db.(skills := db.skills + [s], accounts := PushSkill(db.accounts, req.employeeId.value, id, now)))
  }

  /** The fields an edit writes, when it passes every check. */
  function Edited(s: Skill, req: SkillRequest, file: Option<string>, now: int): (e: Skill)
    requires Given(req.skillName) && req.proficiencyLevel.Some? && ParseProficiency(req.proficiencyLevel.value).Some?
    requires req.experienceYears.Some? && ToNumber(req.experienceYears.value).Num?
    ensures e.id == s.id && e.employeeId == s.employeeId && e.status == s.status
    ensures e.skillName == req.skillName.value && e.lastUpdated == now
    ensures ProficiencyName(e.proficiency) == req.proficiencyLevel.value
    ensures e.experienceYears == ToNumber(req.experienceYears.value).value
    ensures e.description == Some(if Given(req.skillDescription) then req.skillDescription.value else "")
    ensures file.None? ==> e.certificateFileUrl == s.certificateFileUrl
    ensures file.Some? ==> e.certificateFileUrl == Some(UploadUrl(file.value))
    ensures req.projectLinks.Parsed? ==> e.projectLinks == req.projectLinks.links
    ensures !req.projectLinks.Parsed? ==> e.projectLinks == s.projectLinks
  {
    s.(skillName := req.skillName.value,
       description := Some(if Given(req.skillDescription) then req.skillDescription.value else ""),
       proficiency := ParseProficiency(req.proficiencyLevel.value).value,
       experienceYears := ToNumber(req.experienceYears.value).value,
       lastUpdated := now,
       certificateFileUrl := if file.Some? then Some(UploadUrl(file.value)) else s.certificateFileUrl,
       projectLinks := if req.projectLinks.Parsed? then req.projectLinks.links else s.projectLinks)
  }

  /**
   * `updateSkill` at time `now`: lookup first, then the presence check, then
   * the links, then the schema validators (`runValidators`) on the update.
   */
  function UpdateSkill(skills: seq<Skill>, id: Id, req: SkillRequest, file: Option<string>, now: int)
    : (r: (Reply, seq<Skill>))
    ensures FindSkill(skills, id).None? ==> r == (Reply(404, "Skill not found"), skills)
    ensures FindSkill(skills, id).Some? && (!Given(req.skillName) || !Given(req.proficiencyLevel) || req.experienceYears.None?)
      ==> r == (Reply(400, "Missing required fields"), skills)
    ensures FindSkill(skills, id).Some? && Given(req.skillName) && Given(req.proficiencyLevel)
      && req.experienceYears.Some? && req.projectLinks.Malformed?
      ==> r == (Reply(400, "Invalid project links format"), skills)
    ensures r.0.code == 200 <==> (
      && FindSkill(skills, id).Some? && Given(req.skillName) && Given(req.proficiencyLevel)
      && req.experienceYears.Some? && !req.projectLinks.Malformed?
      && ParseProficiency(req.proficiencyLevel.value).Some? && ToNumber(req.experienceYears.value).Num?)
    ensures r.0.code != 200 ==> r.1 == skills
    ensures |r.1| == |skills|
    ensures r.0.code == 200 ==> var k := FindSkill(skills, id).value;
      && r.1[k] == Edited(skills[k], req, file, now)
      && forall j :: 0 <= j < |skills| && j != k ==> r.1[j] == skills[j]
    ensures forall j :: 0 <= j < |skills| ==>
      r.1[j].id == skills[j].id && r.1[j].employeeId == skills[j].employeeId && r.1[j].status == skills[j].status
  {
    match FindSkill(skills, id)
    case None => (Reply(404, "Skill not found"), skills)
    case Some(k) =>
      if !Given(req.skillName) || !Given(req.proficiencyLevel) || req.experienceYears.None? then
        (Reply(400, "Missing required fields"), skills)
      else if req.projectLinks.Malformed? then (Reply(400, "Invalid project links format"), skills)
      else if ParseProficiency(req.proficiencyLevel.value).None? || ToNumber(req.experienceYears.value).NaN? then
        (Reply(500, "Failed to update skill"), skills)
      else (Reply(200, "Skill updated successfully"), skills[k := Edited(skills[k], req, file, now)])
  }

  /**
   * The blank experience and links text a form can send are read differently
   * by the two handlers: `addSkill` answers 500, while `updateSkill` stores 0
   * years and keeps the claim's links.
   */
  lemma BlankFieldsReadByHandler(db: Db, req: SkillRequest, file: Option<string>, id: Id, existing: Id, now: int)
    requires id !in SkillIds(db.skills) && FindSkill(db.skills, existing).Some?
    requires req.experienceYears == Some(BlankNumber) && req.projectLinks == BlankLinks
    requires Given(req.skillName) && Given(req.proficiencyLevel) && ParseProficiency(req.proficiencyLevel.value).Some?
    ensures AddSkill(db, req, file, id, now).0.code == 500
    ensures var r := UpdateSkill(db.skills, existing, req, file, now);
      var k := FindSkill(db.skills, existing).value;
      && r.0.code == 200 && r.1[k].experienceYears == 0 && r.1[k].projectLinks == db.skills[k].projectLinks
  {
  }

  /**
   * `deleteSkill` at time `now`: removes the claim and pulls its id from its
   * owner's list.
   */
  function DeleteSkill(db: Db, id: Id, now: int): (r: (Reply, Db))
    ensures FindSkill(db.skills, id).None? ==> r == (Reply(404, "Skill not found"), db)
    ensures r.0.code == 200 <==> FindSkill(db.skills, id).Some?
    ensures r.0.code == 200 ==> var k := FindSkill(db.skills, id).value;
      && r.1.skills == db.skills[..k] + db.skills[k + 1..]
      && r.1.accounts == PullSkill(db.accounts, db.skills[k].employeeId, id, now)
    ensures r.1.projects == db.projects
  {
    match FindSkill(db.skills, id)
    case None => (Reply(404, "Skill not found"), db)
    case Some(k) =>
      (Reply(200, "Skill deleted successfully"),
       db.(skills := db.skills[..k] + db.skills[k + 1..],
           accounts := PullSkill(db.accounts, db.skills[k].employeeId, id, now)))
  }

  /** With unique claim ids, a deleted claim is gone and the owner no longer lists it. */
  lemma DeleteSkillRemoves(db: Db, id: Id, now: int)
    requires DbValid(db)
    requires FindSkill(db.skills, id).Some?
    ensures var after := DeleteSkill(db, id, now).1;
      var owner := db.skills[FindSkill(db.skills, id).value].employeeId;
      && FindSkill(after.skills, id).None?
      && DbValid(after)
      && (FindAccount(db.accounts, owner).Some? ==> id !in after.accounts[FindAccount(db.accounts, owner).value].skills)
  {
    var k := FindSkill(db.skills, id).value;
    var after := DeleteSkill(db, id, now).1;
    var ids := SkillIds(db.skills);
    forall j | 0 <= j < |after.skills|
      ensures after.skills[j].id != id
    {
      if j < k {
        assert after.skills[j] == db.skills[j];
        assert ids[j] != ids[k];
      } else {
        assert after.skills[j] == db.skills[j + 1];
        assert ids[k] != ids[j + 1];
      }
    }
    assert SkillIds(after.skills) == ids[..k] + ids[k + 1..];
  }

  /** `findByIdAndUpdate(id, {status, lastUpdated: now})`, the body of approve and reject. */
  function SetSkillStatus(skills: seq<Skill>, id: Id, target: Approval, now: int): (r: (Reply, seq<Skill>))
    ensures FindSkill(skills, id).None? ==> r == (Reply(404, "Skill not found"), skills)
    ensures r.0.code == 200 <==> FindSkill(skills, id).Some?
    ensures r.0.code == 200 ==> var k := FindSkill(skills, id).value;
      r.1 == skills[k := skills[k].(status := target, lastUpdated := now)]
  {
    match FindSkill(skills, id)
    case None => (Reply(404, "Skill not found"), skills)
    case Some(k) => (Reply(200, ""), skills[k := skills[k].(status := target, lastUpdated := now)])
  }

  /** `approveSkill`: from any prior status. */
  function ApproveSkill(skills: seq<Skill>, id: Id, now: int): (r: (Reply, seq<Skill>))
    ensures r.0.code == 200 <==> FindSkill(skills, id).Some?
    ensures |r.1| == |skills|
    ensures forall j :: 0 <= j < |skills| ==> r.1[j].id == skills[j].id
    ensures r.0.code == 200 ==> FindSkill(skills, id).Some? && r.1[FindSkill(skills, id).value].status == Approved
    ensures forall j :: 0 <= j < |skills| && j != FindSkill(skills, id).GetOr(|skills|) ==> r.1[j] == skills[j]
  {
    SetSkillStatus(skills, id, Approved, now)
  }

  /** `rejectSkill`: from any prior status. */
  function RejectSkill(skills: seq<Skill>, id: Id, now: int): (r: (Reply, seq<Skill>))
    ensures r.0.code == 200 <==> FindSkill(skills, id).Some?
    ensures |r.1| == |skills|
    ensures forall j :: 0 <= j < |skills| ==> r.1[j].id == skills[j].id
    ensures r.0.code == 200 ==> FindSkill(skills, id).Some? && r.1[FindSkill(skills, id).value].status == Rejected
    ensures forall j :: 0 <= j < |skills| && j != FindSkill(skills, id).GetOr(|skills|) ==> r.1[j] == skills[j]
  {
    SetSkillStatus(skills, id, Rejected, now)
  }

  /** Only the last status decision counts: a second decision overwrites the first. */
  lemma LastDecisionWins(skills: seq<Skill>, id: Id, first: Approval, second: Approval, t1: int, t2: int)
    ensures SetSkillStatus(SetSkillStatus(skills, id, first, t1).1, id, second, t2).1
      == SetSkillStatus(skills, id, second, t2).1
  {
    var once := SetSkillStatus(skills, id, first, t1).1;
    if FindSkill(skills, id).Some? {
      var k := FindSkill(skills, id).value;
      assert FindSkill(once, id) == Some(k) by {
        assert forall j :: 0 <= j < |once| ==> once[j].id == skills[j].id;
      }
    }
  }

  /** `getSkills`: the claims of one employee, every status, in stored order. */
  function SkillsOf(skills: seq<Skill>, employeeId: Id): (r: seq<Skill>)
    ensures IsSubsequence(r, skills)
    ensures forall s :: s in r <==> s in skills && s.employeeId == employeeId
  {
    FilterIsSubsequence(skills, (s: Skill) => s.employeeId == employeeId);
    Filter(skills, (s: Skill) => s.employeeId == employeeId)
  }

  function NewestFirst(): (Skill, Skill) -> bool {
    (a: Skill, b: Skill) => a.lastUpdated >= b.lastUpdated
  }

  /** `getPendingSkills`: the pending claims, most recently updated first. */
  function PendingSkills(skills: seq<Skill>): (r: seq<Skill>)
    ensures forall i :: 0 <= i < |r| ==> r[i].status == Pending
    ensures multiset(r) == multiset(Filter(skills, (s: Skill) => s.status == Pending))
    ensures forall i :: 0 < i < |r| ==> r[i - 1].lastUpdated >= r[i].lastUpdated
  {
    var pending := Filter(skills, (s: Skill) => s.status == Pending);
    var r := SortBy(pending, NewestFirst());
    assert forall i :: 0 <= i < |r| ==> r[i] in multiset(pending);
    r
  }

  /** A claim is listed as pending exactly when it is stored and pending. */
  lemma PendingSkillsMembers(skills: seq<Skill>, s: Skill)
    ensures s in PendingSkills(skills) <==> s in skills && s.status == Pending
  {
    var pending := Filter(skills, (x: Skill) => x.status == Pending);
    assert s in PendingSkills(skills) <==> s in multiset(PendingSkills(skills));
    assert s in pending <==> s in multiset(pending);
  }

  /**
   * A new claim is listed for review, whatever the request said about its
   * status, and approving it takes it off the list.
   */
  lemma AddedSkillAwaitsReview(db: Db, req: SkillRequest, file: Option<string>, id: Id, now: int, later: int)
    requires DbValid(db)
    requires id !in SkillIds(db.skills)
    requires NewSkillValid(req)
    ensures var after := AddSkill(db, req, file, id, now).1;
      && after.skills[|db.skills|] in PendingSkills(after.skills)
      && (forall s :: s in PendingSkills(ApproveSkill(after.skills, id, later).1) ==> s.id != id)
  {
    var after := AddSkill(db, req, file, id, now).1;
    PendingSkillsMembers(after.skills, after.skills[|db.skills|]);
    OnlyLastHasId(db.skills, after.skills, id);
    ApprovedLeavesReview(after.skills, id, |db.skills|, later);
  }

  /** A store extended by one claim whose id the old store lacks has that id only at its last place. */
  lemma OnlyLastHasId(skills: seq<Skill>, extended: seq<Skill>, id: Id)
    requires id !in SkillIds(skills)
    requires |extended| == |skills| + 1 && extended[..|skills|] == skills && extended[|skills|].id == id
    ensures forall j :: 0 <= j < |skills| ==> extended[j].id != id
  {
    forall j | 0 <= j < |skills|
      ensures extended[j].id != id
    {
      assert extended[j] == skills[j];
      assert SkillIds(skills)[j] == skills[j].id;
    }
  }

  /** Approving the one claim that carries an id leaves no pending claim with that id. */
  lemma ApprovedLeavesReview(skills: seq<Skill>, id: Id, k: nat, now: int)
    requires k < |skills| && skills[k].id == id
    requires forall j :: 0 <= j < k ==> skills[j].id != id
    requires forall j :: k < j < |skills| ==> skills[j].id != id
    ensures forall s :: s in PendingSkills(ApproveSkill(skills, id, now).1) ==> s.id != id
  {
    assert FindSkill(skills, id) == Some(k);
    var approved := ApproveSkill(skills, id, now).1;
    forall x | x in PendingSkills(approved)
      ensures x.id != id
    {
      PendingSkillsMembers(approved, x);
      var j :| 0 <= j < |approved| && approved[j] == x;
      if j != k {
        assert approved[j] == skills[j];
      }
    }
  }
}

=== FILE: staffing.dfy ===
/**
 * Staffing on the HR side: the skill matcher and selection handling of the
 * project dialog (ProjectAssignmentDialog.jsx), and the HR dashboard's
 * skill options, employee filters and sorts, and the checks run before a
 * project is created (pages/hr/Dashboard.jsx).
 */
module Staffing {
  import opened Js
  import opened Text
  import opened Collections
  import opened Schema

  /** An approved skill as the HR page keeps it. */
  datatype SkillView = SkillView(skillName: string, proficiencyLevel: string, experienceYears: int)

  /** An employee as the HR page keeps it after transforming the server's answer. */
  datatype EmployeeView = EmployeeView(id: Id, name: string, email: string, role: string,
                                       approvedSkills: seq<SkillView>)

  function SkillNames(e: EmployeeView): (r: seq<string>)
    ensures |r| == |e.approvedSkills|
    ensures forall i :: 0 <= i < |r| ==> r[i] == e.approvedSkills[i].skillName
  {
    Map(e.approvedSkills, (s: SkillView) => s.skillName)
  }

  /** Every skill of `required` is among the employee's approved skill names. */
  predicate Covers(e: EmployeeView, required: seq<string>) {
    forall k :: 0 <= k < |required| ==> required[k] in SkillNames(e)
  }

  // ---------------------------------------------------------------------------
  // The project dialog

  /**
   * `getAvailableEmployees`: the whole pool when no skill is required,
   * otherwise the employees covering every required skill, in pool order.
   */
  function AvailableEmployees(pool: seq<EmployeeView>, required: seq<string>): (r: seq<EmployeeView>)
    ensures required == [] ==> r == pool
    ensures IsSubsequence(r, pool)
    ensures forall i :: 0 <= i < |r| ==> r[i] in pool && Covers(r[i], required)
    ensures forall i :: 0 <= i < |pool| && Covers(pool[i], required) ==> pool[i] in r
  {
    FilterIsSubsequence(pool, (e: EmployeeView) => Covers(e, required));
    if required == [] then
      IsSubsequenceRefl(pool);
      pool
    else Filter(pool, (e: EmployeeView) => Covers(e, required))
  }

  /** The shortcut for an empty skill list changes nothing: the matcher is a plain filter. */
  lemma AvailableIsCoverFilter(pool: seq<EmployeeView>, required: seq<string>)
    ensures AvailableEmployees(pool, required) == Filter(pool, (e: EmployeeView) => Covers(e, required))
  {
    if required == [] {
      FilterKeepsAll(pool, (e: EmployeeView) => Covers(e, required));
    }
  }

  /** An entry of the dialog's assignment list. */
  datatype Member = Member(employeeId: Id, name: string, role: string)

  function ToMember(e: EmployeeView): Member {
    Member(e.id, e.name, "Team Member")
  }

  /** `handleEmployeeSelect`: no selection changes nothing; otherwise the chosen employees as members, in order. */
  function Select(selected: Option<seq<EmployeeView>>, current: seq<Member>): (r: seq<Member>)
    ensures selected.None? ==> r == current
    ensures selected.Some? ==> |r| == |selected.value|
    ensures selected.Some? ==> forall i :: 0 <= i < |r| ==>
      (r[i].employeeId == selected.value[i].id && r[i].name == selected.value[i].name
       && r[i].role == "Team Member")
  {
    match selected
    case None => current
    case Some(s) => Map(s, ToMember)
  }

  /** The "Assign All" button: every available employee as a member. */
  function AssignAll(available: seq<EmployeeView>): (r: seq<Member>)
    ensures r == Select(Some(available), [])
  {
    Map(available, ToMember)
  }

  /** The button is shown when skills are required and someone is available. */
  predicate AssignAllShown(required: seq<string>, available: seq<EmployeeView>) {
    |required| > 0 && |available| > 0
  }

  /** ... and disabled when the list already has as many members as there are available employees. */
  predicate AssignAllDisabled(team: seq<Member>, available: seq<EmployeeView>) {
    |team| == |available|
  }

  /** Once pressed, the button disables itself. */
  lemma AssignAllThenDisabled(available: seq<EmployeeView>)
    ensures AssignAllDisabled(AssignAll(available), available)
  {
  }

  /** Ids are unique in a list of employees. */
  predicate UniqueIds(s: seq<EmployeeView>) {
    forall i, j :: 0 <= i < j < |s| ==> s[i].id != s[j].id
  }

  /** The first employee of `pool` with the given id, as `find(e => e.id === id)` returns it. */
  function FindById(pool: seq<EmployeeView>, id: Id): (r: Option<nat>)
    ensures r.Some? ==> r.value < |pool| && pool[r.value].id == id
    ensures r.None? <==> forall j :: 0 <= j < |pool| ==> pool[j].id != id
  {
    FindFirst(pool, (e: EmployeeView) => e.id == id)
  }

  /** With unique ids, finding a member of the pool by its id finds that member. */
  lemma FindByIdMember(pool: seq<EmployeeView>, e: EmployeeView)
    requires UniqueIds(pool) && e in pool
    ensures FindById(pool, e.id).Some? && pool[FindById(pool, e.id).value] == e
  {
    var j :| 0 <= j < |pool| && pool[j] == e;
    var k := FindById(pool, e.id).value;
    assert !(k < j) && !(j < k);
  }

  /**
   * The selection the member picker shows: each member mapped back to the
   * available employee with its id, members with no such employee dropped.
   */
  function ShownSelection(team: seq<Member>, available: seq<EmployeeView>): (r: seq<EmployeeView>)
    ensures |r| <= |team|
    ensures forall i :: 0 <= i < |r| ==> r[i] in available
    decreases |team|
  {
    if team == [] then []
    else
      var here := match FindById(available, team[0].employeeId)
        case None => []
        case Some(k) => [available[k]];
      here + ShownSelection(team[1..], available)
  }

  /** Selecting employees from the picker shows exactly those employees as selected. */
  lemma {:induction false} SelectionShownBack(chosen: seq<EmployeeView>, available: seq<EmployeeView>)
    requires UniqueIds(available)
    requires forall i :: 0 <= i < |chosen| ==> chosen[i] in available
    ensures ShownSelection(Select(Some(chosen), []), available) == chosen
    decreases |chosen|
  {
    if chosen != [] {
      var members := Select(Some(chosen), []);
      assert members[1..] == Select(Some(chosen[1..]), []);
      FindByIdMember(available, chosen[0]);
      SelectionShownBack(chosen[1..], available);
    }
  }

  /** `Math.max(1, parseInt(value) || 1)`. */
  function ClampTeamSize(n: NumberValue): (r: int)
    ensures r >= 1
    ensures n.Num? && n.value >= 1 ==> r == n.value
    ensures n.NaN? || n.value < 1 ==> r == 1
  {
    Max(1, OrDefault(n, 1))
  }

  /** The dialog's project details. */
  datatype DialogDetails = DialogDetails(name: string, description: string, startDate: string, endDate: string,
                                         requiredSkills: seq<string>, team: seq<Member>, teamSize: int)

  /** The Create button's `disabled` expression. */
  predicate CreateDisabled(d: DialogDetails) {
    || d.name == "" || d.description == "" || d.startDate == "" || d.endDate == ""
    || |d.requiredSkills| == 0 || |d.team| == 0 || |d.team| > d.teamSize
  }

  /**
   * With every field filled, assigning all matching employees enables
   * Create exactly when someone matches and they fit in the team size.
   */
  lemma AssignAllEnablesCreate(d: DialogDetails, pool: seq<EmployeeView>)
    requires d.name != "" && d.description != "" && d.startDate != "" && d.endDate != ""
    requires |d.requiredSkills| > 0
    ensures var available := AvailableEmployees(pool, d.requiredSkills);
      (!CreateDisabled(d.(team := AssignAll(available))) <==> 0 < |available| <= d.teamSize)
    ensures var available := AvailableEmployees(pool, d.requiredSkills);
      AssignAllShown(d.requiredSkills, available) ==>
        (!CreateDisabled(d.(team := AssignAll(available))) <==> |available| <= d.teamSize)
  {
  }

  // ---------------------------------------------------------------------------
  // The HR dashboard: skill options

  /** Some employee of the list has `x` among their approved skill names. */
  predicate HasApprovedSkill(employees: seq<EmployeeView>, x: string) {
    exists i :: 0 <= i < |employees| && x in SkillNames(employees[i])
  }

  /** The non-empty approved skill names of all employees, in order, repeats kept. */
  function AllSkillNames(employees: seq<EmployeeView>): (r: seq<string>)
    ensures forall i :: 0 <= i < |r| ==> r[i] != ""
    decreases |employees|
  {
    if employees == [] then []
    else Filter(SkillNames(employees[0]), (x: string) => x != "") + AllSkillNames(employees[1..])
  }

  /** The collected names are exactly the non-empty approved skill names. */
  lemma {:induction false} AllSkillNamesMembers(employees: seq<EmployeeView>, x: string)
    ensures x in AllSkillNames(employees) <==> x != "" && HasApprovedSkill(employees, x)
    decreases |employees|
  {
    if employees != [] {
      var names := SkillNames(employees[0]);
      var here := Filter(names, (y: string) => y != "");
      AllSkillNamesMembers(employees[1..], x);
      assert AllSkillNames(employees) == here + AllSkillNames(employees[1..]);
      if x in names && x != "" {
        var k :| 0 <= k < |names| && names[k] == x;
        assert x in here;
      }
      if HasApprovedSkill(employees[1..], x) {
        var i :| 0 <= i < |employees[1..]| && x in SkillNames(employees[1..][i]);
        assert employees[1..][i] == employees[i + 1];
      }
      if HasApprovedSkill(employees, x) && x !in names {
        var i :| 0 <= i < |employees| && x in SkillNames(employees[i]);
        assert i > 0 && employees[1..][i - 1] == employees[i];
      }
    }
  }

  /** The position of the first occurrence of `x`. */
  function FirstIndex(s: seq<string>, x: string): (k: nat)
    requires x in s
    ensures k < |s| && s[k] == x && x !in s[..k]
    decreases |s|
  {
    if s[0] == x then 0
    else
      var k := FirstIndex(s[1..], x);
      assert s[..k + 1] == [s[0]] + s[1..][..k];
      k + 1
  }

  /** A value not seen before position `n` first occurs at `n`. */
  lemma FirstIndexAt(s: seq<string>, n: nat)
    requires n < |s| && s[n] !in s[..n]
    ensures FirstIndex(s, s[n]) == n
  {
  }

  /**
   * The skill options: each name once, in the order of first occurrence,
   * as adding the names to a `Set` one by one and listing it gives them.
   */
  method UniqueInOrder(names: seq<string>) returns (r: seq<string>)
    ensures Distinct(r)
    ensures forall x :: x in r <==> x in names
    ensures forall i, j :: 0 <= i < j < |r| ==> FirstIndex(names, r[i]) < FirstIndex(names, r[j])
  {
    r := [];
    var n := 0;
    while n < |names|
      invariant n <= |names|
      invariant Distinct(r)
      invariant forall x :: x in r <==> x in names[..n]
      invariant forall i :: 0 <= i < |r| ==> r[i] in names && FirstIndex(names, r[i]) < n
      invariant forall i, j :: 0 <= i < j < |r| ==> FirstIndex(names, r[i]) < FirstIndex(names, r[j])
    {
      var x := names[n];
      assert names[..n + 1] == names[..n] + [x];
      if x !in r {
        FirstIndexAt(names, n);
        r := r + [x];
      }
      n := n + 1;
    }
    assert names[..n] == names;
  }

  /** The skill filter's options: every non-empty approved skill name exactly once, in first-seen order. */
  method SkillOptions(employees: seq<EmployeeView>) returns (r: seq<string>)
    ensures Distinct(r)
    ensures forall x :: x in r <==> x in AllSkillNames(employees)
    ensures forall x :: x in r <==> x != "" && HasApprovedSkill(employees, x)
    ensures forall i, j :: 0 <= i < j < |r| ==>
      FirstIndex(AllSkillNames(employees), r[i]) < FirstIndex(AllSkillNames(employees), r[j])
  {
    r := UniqueInOrder(AllSkillNames(employees));
    forall x
      ensures x in r <==> x != "" && HasApprovedSkill(employees, x)
    {
      AllSkillNamesMembers(employees, x);
    }
  }

  // ---------------------------------------------------------------------------
  // The HR dashboard: filters and sorts

  /** The filter controls: search text, selected skills, proficiency ("all" for any), minimum experience. */
  datatype Criteria = Criteria(search: string, selectedSkills: seq<string>, proficiency: string, minExperience: int)

  predicate MatchesSearch(e: EmployeeView, term: string) {
    Contains(Lower(e.name), Lower(term)) || Contains(Lower(e.email), Lower(term))
  }

  predicate HasLevel(e: EmployeeView, level: string) {
    exists i :: 0 <= i < |e.approvedSkills| && e.approvedSkills[i].proficiencyLevel == level
  }

  predicate HasExperience(e: EmployeeView, years: int) {
    exists i :: 0 <= i < |e.approvedSkills| && e.approvedSkills[i].experienceYears >= years
  }

  /** The five tests of `getFilteredAndSortedEmployees`, in order. */
  predicate Shown(e: EmployeeView, c: Criteria) {
    && e.role == "employee"
    && MatchesSearch(e, c.search)
    && (|c.selectedSkills| == 0 || Covers(e, c.selectedSkills))
    && (c.proficiency == "all" || HasLevel(e, c.proficiency))
    && (c.minExperience <= 0 || HasExperience(e, c.minExperience))
  }

  /** The filtered list, before sorting: exactly the employees passing every test, in order. */
  function FilterEmployees(employees: seq<EmployeeView>, c: Criteria): (r: seq<EmployeeView>)
    ensures IsSubsequence(r, employees)
    ensures forall i :: 0 <= i < |r| ==> r[i] in employees
    ensures forall i :: 0 <= i < |r| ==> r[i].role == "employee" && Covers(r[i], c.selectedSkills)
    ensures forall i :: 0 <= i < |r| ==> Shown(r[i], c)
    ensures forall i :: 0 <= i < |employees| && Shown(employees[i], c) ==> employees[i] in r
  {
    FilterIsSubsequence(employees, (e: EmployeeView) => Shown(e, c));
    Filter(employees, (e: EmployeeView) => Shown(e, c))
  }

  /** With the controls at rest, the list is every account with role employee. */
  lemma {:induction false} RestingFiltersShowEveryEmployee(employees: seq<EmployeeView>)
    ensures FilterEmployees(employees, Criteria("", [], "all", 0))
      == Filter(employees, (e: EmployeeView) => e.role == "employee")
    decreases |employees|
  {
    if employees != [] {
      ContainsEmpty(Lower(employees[0].name));
      RestingFiltersShowEveryEmployee(employees[1..]);
    }
  }

  /** Whoever the dashboard lists for a skill selection, the dialog offers for those required skills. */
  lemma FilteredAreAvailable(employees: seq<EmployeeView>, c: Criteria, e: EmployeeView)
    requires e in FilterEmployees(employees, c)
    ensures e in AvailableEmployees(employees, c.selectedSkills)
  {
    var r := FilterEmployees(employees, c);
    var i :| 0 <= i < |r| && r[i] == e;
    assert Covers(e, c.selectedSkills) && e in employees;
    var j :| 0 <= j < |employees| && employees[j] == e;
  }

  /** The sort choices modelled: by name, by number of approved skills, or none. */
  datatype SortKey = ByName | BySkillCount | Unsorted

  function Comparator(key: SortKey, ascending: bool): (EmployeeView, EmployeeView) -> bool {
    match key
    case ByName => if ascending then (a: EmployeeView, b: EmployeeView) => LexLe(a.name, b.name)
                   else (a: EmployeeView, b: EmployeeView) => LexLe(b.name, a.name)
    case BySkillCount => if ascending then (a: EmployeeView, b: EmployeeView) => |a.approvedSkills| <= |b.approvedSkills|
                         else (a: EmployeeView, b: EmployeeView) => |a.approvedSkills| >= |b.approvedSkills|
    case Unsorted => (a: EmployeeView, b: EmployeeView) => true
  }

  lemma ComparatorTotal(key: SortKey, ascending: bool)
    ensures Total(Comparator(key, ascending))
  {
    forall a: EmployeeView, b: EmployeeView
      ensures Comparator(key, ascending)(a, b) || Comparator(key, ascending)(b, a)
    {
      LexTotal(a.name, b.name);
    }
  }

  /**
   * The sort step: a permutation in the chosen order. A comparator that
   * always answers 0 leaves the list as it is.
   */
  function SortEmployees(employees: seq<EmployeeView>, key: SortKey, ascending: bool): (r: seq<EmployeeView>)
    ensures multiset(r) == multiset(employees)
    ensures key == BySkillCount && ascending ==>
      forall i :: 0 < i < |r| ==> |r[i - 1].approvedSkills| <= |r[i].approvedSkills|
    ensures key == BySkillCount && !ascending ==>
      forall i :: 0 < i < |r| ==> |r[i - 1].approvedSkills| >= |r[i].approvedSkills|
    ensures key == ByName && ascending ==> forall i :: 0 < i < |r| ==> LexLe(r[i - 1].name, r[i].name)
    ensures key == ByName && !ascending ==> forall i :: 0 < i < |r| ==> LexLe(r[i].name, r[i - 1].name)
    ensures key == Unsorted ==> r == employees
  {
    if key == Unsorted then employees
    else
      ComparatorTotal(key, ascending);
      SortBy(employees, Comparator(key, ascending))
  }

  /** Sorted by skill count, any two positions are in order, not only neighbours. */
  lemma SkillCountOrdered(employees: seq<EmployeeView>, i: nat, j: nat)
    requires i < j < |employees|
    ensures var r := SortEmployees(employees, BySkillCount, true);
      |r[i].approvedSkills| <= |r[j].approvedSkills|
  {
    var le := Comparator(BySkillCount, true);
    assert Transitive(le);
    SortedPairwise(SortEmployees(employees, BySkillCount, true), le, i, j);
  }

  // ---------------------------------------------------------------------------
  // The HR dashboard: checks before creating a project

  /** The HR page's project details. Dates carry their text and what `new Date(...)` makes of it. */
  datatype HrDetails = HrDetails(name: string, description: string, startDate: DateInput, endDate: DateInput,
                                 requiredSkills: seq<string>, team: seq<Member>)

  /** The required skills the employee lacks, in the order they are required. */
  function MissingSkills(e: EmployeeView, required: seq<string>): (r: seq<string>)
    ensures r == [] <==> Covers(e, required)
    ensures forall x :: x in r <==> x in required && x !in SkillNames(e)
  {
    var r := Filter(required, (x: string) => x !in SkillNames(e));
    CoveredHasNoneMissing(e, required, r);
    r
  }

  /** Nothing can be missing from a list of required skills the employee covers. */
  lemma CoveredHasNoneMissing(e: EmployeeView, required: seq<string>, missing: seq<string>)
    requires forall i :: 0 <= i < |missing| ==> missing[i] in required && missing[i] !in SkillNames(e)
    ensures missing != [] ==> !Covers(e, required)
  {
    if missing != [] {
      var k :| 0 <= k < |required| && required[k] == missing[0];
      assert required[k] !in SkillNames(e);
    }
  }

  /**
   * The line for one team member: present when the member's employee is in
   * the list and misses a required skill, naming the employee and the missing
   * skills.
   */
  function LackLine(m: Member, employees: seq<EmployeeView>, required: seq<string>): (r: Option<string>)
    ensures r.Some? <==> (FindById(employees, m.employeeId).Some?
      && !Covers(employees[FindById(employees, m.employeeId).value], required))
    ensures r.Some? ==> var e := employees[FindById(employees, m.employeeId).value];
      r.value == e.name + " lacks skills: " + Join(MissingSkills(e, required), ", ")
  {
    match FindById(employees, m.employeeId)
    case None => None
    case Some(k) =>
      var missing := MissingSkills(employees[k], required);
      if missing == [] then None else Some(employees[k].name + " lacks skills: " + Join(missing, ", "))
  }

  /** One "lacks skills" line per team member whose employee is known and misses a required skill. */
  function LackLines(team: seq<Member>, employees: seq<EmployeeView>, required: seq<string>): (r: seq<string>)
    ensures r == [] <==> forall i :: 0 <= i < |team| && FindById(employees, team[i].employeeId).Some? ==>
      Covers(employees[FindById(employees, team[i].employeeId).value], required)
    ensures |r| <= |team|
    ensures forall i :: 0 <= i < |team| && LackLine(team[i], employees, required).Some? ==>
      LackLine(team[i], employees, required).value in r
    decreases |team|
  {
    if team == [] then []
    else
      var line := LackLine(team[0], employees, required);
      var here := if line.Some? then [line.value] else [];
      var rest := LackLines(team[1..], employees, required);
      assert forall i :: 1 <= i < |team| ==> team[i] == team[1..][i - 1];
      here + rest
  }

  lemma LackLinesCons(team: seq<Member>, employees: seq<EmployeeView>, required: seq<string>)
    requires team != []
    ensures var line := LackLine(team[0], employees, required);
      LackLines(team, employees, required)
      == (if line.Some? then [line.value] else []) + LackLines(team[1..], employees, required)
  {
  }

  lemma LineFromTail(team: seq<Member>, employees: seq<EmployeeView>, required: seq<string>, x: string)
    requires team != []
    requires exists i :: 0 <= i < |team[1..]| && LackLine(team[1..][i], employees, required) == Some(x)
    ensures exists i :: 0 <= i < |team| && LackLine(team[i], employees, required) == Some(x)
  {
    var i :| 0 <= i < |team[1..]| && LackLine(team[1..][i], employees, required) == Some(x);
    assert team[i + 1] == team[1..][i];
  }

  /** The `j`-th line for a non-empty team comes from its head or, by the tail's own lines, from its tail. */
  lemma LineAt(team: seq<Member>, employees: seq<EmployeeView>, required: seq<string>, j: nat)
    requires team != [] && j < |LackLines(team, employees, required)|
    requires var rest := LackLines(team[1..], employees, required);
      forall k :: 0 <= k < |rest| ==>
        exists i :: 0 <= i < |team[1..]| && LackLine(team[1..][i], employees, required) == Some(rest[k])
    ensures exists i :: (0 <= i < |team|
      && LackLine(team[i], employees, required) == Some(LackLines(team, employees, required)[j]))
  {
    var line := LackLine(team[0], employees, required);
    var here := if line.Some? then [line.value] else [];
    var rest := LackLines(team[1..], employees, required);
    LackLinesCons(team, employees, required);
    var x := LackLines(team, employees, required)[j];
    if j < |here| {
      assert LackLine(team[0], employees, required) == Some(x);
    } else {
      assert x == rest[j - |here|];
      LineFromTail(team, employees, required, x);
    }
  }

  /** Every line names a team member's employee and that employee's missing skills. */
  lemma {:induction false} LackLinesOnlyLacks(team: seq<Member>, employees: seq<EmployeeView>, required: seq<string>)
    ensures var r := LackLines(team, employees, required);
      forall j :: 0 <= j < |r| ==>
        exists i :: 0 <= i < |team| && LackLine(team[i], employees, required) == Some(r[j])
    decreases |team|
  {
    if team != [] {
      LackLinesOnlyLacks(team[1..], employees, required);
      forall j | 0 <= j < |LackLines(team, employees, required)|
        ensures exists i :: (0 <= i < |team|
          && LackLine(team[i], employees, required) == Some(LackLines(team, employees, required)[j]))
      {
        LineAt(team, employees, required, j);
      }
    }
  }

  /** The field messages, in order, for the fields left blank. */
  function FieldErrors(d: HrDetails): (r: seq<string>)
    ensures r == [] <==> (!Blank(d.name) && !Blank(d.description) && d.startDate.text != ""
      && d.endDate.text != "" && |d.requiredSkills| > 0)
    ensures Blank(d.name) ==> r[0] == "Project name is required"
  {
    var noName := Trim(d.name) == "";
    var noDescription := Trim(d.description) == "";
    TrimEmptyIffBlank(d.name);
    TrimEmptyIffBlank(d.description);
    MessageIf(noName, "Project name is required")
    + MessageIf(noDescription, "Project description is required")
    + MessageIf(d.startDate.text == "", "Start date is required")
    + MessageIf(d.endDate.text == "", "End date is required")
    + MessageIf(|d.requiredSkills| == 0, "At least one skill is required")
  }

  function MessageIf(failed: bool, message: string): (r: seq<string>)
    ensures |r| == (if failed then 1 else 0)
    ensures failed ==> r[0] == message
  {
    if failed then [message] else []
  }

  /** `endDate <= startDate` on two `Date`s: false when either is an Invalid Date. */
  predicate EndNotAfterStart(d: HrDetails) {
    d.startDate.time.Some? && d.endDate.time.Some? && d.endDate.time.value <= d.startDate.time.value
  }

  /** `handleAssignProject`'s checks, in order; `None` when the project may be sent. */
  function AssignCheck(d: HrDetails, employees: seq<EmployeeView>): (r: Option<string>)
    ensures d.team == [] ==> r == Some("At least one employee must be selected")
    ensures d.team != [] && FieldErrors(d) != [] ==> r == Some(Join(FieldErrors(d), ", "))
    ensures d.team != [] && FieldErrors(d) == [] && EndNotAfterStart(d) ==> r == Some("End date must be after start date")
    ensures d.team != [] && FieldErrors(d) == [] && !EndNotAfterStart(d)
      && LackLines(d.team, employees, d.requiredSkills) != []
      ==> r == Some(Join(LackLines(d.team, employees, d.requiredSkills), "\n"))
    ensures r.None? <==> (d.team != [] && FieldErrors(d) == [] && !EndNotAfterStart(d)
      && LackLines(d.team, employees, d.requiredSkills) == [])
  {
    if d.team == [] then Some("At least one employee must be selected")
    else if FieldErrors(d) != [] then Some(Join(FieldErrors(d), ", "))
    else if EndNotAfterStart(d) then Some("End date must be after start date")
    else
      var lines := LackLines(d.team, employees, d.requiredSkills);
      if lines != [] then Some(Join(lines, "\n")) else None
  }

  /** Members not in the employee list are skipped by the skill check. */
  lemma UnknownMembersSkipped(d: HrDetails, employees: seq<EmployeeView>)
    requires forall i :: 0 <= i < |d.team| ==> FindById(employees, d.team[i].employeeId).None?
    ensures LackLines(d.team, employees, d.requiredSkills) == []
  {
  }

  /**
   * A team the dialog offered for the required skills passes the skill
   * check: with unique ids, every member is found as itself and covers them.
   */
  lemma OfferedTeamHasNoLacks(employees: seq<EmployeeView>, required: seq<string>, chosen: seq<EmployeeView>)
    requires UniqueIds(employees)
    requires forall i :: 0 <= i < |chosen| ==> chosen[i] in AvailableEmployees(employees, required)
    ensures LackLines(Select(Some(chosen), []), employees, required) == []
  {
    var team := Select(Some(chosen), []);
    var available := AvailableEmployees(employees, required);
    forall i | 0 <= i < |team| && FindById(employees, team[i].employeeId).Some?
      ensures Covers(employees[FindById(employees, team[i].employeeId).value], required)
    {
      var e := chosen[i];
      FindByIdMember(employees, e);
    }
  }
}

=== FILE: text.dfy ===
/**
 * The string operations the source relies on: `trim`, `toLowerCase`,
 * `includes`, `split`/`join`, binary string order and decimal rendering.
 */
module Text {
  import opened Js

  /** The characters JavaScript's `trim` and the regular expression class `\s` treat as white space. */
  predicate IsWhitespace(c: char) {
    var n := c as int;
    n == 9 || n == 10 || n == 11 || n == 12 || n == 13 || n == 32 || n == 0xA0 || n == 0x1680
    || (0x2000 <= n <= 0x200A) || n == 0x2028 || n == 0x2029 || n == 0x202F || n == 0x205F
    || n == 0x3000 || n == 0xFEFF
  }

  /** Nothing but white space (so `s.trim()` is empty and falsy). */
  predicate Blank(s: string) {
    forall i :: 0 <= i < |s| ==> IsWhitespace(s[i])
  }

  /** Drops leading white space. */
  function TrimStart(s: string): (r: string)
    ensures |r| <= |s| && r == s[|s| - |r|..]
    ensures forall i :: 0 <= i < |s| - |r| ==> IsWhitespace(s[i])
    ensures r != [] ==> !IsWhitespace(r[0])
    decreases |s|
  {
    if s != [] && IsWhitespace(s[0]) then TrimStart(s[1..]) else s
  }

  /** Drops trailing white space. */
  function TrimEnd(s: string): (r: string)
    ensures |r| <= |s| && r == s[..|r|]
    ensures forall i :: |r| <= i < |s| ==> IsWhitespace(s[i])
    ensures r != [] ==> !IsWhitespace(r[|r| - 1])
    decreases |s|
  {
    if s != [] && IsWhitespace(s[|s| - 1]) then TrimEnd(s[..|s| - 1]) else s
  }

  /** `String.prototype.trim`. */
  function Trim(s: string): string {
    TrimEnd(TrimStart(s))
  }

  /** A string trims to nothing exactly when it is blank. */
  lemma TrimEmptyIffBlank(s: string)
    ensures Trim(s) == "" <==> Blank(s)
  {
    var a := TrimStart(s);
    if Trim(s) == "" {
      assert a == [];
    } else {
      var r := Trim(s);
      assert !IsWhitespace(r[0]);
      assert r[0] == a[0] == s[|s| - |a|];
    }
  }

  /** A trimmed string has no white space at either end. */
  lemma TrimIsTrimmed(s: string)
    ensures Trim(s) != [] ==> !IsWhitespace(Trim(s)[0]) && !IsWhitespace(Trim(s)[|Trim(s)| - 1])
  {
    var a := TrimStart(s);
    var r := Trim(s);
    if r != [] {
      assert r[0] == a[0];
    }
  }

  /** `toLowerCase` on one character: the ASCII capitals move down, everything else stays. */
  function LowerChar(c: char): (r: char)
    ensures 'A' <= c <= 'Z' ==> 'a' <= r <= 'z' && r as int - c as int == 32
    ensures !('A' <= c <= 'Z') ==> r == c
  {
    if 'A' <= c <= 'Z' then (c as int + 32) as char else c
  }

  /** `String.prototype.toLowerCase` on the ASCII range. */
  function Lower(s: string): (r: string)
    ensures |r| == |s|
    ensures forall i :: 0 <= i < |s| ==> r[i] == LowerChar(s[i])
    decreases |s|
  {
    if s == [] then [] else [LowerChar(s[0])] + Lower(s[1..])
  }

  lemma LowerIdempotent(s: string)
    ensures Lower(Lower(s)) == Lower(s)
  {
  }

  /** A text without capitals is its own lower case. */
  lemma LowerNoCapitals(s: string)
    requires forall i :: 0 <= i < |s| ==> !('A' <= s[i] <= 'Z')
    ensures Lower(s) == s
  {
  }

  /** A character JavaScript stores as a surrogate pair: one beyond U+FFFF. */
  predicate Astral(c: char) {
    c as int >= 0x1_0000
  }

  /** JavaScript's `s.length`: UTF-16 code units, two for each character beyond U+FFFF. */
  function Utf16Length(s: string): (n: nat)
    ensures |s| <= n <= 2 * |s|
    ensures n == |s| <==> forall i :: 0 <= i < |s| ==> !Astral(s[i])
    decreases |s|
  {
    if s == [] then 0
    else (if Astral(s[0]) then 2 else 1) + Utf16Length(s[1..])
  }

  /** `sub` occurs in `s` starting at position `i`. */
  predicate OccursAt(s: string, sub: string, i: int) {
    0 <= i <= |s| - |sub| && s[i..i + |sub|] == sub
  }

  /** `s.includes(sub)`: `sub` occurs in `s` at some position. */
  function Contains(s: string, sub: string): (b: bool)
    ensures b <==> exists i :: OccursAt(s, sub, i)
    decreases |s|
  {
    if |sub| > |s| then false
    else if s[..|sub|] == sub then
      assert OccursAt(s, sub, 0);
      true
    else
      var rest := Contains(s[1..], sub);
      ContainsShift(s, sub);
      rest
  }

  /** An occurrence in the tail is an occurrence in `s` shifted by one, and back. */
  lemma ContainsShift(s: string, sub: string)
    requires |sub| <= |s| && s[..|sub|] != sub
    ensures (exists i :: OccursAt(s, sub, i)) <==> (exists i :: OccursAt(s[1..], sub, i))
  {
    if exists i :: OccursAt(s, sub, i) {
      var i :| OccursAt(s, sub, i);
      assert i != 0;
      assert s[1..][i - 1..i - 1 + |sub|] == sub;
      assert OccursAt(s[1..], sub, i - 1);
    }
    if exists i :: OccursAt(s[1..], sub, i) {
      var i :| OccursAt(s[1..], sub, i);
      assert s[i + 1..i + 1 + |sub|] == sub;
      assert OccursAt(s, sub, i + 1);
    }
  }

  lemma ContainsEmpty(s: string)
    ensures Contains(s, "")
  {
    assert OccursAt(s, "", 0);
  }

  /** Index of the first occurrence of `c`, if any. */
  function IndexOf(s: string, c: char): (r: Option<nat>)
    ensures r.Some? ==> r.value < |s| && s[r.value] == c && c !in s[..r.value]
    ensures r.None? <==> c !in s
    decreases |s|
  {
    if s == [] then None
    else if s[0] == c then Some(0)
    else
      match IndexOf(s[1..], c)
      case None => None
      case Some(k) =>
        assert s[..k + 1] == [s[0]] + s[1..][..k];
        Some(k + 1)
  }

  /** Index of the last occurrence of `c`, if any. */
  function LastIndexOf(s: string, c: char): (r: Option<nat>)
    ensures r.Some? ==> r.value < |s| && s[r.value] == c && c !in s[r.value + 1..]
    ensures r.None? <==> c !in s
    decreases |s|
  {
    if s == [] then None
    else if s[|s| - 1] == c then Some(|s| - 1)
    else
      var r := LastIndexOf(s[..|s| - 1], c);
      assert r.Some? ==> s[r.value + 1..] == s[..|s| - 1][r.value + 1..] + [s[|s| - 1]];
      assert r.None? ==> s == s[..|s| - 1] + [s[|s| - 1]];
      r
  }

  /** `s.split(sep)` for a one-character separator. */
  function Split(s: string, sep: char): (r: seq<string>)
    ensures |r| >= 1
    ensures forall i :: 0 <= i < |r| ==> sep !in r[i]
    decreases |s|
  {
    match IndexOf(s, sep)
    case None => [s]
    case Some(k) => [s[..k]] + Split(s[k + 1..], sep)
  }

  /** A piece free of the separator, followed by the separator, splits off as the first piece. */
  lemma SplitFirst(a: string, sep: char, b: string)
    requires sep !in a
    ensures Split(a + [sep] + b, sep) == [a] + Split(b, sep)
  {
    var s := a + [sep] + b;
    assert s[|a|] == sep;
    var k := IndexOf(s, sep).value;
    if k != |a| {
      assert false;
    }
    assert s[..k] == a;
    assert s[k + 1..] == b;
  }

  /** `parts.join(sep)`. */
  function Join(parts: seq<string>, sep: string): string
    decreases |parts|
  {
    if parts == [] then ""
    else if |parts| == 1 then parts[0]
    else parts[0] + sep + Join(parts[1..], sep)
  }

  /** Splitting on a character and joining with it gives back the original string. */
  lemma {:induction false} JoinSplit(s: string, sep: char)
    ensures Join(Split(s, sep), [sep]) == s
    decreases |s|
  {
    match IndexOf(s, sep)
    case None =>
    case Some(k) =>
      var tail := Split(s[k + 1..], sep);
      JoinSplit(s[k + 1..], sep);
      assert Split(s, sep) == [s[..k]] + tail;
      assert ([s[..k]] + tail)[1..] == tail;
      assert s == s[..k] + [sep] + s[k + 1..];
  }

  /** Every occurrence of `c` replaced by `d`. */
  function Replace(s: string, c: char, d: char): (r: string)
    ensures |r| == |s|
    ensures forall i :: 0 <= i < |s| ==> r[i] == if s[i] == c then d else s[i]
  {
    seq(|s|, i requires 0 <= i < |s| => if s[i] == c then d else s[i])
  }

  /** Replacing in a string split at its first `c` replaces that `c` by `d` and keeps the free prefix. */
  lemma ReplaceAtFirst(s: string, c: char, d: char, k: nat)
    requires k < |s| && s[k] == c && c !in s[..k]
    ensures Replace(s, c, d) == s[..k] + [d] + Replace(s[k + 1..], c, d)
  {
    var r := s[..k] + [d] + Replace(s[k + 1..], c, d);
    forall i | 0 <= i < |s|
      ensures Replace(s, c, d)[i] == r[i]
    {
      if i < k {
        assert s[..k][i] == s[i];
      } else if i > k {
        assert s[k + 1..][i - k - 1] == s[i];
      }
    }
  }

  /** Joining a leading piece onto a split tail puts the separator between them. */
  lemma JoinCons(head: string, tail: seq<string>, sep: string)
    requires |tail| >= 1
    ensures Join([head] + tail, sep) == head + sep + Join(tail, sep)
  {
    assert ([head] + tail)[1..] == tail;
  }

  /** `s.split(c).join(d)` replaces every `c` by `d`. */
  lemma {:induction false} JoinSplitReplace(s: string, c: char, d: char)
    ensures Join(Split(s, c), [d]) == Replace(s, c, d)
    decreases |s|
  {
    match IndexOf(s, c)
    case None =>
      assert Replace(s, c, d) == s;
    case Some(k) =>
      var tail := Split(s[k + 1..], c);
      JoinSplitReplace(s[k + 1..], c, d);
      assert Split(s, c) == [s[..k]] + tail;
      JoinCons(s[..k], tail, [d]);
      ReplaceAtFirst(s, c, d, k);
  }

  /** Binary (code-unit) string order, as a database sorts string keys. */
  predicate LexLe(a: string, b: string)
    decreases |a|
  {
    if a == [] then true
    else if b == [] then false
    else if a[0] != b[0] then a[0] < b[0]
    else LexLe(a[1..], b[1..])
  }

  lemma {:induction false} LexTotal(a: string, b: string)
    ensures LexLe(a, b) || LexLe(b, a)
    decreases |a|
  {
    if a != [] && b != [] && a[0] == b[0] {
      LexTotal(a[1..], b[1..]);
    }
  }

  lemma {:induction false} LexTransitive(a: string, b: string, c: string)
    requires LexLe(a, b) && LexLe(b, c)
    ensures LexLe(a, c)
    decreases |a|
  {
    if a != [] && b != [] && c != [] && a[0] == b[0] && b[0] == c[0] {
      LexTransitive(a[1..], b[1..], c[1..]);
    }
  }

  predicate IsDigit(c: char) {
    '0' as int <= c as int <= '9' as int
  }

  /** Decimal rendering of a natural number (`String(n)`). */
  function NatToString(n: nat): (r: string)
    ensures |r| >= 1
    ensures forall i :: 0 <= i < |r| ==> IsDigit(r[i])
    decreases n
  {
    if n < 10 then [('0' as int + n) as char]
    else NatToString(n / 10) + [('0' as int + n % 10) as char]
  }

  /** The value of a non-empty string of decimal digits. */
  function ParseNat(s: string): nat
    requires forall i :: 0 <= i < |s| ==> IsDigit(s[i])
    decreases |s|
  {
    if s == [] then 0
    else
      assert IsDigit(s[|s| - 1]);
      var d := s[|s| - 1] as int - '0' as int;
      ParseNat(s[..|s| - 1]) * 10 + d
  }

  /** Rendering a number in decimal and reading it back gives the number. */
  lemma {:induction false} ParseNatToString(n: nat)
    ensures ParseNat(NatToString(n)) == n
    decreases n
  {
    if n >= 10 {
      ParseNatToString(n / 10);
      var r := NatToString(n);
      assert r[..|r| - 1] == NatToString(n / 10);
    }
  }
}

=== FILE: upload.dfy ===
/**
 * The certificate upload rules (upload.js): the stored file name, the type
 * filter and the size limit. Writing the file to disk is not modelled.
 */
module Upload {
  import opened Js
  import opened Text

  /** `limits.fileSize`: 5 MiB. */
  const MaxFileSize: nat := 5 * 1024 * 1024

  /** `originalname.toLowerCase().split(' ').join('-')`. */
  function SanitizeName(original: string): (r: string)
    ensures |r| == |original|
    ensures ' ' !in r
    ensures forall i :: 0 <= i < |r| ==> r[i] == if original[i] == ' ' then '-' else LowerChar(original[i])
  {
    JoinSplitReplace(Lower(original), ' ', '-');
    Join(Split(Lower(original), ' '), "-")
  }

  /** Sanitising a sanitised name changes nothing. */
  lemma SanitizeIdempotent(original: string)
    ensures SanitizeName(SanitizeName(original)) == SanitizeName(original)
  {
    var once := SanitizeName(original);
    var twice := SanitizeName(once);
    forall i | 0 <= i < |once|
      ensures twice[i] == once[i]
    {
      assert once[i] != ' ';
      if original[i] != ' ' && 'A' <= original[i] <= 'Z' {
        assert 'a' <= once[i] <= 'z';
      }
    }
  }

  /** The name multer stores the file under at time `now` (milliseconds): `${now}-${sanitised}`. */
  function StoredName(original: string, now: nat): (r: string)
    ensures r == NatToString(now) + "-" + SanitizeName(original)
    ensures ' ' !in r
  {
    NatToString(now) + "-" + SanitizeName(original)
  }

  /** The time stamp can be read back from the stored name: the text before the first `-`. */
  lemma StoredNameTimestamp(original: string, now: nat)
    ensures var pieces := Split(StoredName(original, now), '-');
      && pieces[0] == NatToString(now)
      && (forall i :: 0 <= i < |pieces[0]| ==> IsDigit(pieces[0][i]))
      && ParseNat(pieces[0]) == now
  {
    var stamp := NatToString(now);
    assert forall i :: 0 <= i < |stamp| ==> stamp[i] != '-';
    assert StoredName(original, now) == stamp + ['-'] + SanitizeName(original);
    SplitFirst(stamp, '-', SanitizeName(original));
    ParseNatToString(now);
  }

  /**
   * `path.extname` of a file name without directory separators: from the last
   * `.` to the end, or "" when there is no dot, when the only dot starts the
   * name (".bashrc"), or for the name "..".
   */
  function ExtName(name: string): (r: string)
    ensures r != "" ==> r[0] == '.' && '.' !in r[1..]
    ensures r != "" ==> |r| <= |name| && r == name[|name| - |r|..] && |r| < |name|
    ensures (forall d :: 0 < d < |name| ==> name[d] != '.') ==> r == ""
    ensures name == ".." ==> r == ""
    ensures (exists d :: 0 < d < |name| && name[d] == '.') && name != ".." ==> r != ""
  {
    match LastIndexOf(name, '.')
    case None => ""
    case Some(d) => if d == 0 || name == ".." then "" else name[d..]
  }

  /** `/pdf|jpg|jpeg|png/.test(s)`: one of the four words occurs in `s`. */
  predicate AllowedType(s: string) {
    Contains(s, "pdf") || Contains(s, "jpg") || Contains(s, "jpeg") || Contains(s, "png")
  }

  /** `fileFilter`: the lower-cased extension and the mimetype as sent must both pass. */
  predicate Accepts(original: string, mimetype: string) {
    AllowedType(Lower(ExtName(original))) && AllowedType(mimetype)
  }

  /** A file in a multipart request: its client-side name, declared type and size in bytes. */
  datatype FileInput = FileInput(originalname: string, mimetype: string, size: nat)

  /** What the upload step leaves for the handler: no file, a stored file, or an error. */
  datatype UploadOutcome = NoFile | Stored(filename: string) | UploadError(message: string)

  const TypeError: string := "Only PDF, JPG, JPEG, or PNG files are allowed"

  /** multer's error text for `LIMIT_FILE_SIZE`. */
  const SizeError: string := "File too large"

  /**
   * `upload.single('certificateFile')` at time `now`: the type filter runs
   * before any data is read, the size limit while it is read.
   */
  function ReceiveFile(file: Option<FileInput>, now: nat): (r: UploadOutcome)
    ensures file.None? <==> r.NoFile?
    ensures r.Stored? <==> (file.Some? && Accepts(file.value.originalname, file.value.mimetype)
      && file.value.size <= MaxFileSize)
    ensures r.Stored? ==> r.filename == StoredName(file.value.originalname, now)
    ensures file.Some? && !Accepts(file.value.originalname, file.value.mimetype) ==> r == UploadError(TypeError)
    ensures r.UploadError? && r.message == SizeError ==> file.value.size > MaxFileSize
    ensures file.Some? && Accepts(file.value.originalname, file.value.mimetype) && file.value.size > MaxFileSize
      ==> r == UploadError(SizeError)
  {
    match file
    case None => NoFile
    case Some(f) =>
      if !Accepts(f.originalname, f.mimetype) then UploadError(TypeError)
      else if f.size > MaxFileSize then UploadError(SizeError)
      else Stored(StoredName(f.originalname, now))
  }

  /** An upper-case extension is accepted, since the extension is lower-cased first. */
  lemma UpperCaseExtensionAccepted()
    ensures Accepts("Scan 1.PDF", "application/pdf")
  {
    PdfExtension();
    PdfTypes();
  }

  lemma PdfExtension()
    ensures Lower(ExtName("Scan 1.PDF")) == ".pdf"
  {
    assert LastIndexOf("Scan 1.PDF", '.') == Some(6);
    assert ExtName("Scan 1.PDF") == ".PDF";
    LowerPdf();
  }

  lemma LowerPdf()
    ensures Lower(".PDF") == ".pdf"
  {
  }

  lemma PdfTypes()
    ensures AllowedType(".pdf") && AllowedType("application/pdf")
  {
    assert OccursAt(".pdf", "pdf", 1);
    assert OccursAt("application/pdf", "pdf", 12);
  }

  /** The type is matched as a substring, so an extension that merely contains a word passes. */
  lemma SubstringExtensionAccepted()
    ensures Accepts("notes.pngx", "image/png")
  {
    PngxExtension();
    PngTypes();
  }

  lemma PngxExtension()
    ensures Lower(ExtName("notes.pngx")) == ".pngx"
  {
    assert LastIndexOf("notes.pngx", '.') == Some(5);
    assert ExtName("notes.pngx") == ".pngx";
    LowerNoCapitals(".pngx");
  }

  lemma PngTypes()
    ensures AllowedType(".pngx") && AllowedType("image/png")
  {
    assert OccursAt(".pngx", "png", 1);
    assert OccursAt("image/png", "png", 6);
  }

  /** A name with no extension is refused, whatever type the client declares. */
  lemma NoExtensionRefused(original: string, mimetype: string)
    requires '.' !in original
    ensures !Accepts(original, mimetype)
  {
    assert Lower(ExtName(original)) == "";
  }
}
